=== FILE: README.md ===
# Communication nets of MPI programs, in Dafny

A model of the parts of morpheus that build *communication nets* (CNs). A CN
is a coloured Petri net that describes the MPI communication of one process.
The model covers three parts.

- **The CN container** (`CommunicationNet`). A net holds places, guarded
  transitions and three append-only edge lists: input, output and
  control-flow. Every net, place and transition draws its id from one 32-bit
  counter that wraps around. The container also has a text rendering.
- **Plugin and addressable nets.** A plugin net has an entry and an exit
  place. Injecting another plugin net moves all of that net's elements in,
  joins the two entries by a control-flow edge, and makes the injected net's
  exit the new entry. An addressable net is the plugin net of one process:
  its address plus four mailbox places (asr, arr, csr, crr). Before a
  fragment is injected into it, the fragment is wired to those mailboxes
  by its `connect`. That method is the only code that wires a fragment to
  the mailboxes, and the injection calls only empty hooks in its place (see
  "Left out").
  The model also covers the builder of the message-request colour
  expression.
- **The factory and the labelling analysis.**
  - The factory has one fragment per recognised MPI call: `MPI_Isend`,
    `MPI_Send`, `MPI_Irecv`, `MPI_Recv`, `MPI_Wait` and `MPI_Waitall`. Any
    other call gets an empty fragment. Each fragment comes with its
    `connect` and, for receives, the deferred resolve functions. The
    dispatcher `createCommSubnet` picks the fragment.
  - The MPI labelling analysis walks the call graph. It labels every
    function by how it involves MPI. It records the direct and the mediate
    MPI call sites of each function, and the call sites of each MPI function.

Modules, in dependency order:

| file | module | contents |
|---|---|---|
| `wrappers.dfy` | `Wrappers` | `Option` |
| `ids.dfy` | `Ids` | the wrapping id counter; the decimal rendering of ids |
| `commnet.dfy` | `CommNet` | elements, nets, the `add_*` primitives, absorption, rendering |
| `pluginnets.dfy` | `PluginNets` | plugin nets, splicing, addressable nets, the message-request parts |
| `factory.dfy` | `Factory` | fragments and their layouts, `createCommSubnet` |
| `connect.dfy` | `Mailboxes` | `connect` of each fragment; injection into an addressable net |
| `resolve.dfy` | `DeferredResolution` | the two resolve functions stored by `CN_MPI_Irecv` |
| `labelling.dfy` | `Labelling` | `explore_function`, `explore_bb`, `run`, `get_call` |

The counter is passed explicitly. A constructor takes the counter value and
returns the built value together with the advanced counter (`Built`).
Element identity is the id. An edge names its endpoints by id (`PlaceRef`,
`TransitionRef`), so "the edge points into this net" is the predicate
`Closed`. Uniqueness of ids is the predicate `FreshIds(n, lo, hi)`: all ids
in `n` are distinct and lie in `(lo, hi]`. The counter wraps after 2^32
draws, so every freshness result is stated for the case where the counter
does not wrap. `Ids.DrawAfterMaximumWraps` shows the repeat that happens
once it does wrap.

## Model

| member | source | states |
|---|---|---|
| Ids.NextId | include/morpheus/ADT/CommunicationNet.hpp:60-63 | a draw pre-increments the `unsigned int` counter: it gives c + 1, or 0 after 2^32 - 1, and never the value it started from |
| Ids.DrawsIncrease | include/morpheus/ADT/CommunicationNet.hpp:60-63 | k draws without wrap hand out exactly c+1 … c+k, and the counter ends at c+k |
| Ids.DrawsDistinct | include/morpheus/ADT/CommunicationNet.hpp:60-63 | ids drawn without wrap are strictly increasing, hence pairwise distinct |
| Ids.DrawAfterMaximumWraps | include/morpheus/ADT/CommunicationNet.hpp:60-63 | after 2^32 - 1 the next id is 0, so ids repeat once the counter wraps |
| Ids.ParseDecimalInverts | include/morpheus/ADT/CommunicationNet.hpp:62 | the decimal text `std::to_string` gives an id reads back as that id |
| Ids.DecimalInjective | include/morpheus/ADT/CommunicationNet.hpp:62 | distinct ids have distinct decimal texts |
| CommNet.NewNet | include/morpheus/ADT/CommunicationNet.hpp:55 | a new net is empty and takes the next id from the counter |
| CommNet.AddPlace | include/morpheus/ADT/CommunicationNet.hpp:209-212 | `add_place` appends exactly one place with the given type, init and name and the next id; every other list is unchanged |
| CommNet.AddTransition | include/morpheus/ADT/CommunicationNet.hpp:219-222 | `add_transition` appends one transition with the guard list, the name and the next id; nothing else changes |
| CommNet.AddPlaceInOrder | include/morpheus/ADT/CommunicationNet.hpp:209-212 | adding a place to a net whose ids were drawn in sequence keeps them in sequence |
| CommNet.AddTransitionInOrder | include/morpheus/ADT/CommunicationNet.hpp:219-222 | the same for a transition |
| CommNet.DrawnInOrderIsDraws | include/morpheus/ADT/CommunicationNet.hpp:60-63 | without wrap, ids in sequence after `lo` are exactly the ids successive draws of the counter from `lo` hand out, in both directions |
| CommNet.DrawnInOrderFresh | include/morpheus/ADT/CommunicationNet.hpp:60-63 | elements drawn in sequence after `lo` have distinct ids within the window they were drawn in |
| CommNet.AddInputEdge | include/morpheus/ADT/CommunicationNet.hpp:229-232 | `add_input_edge` appends one place-to-transition edge of the given kind and arc; nothing else changes |
| CommNet.AddOutputEdge | include/morpheus/ADT/CommunicationNet.hpp:238-241 | `add_output_edge` appends one transition-to-place `Take` edge; nothing else changes |
| CommNet.AddControlFlowEdge | include/morpheus/ADT/CommunicationNet.hpp:247-251 | `add_cf_edge` appends one control-flow edge between any two nodes; nothing else changes |
| CommNet.AbsorbIds | include/morpheus/ADT/CommunicationNet.hpp:406-425 | moving all elements of one net into another keeps every element of both: the id sets are the unions |
| CommNet.AbsorbClosed | include/morpheus/ADT/CommunicationNet.hpp:406-425 | moving in a net whose edges reach only itself or the receiver keeps the receiver closed |
| CommNet.AbsorbFresh | include/morpheus/ADT/CommunicationNet.hpp:406-425 | nets drawn in disjoint id windows stay duplicate-free after the move |
| CommNet.AddEdgesKeepClosed | include/morpheus/ADT/CommunicationNet.hpp:229-251 | edges added between elements already in a closed net keep it closed |
| CommNet.ClosedByIndex | include/morpheus/ADT/CommunicationNet.hpp:229-251 | a net whose every edge, index by index, joins its own nodes is closed |
| CommNet.RenderGuards | include/morpheus/ADT/CommunicationNet.hpp:163-170 | the loop printing the guard list gives the guards joined by `", "` |
| CommNet.RenderPlaceId | include/morpheus/ADT/CommunicationNet.hpp:124-140 | a place's text starts with `P(`, then its id in decimal, which reads back from the text |
| CommNet.RenderTransitionId | include/morpheus/ADT/CommunicationNet.hpp:158-172 | a transition's text starts with `T(`, then its id in decimal, which reads back from the text |
| CommNet.RenderingsDistinguishElements | include/morpheus/ADT/CommunicationNet.hpp:124-172 | places or transitions with different ids render differently, and a place never renders like a transition |
| CommNet.RenderEdgeDeterminesArc | include/morpheus/ADT/CommunicationNet.hpp:102-108 | between the same endpoints, the rendered edge determines the arc expression |
| CommNet.RenderNetLineCount | include/morpheus/ADT/CommunicationNet.hpp:331-368 | with single-line element texts, the net prints one header line, and for each non-empty section of the five one title line plus one line per element; an empty section prints nothing |
| CommNet.RenderNetEmpty | include/morpheus/ADT/CommunicationNet.hpp:331-368 | the net prints only its header if and only if it has no elements at all |
| PluginNets.NewPlugin | include/morpheus/ADT/CommunicationNet.hpp:381-383 | a new plugin net has exactly two `Unit` places, `entry<id>` and `exit<id>`, which are its entry and exit; no transitions or edges; ids net, entry, exit = c+1, c+2, c+3 |
| PluginNets.AddPlaces | include/morpheus/ADT/CommunicationNet.hpp:209-212 | adding a list of places appends them in order with their names, types and inits, draws their ids in sequence, and leaves everything else unchanged |
| PluginNets.Splice | include/morpheus/ADT/CommunicationNet.hpp:404-432 | injection appends each of the five lists, adds one control-flow edge from the old entry to the injected entry, makes the injected exit the entry, and keeps the exit |
| PluginNets.SpliceWellFormed | include/morpheus/ADT/CommunicationNet.hpp:404-432 | injecting a net closed over the receiver keeps the receiver closed with its entry and exit present, and loses no element |
| PluginNets.SpliceFresh | include/morpheus/ADT/CommunicationNet.hpp:404-432 | injecting a net drawn after the receiver keeps ids unique, and the new entry is not the exit |
| PluginNets.MessageRequestParts | include/morpheus/ADT/CommunicationNet.hpp:474-501 | the request starts with `id=unique(id)`; it has one `key=value` part for each non-empty field, in the order src, dest, tag, buffered |
| PluginNets.MessageRequestRoundTrip | include/morpheus/ADT/CommunicationNet.hpp:474-501 | each of src, dest, tag and buffered reads back from the built parts, and an empty field reads back as empty |
| PluginNets.FieldValueSkip | include/morpheus/ADT/CommunicationNet.hpp:474-501 | parts that do not set a key do not change what the key reads back as |
| PluginNets.NewAddressable | include/morpheus/ADT/CommunicationNet.hpp:516-521 | an addressable net keeps its address and adds, after entry and exit, the four mailboxes asr, arr, csr, crr with their source names and colour types, no edges, all ids fresh |
| PluginNets.AddressableInject | include/morpheus/ADT/CommunicationNet.hpp:526-533 | injection into an addressable net is the plugin splice; the address and the four mailboxes stay |
| PluginNets.AddressableInjectWellFormed | include/morpheus/ADT/CommunicationNet.hpp:526-533 | injecting a net closed over the addressable net keeps it well formed, mailboxes included |
| PluginNets.RenderAddressableAddress | include/morpheus/ADT/CommunicationNet.hpp:535-540 | the address reads back from the digits after `Adress: ` in the text `AddressableCommNet::print` writes |
| Factory.EmptyFragment | include/morpheus/ADT/CommNetFactory.hpp:20-37 | the empty fragment keeps only the entry and exit places, each with the callee's name appended, joined by one control-flow edge; no transitions, no other edges, no registrations; ids fresh |
| Factory.EmptyLayoutWellFormed | include/morpheus/ADT/CommNetFactory.hpp:20-37 | that layout is a well-formed fragment |
| Factory.IsendElements | include/morpheus/ADT/CommNetFactory.hpp:63-68 | Isend's places `send<label>_params`, `_reqst` and `_exit` with their types and empty inits, then the transition `send<label>`, in drawing order, no edges |
| Factory.IsendFragment | include/morpheus/ADT/CommNetFactory.hpp:63-91 | the Isend net: the params, request and exit places, one transition and its five edges with the arc expressions of the source; ids fresh |
| Factory.IsendLayoutWellFormed | include/morpheus/ADT/CommNetFactory.hpp:63-91 | that layout is a well-formed fragment |
| Factory.RecvElements | include/morpheus/ADT/CommNetFactory.hpp:132-138 | the receive base's places `recv<label>_params`, `_data`, `_reqst` and `_exit` with their types and empty inits, then the transition `recv<label>`, in drawing order, no edges |
| Factory.RecvBaseFragment | include/morpheus/ADT/CommNetFactory.hpp:132-158 | the receive base net with its edges and arc expressions, registering nothing; ids fresh |
| Factory.RecvLayoutWellFormed | include/morpheus/ADT/CommNetFactory.hpp:132-158 | that layout, with registrations inside the net, is a well-formed fragment |
| Factory.IrecvFragment | include/morpheus/ADT/CommNetFactory.hpp:178-195 | Irecv keeps the receive base net and registers one deferred resolution. For a request that is an array element, the resolution is collective, keyed by the array and attached to the data place. Otherwise it is direct, keyed by the request and attached to the request place |
| Factory.WaitFragment | include/morpheus/ADT/CommNetFactory.hpp:267-280 | the Wait net: entry, one `wait` transition and exit, joined by two control-flow edges, with no other places or edges; only when built for a call site does it register its transition under the request (argument 0) |
| Factory.WaitLayoutWellFormed | include/morpheus/ADT/CommNetFactory.hpp:267-280 | that layout is a well-formed fragment |
| Factory.ComposeSend | include/morpheus/ADT/CommNetFactory.hpp:308-316 | a blocking send is an Isend followed by a Wait in one plugin net; the places and transitions are those of the parts, and the parts' registrations (none) are moved along |
| Factory.SendFragment | include/morpheus/ADT/CommNetFactory.hpp:308-316 | the Send net has the composed layout; ids fresh |
| Factory.SendLayoutWellFormed | include/morpheus/ADT/CommNetFactory.hpp:308-316 | that layout is a well-formed fragment |
| Factory.ComposeRecv | include/morpheus/ADT/CommNetFactory.hpp:341-357 | a blocking receive is the receive base followed by a Wait; its places and transitions are the parts', and the parts' registrations (none) are moved along |
| Factory.RecvFragment | include/morpheus/ADT/CommNetFactory.hpp:341-357 | the Recv net has the composed layout; ids fresh |
| Factory.RecvBlockingLayoutWellFormed | include/morpheus/ADT/CommNetFactory.hpp:341-357 | that layout is a well-formed fragment |
| Factory.WaitallFragment | include/morpheus/ADT/CommNetFactory.hpp:391-405 | the Waitall net: entry, exit, an `Int` count place and a requests place; one `waitall` transition taking `size` from the count and `take(_, size, requests)` from the requests; entry -> waitall -> exit; the transition registered under argument 1; ids fresh |
| Factory.WaitallLayoutWellFormed | include/morpheus/ADT/CommNetFactory.hpp:391-405 | that layout is a well-formed fragment |
| Factory.KindOf | include/morpheus/ADT/CommNetFactory.hpp:432-446 | the callee name selects each of the six constructors exactly when it is that MPI name, in both directions |
| Factory.CreateCommSubnet | include/morpheus/ADT/CommNetFactory.hpp:428-447 | each of the six MPI names yields exactly the net its constructor builds (the Isend, Send, Irecv with its registration, Recv, Wait registered under argument 0, or Waitall layout); any other name yields the `EmptyCN` layout named after the callee; the result is well formed with fresh ids |
| Mailboxes.Connect | include/morpheus/ADT/CommNetFactory.hpp:32-418 | every fragment's `connect` (lines 32-34, 96-99, 163-165, 285-293, 321-324, 362-365, 410-418) keeps every element. It appends only the one output edge into asr or arr of a send or receive, and the one shuffle input from csr or crr of a blocking call. A Wait or Waitall with a request changes only its pending registration |
| Mailboxes.ConnectMailboxCounts | include/morpheus/ADT/CommNetFactory.hpp:96-99 | per mailbox, `connect` adds one edge exactly for the calls that use that mailbox, and none otherwise |
| Mailboxes.IsendConnect | include/morpheus/ADT/CommNetFactory.hpp:96-99 | an Isend's `connect` appends exactly one output edge, from its send transition into asr, carrying the buffer and the buffered request; inputs, control flow and registrations are unchanged |
| Mailboxes.IrecvConnect | include/morpheus/ADT/CommNetFactory.hpp:163-165 | an Irecv's `connect` appends exactly one output edge, from its recv transition into arr, carrying the unbuffered receive request; nothing else changes |
| Mailboxes.SendConnect | include/morpheus/ADT/CommNetFactory.hpp:321-324 | a Send's `connect` appends the send -> asr message edge and exactly one shuffle input from csr into `t_wait` with the completion arc `[buffered] {data=data, envelope={id=id}}`; control flow and registrations are unchanged |
| Mailboxes.RecvConnect | include/morpheus/ADT/CommNetFactory.hpp:362-365 | a Recv's `connect` appends the recv -> arr request edge and exactly one shuffle input from crr into `t_wait` with the arc `{data=data, envelope={id=id}}`; control flow and registrations are unchanged |
| Mailboxes.EmptyConnect | include/morpheus/ADT/CommNetFactory.hpp:32-34 | `EmptyCN::connect` changes nothing |
| Mailboxes.WaitConnect | include/morpheus/ADT/CommNetFactory.hpp:285-293 | a Wait for a call site records a pending shuffle edge from crr into its transition, keyed by the request; a Wait inside a blocking call connects nothing |
| Mailboxes.WaitallConnect | include/morpheus/ADT/CommNetFactory.hpp:410-418 | a Waitall records the same pending edge, keyed by its request array |
| Mailboxes.Inject | include/morpheus/ADT/CommunicationNet.hpp:526-533 | injecting a fragment runs its `connect` on this net's mailboxes (the only code that wires a fragment to the mailboxes, run where the source calls the four empty `connect_*` hooks), then splices its elements in; the address and mailboxes stay (the registrations travel in `InjectInto`) |
| Mailboxes.ConnectClosedOver | include/morpheus/ADT/CommNetFactory.hpp:96-99 | a connected well-formed fragment has edges only into itself and the addressable net |
| Mailboxes.InjectWellFormed | include/morpheus/ADT/CommunicationNet.hpp:526-533 | injecting a well-formed fragment keeps the addressable net well formed |
| Mailboxes.InjectFresh | include/morpheus/ADT/CommunicationNet.hpp:526-533 | injecting a fragment drawn after the net keeps all ids unique |
| Mailboxes.InjectMailboxCounts | include/morpheus/ADT/CommunicationNet.hpp:526-533 | after an injection, each mailbox has the edges it had, plus the fragment's, plus the one `connect` adds |
| Mailboxes.FragmentAvoidsMailbox | include/morpheus/ADT/CommNetFactory.hpp:63-91 | a well-formed fragment that does not own a mailbox place has no edge touching it |
| Mailboxes.TwoIsendsPostTwoMessages | include/morpheus/ADT/CommNetFactory.hpp:96-99 | two Isends injected into a fresh addressable net give exactly two edges into asr and none into arr |
| DeferredResolution.Resolve | include/morpheus/ADT/CommNetFactory.hpp:201-246 | a resolution keeps every element and control-flow edge. It appends one output from the wait into the data place. The direct form also appends the take of the request; a pending edge from crr follows with the matching arc |
| DeferredResolution.ResolveClosed | include/morpheus/ADT/CommNetFactory.hpp:201-246 | a resolution whose places and transitions are in a closed net keeps it closed |
| DeferredResolution.ResolveCounts | include/morpheus/ADT/CommNetFactory.hpp:201-246 | a resolution delivers exactly one more edge into the data place; only the direct one takes from the request place |
| DeferredResolution.IrecvWaitDirect | include/morpheus/ADT/CommNetFactory.hpp:201-221 | an Irecv completed by a connected Wait on the same request gets the request take, the crr shuffle and the data delivery, and nothing else |
| Mailboxes.InjectInto | include/morpheus/ADT/CommNetFactory.hpp:285-293 | injecting into a process moves the fragment into the net and appends its registrations, with the pending crr edge its `connect` planned, to the ones still to resolve |
| Mailboxes.InjectIds | include/morpheus/ADT/CommunicationNet.hpp:526-533 | after an injection the net's places and transitions are exactly the old ones and the fragment's |
| Mailboxes.ConnectPendingIn | include/morpheus/ADT/CommNetFactory.hpp:410-418 | `connect` plans mailbox edges only from this net's crr into the fragment's own waiting transition |
| Mailboxes.InjectIntoWellFormed | include/morpheus/ADT/CommNetFactory.hpp:285-293 | injecting a well-formed, unconnected fragment keeps every pending registration and planned edge inside the grown net |
| DeferredResolution.ResolvePending | include/morpheus/ADT/CommNetFactory.hpp:201-246 | any pending pair of a well-formed process resolves within its net and keeps it closed |
| DeferredResolution.IrecvThenWaitResolves | include/morpheus/ADT/CommNetFactory.hpp:201-221 | an Irecv then the Wait on its request, both injected: their registrations share the handle, and resolving them in the grown net adds exactly the request take, the crr shuffle and the data delivery, keeping the net closed |
| DeferredResolution.IrecvWaitallCollective | include/morpheus/ADT/CommNetFactory.hpp:223-246 | an Irecv into a request-array element completed by a Waitall on that array gets the data delivery and the collective crr take; the request place is untouched |
| Labelling.Touch | libs/Analysis/MPILabellingAnalysis.cpp:48 | indexing the per-function call maps creates an empty entry for a missing key and keeps every other entry |
| Labelling.Push | libs/Analysis/MPILabellingAnalysis.cpp:77-81 | recording a call site appends it to that key's list (empty if new); other keys keep theirs |
| Labelling.ExploreFunction | libs/Analysis/MPILabellingAnalysis.cpp:27-60 | A labelled function returns its stored label unchanged. An `MPI_` name is labelled `MPI_CALL`. Otherwise the function gets the label it returns, and gets call entries if it has blocks. `PROCESSING` comes back only from a function still being explored. The state only grows |
| Labelling.ExploreBlocks | libs/Analysis/MPILabellingAnalysis.cpp:46-56 | one label per block, each `SEQUENTIAL`, `MPI_INVOLVED` or `MPI_INVOLVED_MEDIATELY`; the state only grows |
| Labelling.BlockStep | libs/Analysis/MPILabellingAnalysis.cpp:48 | exploring one block creates the function's two call lists and yields a block label; the state only grows |
| Labelling.ExploreBlock | libs/Analysis/MPILabellingAnalysis.cpp:62-90 | a block's label is a block label, and exploring it only grows the state |
| Labelling.CallStep | libs/Analysis/MPILabellingAnalysis.cpp:70-86 | one call keeps the block label a block label and only grows the state |
| Labelling.FoldMaxIsMax | libs/Analysis/MPILabellingAnalysis.cpp:51-53 | the running maximum is at least its start and every label folded in |
| Labelling.FunctionLabelIsMax | libs/Analysis/MPILabellingAnalysis.cpp:46-58 | a function's label is the greatest of `SEQUENTIAL` and its blocks' labels, and is one of them |
| Labelling.Memoised | libs/Analysis/MPILabellingAnalysis.cpp:29-32 | exploring a labelled function changes nothing and returns its label |
| Labelling.SelfRecursion | libs/Analysis/MPILabellingAnalysis.cpp:43-44 | A function whose only call is to itself ends `SEQUENTIAL` with no mediate call when `PROCESSING` ranks at or below `MPI_CALL`. Otherwise it ends `MPI_INVOLVED_MEDIATELY`, recording itself as a mediate call. In both cases no MPI call is recorded |
| Labelling.MpiCallRecorded | libs/Analysis/MPILabellingAnalysis.cpp:75-78 | a call to an MPI routine, whether it is still unlabelled (first call) or already labelled `MPI_CALL` (any later call), makes the block `MPI_INVOLVED` and appends the site to that name's calls and the caller's direct calls; the mediate calls and every other entry are unchanged, and the labels change only by the callee's new `MPI_CALL` |
| Labelling.MediateCallRecorded | libs/Analysis/MPILabellingAnalysis.cpp:72-82 | a call whose callee's label, stored or found by exploring it on this first call, ranks above `MPI_CALL` makes the block `MPI_INVOLVED_MEDIATELY`, leaves the callee so labelled, and ends the caller's mediate calls with the site. When the caller is being walked (labelled) or the callee was labelled, the caller's mediate list is exactly the old one plus the site and its direct list is unchanged. A labelled callee changes nothing else |
| Labelling.QuietCallKeepsLabel | libs/Analysis/MPILabellingAnalysis.cpp:72-82 | a call whose callee's label, stored or found on this first call, is neither `MPI_CALL` nor above it keeps the block label and records nothing beyond what exploring the callee did; a labelled callee changes nothing |
| Labelling.ExploreFunctionKeeps | libs/Analysis/MPILabellingAnalysis.cpp:27-60 | exploring a function leaves the direct and mediate lists of every function labelled before it started exactly as they were |
| Labelling.CallStepKeeps | libs/Analysis/MPILabellingAnalysis.cpp:70-86 | one call of the block of `f` changes the direct and mediate lists of no labelled function other than `f` |
| Labelling.IndirectCallIgnored | libs/Analysis/MPILabellingAnalysis.cpp:83-86 | a call without a known callee changes neither the block label nor the state |
| Labelling.Run | libs/Analysis/MPILabellingAnalysis.cpp:11-18 | the analysed function ends labelled with the returned label, which is never `PROCESSING`, and every recorded MPI name has a call |
| Labelling.GetCall | libs/Analysis/MPILabellingAnalysis.cpp:92-98 | `get_call` is null exactly when no call of the name was recorded, and otherwise the first recorded call |
| Labelling.GetCallStable | libs/Analysis/MPILabellingAnalysis.cpp:92-98 | once a name has a call, further exploration does not change which call `get_call` returns |

## Left out

- LLVM: call sites, values and the helper strings (`compute_*`, `get_id`, the type names of operands) are modelled. A call site is a callee name plus a list of argument values. Each helper string is a field of the `Helpers` record, a total function with unspecified text.
- CommNet.RenderPlace: an element with an empty name prints its address in the source. The model prints the name as it is.
- `PluginCNBase`, `takeover`, `set_exit`, `add_unresolved_*`, `AddressableCN` and `IncompleteEdge` are not part of this model's sources.
  - `takeover` is modelled as the unwired move of every element (`Absorb`) and registration (`MergeRegistries`, in `ComposeSend`, `ComposeRecv` and `InjectInto`).
  - An unresolved edge that gets materialised becomes an input edge from crr into the wait transition, of the recorded kind.
- Mailboxes.Inject: `AddressableCommNet::inject_pluign_cn` (CommunicationNet.hpp:526-533) calls the four `connect_asr` … `connect_crr` hooks, which are empty in `PluginCommNet` (lines 439-442, marked as not knowing the mailboxes) and overridden by no class shown. The fragments' `connect(AddressableCN &)` is a different method that nothing shown calls. Each fragment's `connect` (CommNetFactory.hpp:32-34, 96-99, 163-165, 285-293, 321-324, 362-365, 410-418) is the only code that wires a fragment to the mailboxes, so the model runs it where `inject_pluign_cn` calls the empty hooks. As written, the hooks add no edges.
- Mailboxes.Inject: `inject_pluign_cn` moves only places, transitions and the three edge lists, so the addressable net itself carries no registrations. Where the program keeps the registrations of injected fragments is not in these sources. The model keeps them beside the net in `Process`, and `InjectInto` appends each connected fragment's registrations there.
- PluginNets.RenderAddressableAddress: `AddressableCommNet::print` is not `const`, so it does not override `Printable::print`. Printing the net through `operator<<` gives the plain `CommunicationNet` text, with no address and no rules. Only a direct call of `print` on a non-`const` addressable net is modelled.
- Mailboxes.Connect: `CN_MPI_Send::connect` calls the Isend part's `connect` after that part was moved into the Send net. The model adds the asr edge to the Send net, which is the evident intent. Whether the moved-from object still reaches the net depends on `takeover`, which is not shown.
- The order of the `ExplorationState` values is not in these sources. Only `SEQUENTIAL` being the least is used. The order is the parameter `rank` (injective, `SEQUENTIAL` least), and every labelling result holds for every such order.
- Labelling: functions are keyed by name and basic blocks are lists of call instructions. `CallFinder` is not part of this model; its result is the block's call list.
- Labelling: `DenseMap` references can be invalidated while `explore_bb` holds `direct_mpi_calls[f]` across recursive calls. The model updates the maps by value, which is the evident intent.
- Labelling.ExploreBlock: `res_es` is overwritten by each call, not maximised, as written. A later `MPI_INVOLVED` call replaces an earlier `MPI_INVOLVED_MEDIATELY`, and the reverse.
- Labelling.CallStep: the error message printed for a call without a known callee is left out (I/O). The call is otherwise ignored.
- Labelling.GetCall: requires every recorded MPI name to have at least one call. Every state reachable from `Run` meets that (`Recorded`), because entries are created only by appending.
- Factory.CreateCommSubnet: requires the callee to be named, as the source asserts. Each recognised call must carry the arguments its constructor reads (`ArgumentsPresent`), as every such MPI call does.
- Every freshness result (`FreshIds`) is stated only for the case where the counter does not wrap within the construction. Past 2^32 draws, ids repeat.
- DeferredResolution.Resolve: matching a registered place with a wait transition by their handles is not modelled. `Resolve` takes the matched pair; the lemmas about it show that the handles of the pairs they build agree.
- Printing through `raw_ostream` is modelled as building the string that would be written.

=== FILE: commnet.dfy ===
/**
 * The Communication Net container: places, guarded transitions and three
 * append-only edge lists (input, output, control-flow), with the canonical
 * text rendering of each element.
 */
module CommNet {
  import opened Wrappers
  import opened Ids

  type Id = Counter

  /** Kind of an edge; only input edges use kinds other than `Take`. */
  datatype EdgeKind = Take | ForceTake | ReadOnly | ForceReadOnly | Shuffle

  datatype Place = Place(id: Id, name: string, typ: string, init: string)

  datatype Transition = Transition(id: Id, name: string, guards: seq<string>)

  /** An edge endpoint: the identity of a place or of a transition. */
  datatype NodeRef = PlaceRef(id: Id) | TransitionRef(id: Id)

  datatype Edge = Edge(src: NodeRef, dst: NodeRef, kind: EdgeKind, arc: string)

  datatype Net = Net(
    id: Id,
    places: seq<Place>,
    transitions: seq<Transition>,
    inputs: seq<Edge>,
    outputs: seq<Edge>,
    controlFlow: seq<Edge>)

  /** The result of adding an element: the grown net, the element, the counter. */
  datatype Added<T> = Added(net: Net, elem: T, counter: Counter)

  // ---------------------------------------------------------------------------
  // Structural predicates

  function PlaceIds(n: Net): set<Id> {
    set p | p in n.places :: p.id
  }

  function TransitionIds(n: Net): set<Id> {
    set t | t in n.transitions :: t.id
  }

  predicate RefIn(r: NodeRef, n: Net) {
    match r
    case PlaceRef(i) => i in PlaceIds(n)
    case TransitionRef(i) => i in TransitionIds(n)
  }

  function AllEdges(n: Net): seq<Edge> {
    n.inputs + n.outputs + n.controlFlow
  }

  /** Every edge of the net joins two elements owned by the same net. */
  predicate Closed(n: Net) {
    forall e | e in AllEdges(n) :: RefIn(e.src, n) && RefIn(e.dst, n)
  }

  /** The net is closed when each of its three edge lists, edge by edge, stays inside it. */
  lemma ClosedByIndex(n: Net)
    requires forall i | 0 <= i < |n.inputs| :: RefIn(n.inputs[i].src, n) && RefIn(n.inputs[i].dst, n)
    requires forall i | 0 <= i < |n.outputs| :: RefIn(n.outputs[i].src, n) && RefIn(n.outputs[i].dst, n)
    requires forall i | 0 <= i < |n.controlFlow| :: RefIn(n.controlFlow[i].src, n) && RefIn(n.controlFlow[i].dst, n)
    ensures Closed(n)
  {
    forall e | e in AllEdges(n) ensures RefIn(e.src, n) && RefIn(e.dst, n) {
      if e in n.inputs {
        var i :| 0 <= i < |n.inputs| && n.inputs[i] == e;
      } else if e in n.outputs {
        var i :| 0 <= i < |n.outputs| && n.outputs[i] == e;
      } else {
        var i :| 0 <= i < |n.controlFlow| && n.controlFlow[i] == e;
      }
    }
  }

  /**
   * Every edge of `n` joins elements of `n` or of `host`: a net wired to a
   * host it is about to be absorbed into.
   */
  predicate ClosedOver(n: Net, host: Net) {
    forall e | e in AllEdges(n) ::
      && (RefIn(e.src, n) || RefIn(e.src, host))
      && (RefIn(e.dst, n) || RefIn(e.dst, host))
  }

  /** No two elements (places or transitions) of the net share an id. */
  predicate DistinctIds(n: Net) {
    && (forall i, j | 0 <= i < j < |n.places| :: n.places[i].id != n.places[j].id)
    && (forall i, j | 0 <= i < j < |n.transitions| :: n.transitions[i].id != n.transitions[j].id)
    && (forall i, j | 0 <= i < |n.places| && 0 <= j < |n.transitions| :: n.places[i].id != n.transitions[j].id)
  }

  /** Every element id lies in the half-open window (lo, hi]. */
  predicate IdsWithin(n: Net, lo: int, hi: int) {
    && (forall p | p in n.places :: lo < p.id <= hi)
    && (forall t | t in n.transitions :: lo < t.id <= hi)
  }

  /** The elements were drawn, without repetition, from the window (lo, hi]. */
  predicate FreshIds(n: Net, lo: int, hi: int) {
    DistinctIds(n) && IdsWithin(n, lo, hi)
  }

  /**
   * The places, then the transitions, carry consecutive ids starting at
   * `lo + 1`, in declaration order: the shape every constructor below leaves
   * behind when the counter does not wrap.
   */
  predicate DrawnInOrder(n: Net, lo: int) {
    && (forall i | 0 <= i < |n.places| :: n.places[i].id == lo + 1 + i)
    && (forall j | 0 <= j < |n.transitions| :: n.transitions[j].id == lo + 1 + |n.places| + j)
  }

  /** Consecutive ids are pairwise distinct and lie in any window that starts at or below `lo`. */
  lemma DrawnInOrderFresh(n: Net, lo: int, below: int)
    requires DrawnInOrder(n, lo) && below <= lo
    ensures FreshIds(n, below, lo + |n.places| + |n.transitions|)
  {
    forall p | p in n.places ensures below < p.id <= lo + |n.places| + |n.transitions| {
      var i :| 0 <= i < |n.places| && n.places[i] == p;
    }
    forall t | t in n.transitions ensures below < t.id <= lo + |n.places| + |n.transitions| {
      var j :| 0 <= j < |n.transitions| && n.transitions[j] == t;
    }
  }

  /**
   * Without wrap-around, "drawn in order after `lo`" means exactly that the
   * places, then the transitions, carry the ids of successive draws of the
   * counter from `lo`.
   */
  lemma DrawnInOrderIsDraws(n: Net, lo: Counter)
    requires lo + |n.places| + |n.transitions| < IdModulus
    ensures var k := |n.places| + |n.transitions|;
      DrawnInOrder(n, lo) <==>
        && (forall i | 0 <= i < |n.places| :: n.places[i].id == Draws(lo, k)[i])
        && (forall j | 0 <= j < |n.transitions| :: n.transitions[j].id == Draws(lo, k)[|n.places| + j])
  {
    DrawsIncrease(lo, |n.places| + |n.transitions|);
  }

  /** True when the net has no places, transitions or edges. */
  predicate IsEmpty(n: Net) {
    n.places == [] && n.transitions == [] && n.inputs == [] && n.outputs == [] && n.controlFlow == []
  }

  // ---------------------------------------------------------------------------
  // Construction (CommunicationNet.hpp, add_* members)

  /** A new, empty net; the net itself draws an id. */
  function NewNet(c: Counter): (r: Added<Net>)
    ensures IsEmpty(r.net) && r.elem == r.net
    ensures r.net.id == r.counter == NextId(c)
    ensures FreshIds(r.net, c, r.counter)
  {
    var id := NextId(c);
    var n := Net(id, [], [], [], [], []);
    Added(n, n, id)
  }

  /** `add_place`: appends one place carrying a freshly drawn id and returns it. */
  function AddPlace(n: Net, c: Counter, typ: string, init: string, name: string): (r: Added<Place>)
    ensures r.net.places == n.places + [r.elem] && r.net.places[|r.net.places| - 1] == r.elem
    ensures r.elem == Place(NextId(c), name, typ, init) && r.counter == r.elem.id
    ensures r.net.id == n.id && r.net.transitions == n.transitions
    ensures r.net.inputs == n.inputs && r.net.outputs == n.outputs && r.net.controlFlow == n.controlFlow
  {
    var p := Place(NextId(c), name, typ, init);
    Added(n.(places := n.places + [p]), p, p.id)
  }

  /** `add_transition`: appends one transition carrying a freshly drawn id and returns it. */
  function AddTransition(n: Net, c: Counter, guards: seq<string>, name: string): (r: Added<Transition>)
    ensures r.net.transitions == n.transitions + [r.elem] && r.net.transitions[|r.net.transitions| - 1] == r.elem
    ensures r.elem == Transition(NextId(c), name, guards) && r.counter == r.elem.id
    ensures r.net.id == n.id && r.net.places == n.places
    ensures r.net.inputs == n.inputs && r.net.outputs == n.outputs && r.net.controlFlow == n.controlFlow
  {
    var t := Transition(NextId(c), name, guards);
    Added(n.(transitions := n.transitions + [t]), t, t.id)
  }

  /** Adding a place to a net of places alone continues its run of consecutive ids. */
  lemma AddPlaceInOrder(n: Net, c: Counter, typ: string, init: string, name: string, lo: int)
    requires DrawnInOrder(n, lo) && n.transitions == []
    requires c == lo + |n.places| && c + 1 < IdModulus
    ensures DrawnInOrder(AddPlace(n, c, typ, init, name).net, lo)
  {
    var r := AddPlace(n, c, typ, init, name).net;
    forall i | 0 <= i < |r.places| ensures r.places[i].id == lo + 1 + i {
      if i < |n.places| {
        assert r.places[i] == n.places[i];
      }
    }
  }

  /** Adding a transition continues the run of consecutive ids. */
  lemma AddTransitionInOrder(n: Net, c: Counter, guards: seq<string>, name: string, lo: int)
    requires DrawnInOrder(n, lo)
    requires c == lo + |n.places| + |n.transitions| && c + 1 < IdModulus
    ensures DrawnInOrder(AddTransition(n, c, guards, name).net, lo)
  {
    var r := AddTransition(n, c, guards, name).net;
    forall j | 0 <= j < |r.transitions| ensures r.transitions[j].id == lo + 1 + |r.places| + j {
      if j < |n.transitions| {
        assert r.transitions[j] == n.transitions[j];
      }
    }
  }

  /** `add_input_edge`: place to transition; the caller picks the kind (the source defaults it to `Take`). */
  function AddInputEdge(n: Net, src: Id, dst: Id, kind: EdgeKind, arc: string): (r: Net)
    ensures r.inputs == n.inputs + [Edge(PlaceRef(src), TransitionRef(dst), kind, arc)]
    ensures r.id == n.id && r.places == n.places && r.transitions == n.transitions
    ensures r.outputs == n.outputs && r.controlFlow == n.controlFlow
  {
    n.(inputs := n.inputs + [Edge(PlaceRef(src), TransitionRef(dst), kind, arc)])
  }

  /** `add_output_edge`: transition to place, always of kind `Take`. */
  function AddOutputEdge(n: Net, src: Id, dst: Id, arc: string): (r: Net)
    ensures r.outputs == n.outputs + [Edge(TransitionRef(src), PlaceRef(dst), Take, arc)]
    ensures r.id == n.id && r.places == n.places && r.transitions == n.transitions
    ensures r.inputs == n.inputs && r.controlFlow == n.controlFlow
  {
    n.(outputs := n.outputs + [Edge(TransitionRef(src), PlaceRef(dst), Take, arc)])
  }

  /** `add_cf_edge`: any two elements, always of kind `Take`. */
  function AddControlFlowEdge(n: Net, src: NodeRef, dst: NodeRef, arc: string): (r: Net)
    ensures r.controlFlow == n.controlFlow + [Edge(src, dst, Take, arc)]
    ensures r.id == n.id && r.places == n.places && r.transitions == n.transitions
    ensures r.inputs == n.inputs && r.outputs == n.outputs
  {
    n.(controlFlow := n.controlFlow + [Edge(src, dst, Take, arc)])
  }

  /**
   * Moves every element of `other` into `n` without wiring: each list becomes
   * `n`'s list followed by `other`'s (the element-moving loops of
   * `inject_pluign_cn`, and `takeover`).
   */
  function Absorb(n: Net, other: Net): (r: Net)
    ensures r.id == n.id
    ensures r.places == n.places + other.places && r.transitions == n.transitions + other.transitions
    ensures r.inputs == n.inputs + other.inputs && r.outputs == n.outputs + other.outputs
    ensures r.controlFlow == n.controlFlow + other.controlFlow
  {
    Net(n.id, n.places + other.places, n.transitions + other.transitions,
        n.inputs + other.inputs, n.outputs + other.outputs, n.controlFlow + other.controlFlow)
  }

  /** Absorbing keeps every element of both nets. */
  lemma AbsorbIds(n: Net, other: Net)
    ensures PlaceIds(Absorb(n, other)) == PlaceIds(n) + PlaceIds(other)
    ensures TransitionIds(Absorb(n, other)) == TransitionIds(n) + TransitionIds(other)
  {
    var r := Absorb(n, other);
    assert forall x :: x in PlaceIds(r) ==> x in PlaceIds(n) + PlaceIds(other);
    forall x | x in PlaceIds(n) + PlaceIds(other) ensures x in PlaceIds(r) {
      if x in PlaceIds(n) {
        var p :| p in n.places && p.id == x;
        assert p in r.places;
      } else {
        var p :| p in other.places && p.id == x;
        assert p in r.places;
      }
    }
    forall x | x in TransitionIds(n) + TransitionIds(other) ensures x in TransitionIds(r) {
      if x in TransitionIds(n) {
        var t :| t in n.transitions && t.id == x;
        assert t in r.transitions;
      } else {
        var t :| t in other.transitions && t.id == x;
        assert t in r.transitions;
      }
    }
  }

  /** Absorbing a net wired to a closed receiver (or closed itself) gives a closed net. */
  lemma AbsorbClosed(n: Net, other: Net)
    requires Closed(n) && ClosedOver(other, n)
    ensures Closed(Absorb(n, other))
  {
    var r := Absorb(n, other);
    AbsorbIds(n, other);
    forall e | e in AllEdges(r) ensures RefIn(e.src, r) && RefIn(e.dst, r) {
      if e in n.inputs || e in n.outputs || e in n.controlFlow {
        assert e in AllEdges(n);
      } else {
        assert e in AllEdges(other);
        assert RefIn(e.src, other) || RefIn(e.src, n);
        assert RefIn(e.dst, other) || RefIn(e.dst, n);
        RefInAbsorb(e.src, n, other);
        RefInAbsorb(e.dst, n, other);
      }
    }
  }

  lemma RefInAbsorb(x: NodeRef, n: Net, other: Net)
    requires RefIn(x, n) || RefIn(x, other)
    ensures RefIn(x, Absorb(n, other))
  {
    AbsorbIds(n, other);
  }

  /**
   * Absorbing a net whose ids were drawn after the receiver's keeps all ids
   * distinct: the two id windows (lo, mid] and (mid, hi] do not overlap.
   */
  lemma AbsorbFresh(n: Net, other: Net, lo: int, mid: int, hi: int)
    requires lo <= mid <= hi
    requires FreshIds(n, lo, mid) && FreshIds(other, mid, hi)
    ensures FreshIds(Absorb(n, other), lo, hi)
  {
    var r := Absorb(n, other);
    forall i, j | 0 <= i < j < |r.places| ensures r.places[i].id != r.places[j].id {
      if j >= |n.places| && i < |n.places| {
        assert r.places[i] in n.places && r.places[j] in other.places;
      }
    }
    forall i, j | 0 <= i < j < |r.transitions| ensures r.transitions[i].id != r.transitions[j].id {
      if j >= |n.transitions| && i < |n.transitions| {
        assert r.transitions[i] in n.transitions && r.transitions[j] in other.transitions;
      }
    }
    forall i, j | 0 <= i < |r.places| && 0 <= j < |r.transitions| ensures r.places[i].id != r.transitions[j].id {
      if i < |n.places| && j >= |n.transitions| {
        assert r.places[i] in n.places && r.transitions[j] in other.transitions;
      } else if i >= |n.places| && j < |n.transitions| {
        assert r.places[i] in other.places && r.transitions[j] in n.transitions;
      }
    }
  }

  /** Edges added between elements already in the net keep it closed. */
  lemma AddEdgesKeepClosed(n: Net, r: Net)
    requires Closed(n)
    requires r.places == n.places && r.transitions == n.transitions
    requires forall e | e in AllEdges(r) && e !in AllEdges(n) :: RefIn(e.src, n) && RefIn(e.dst, n)
    ensures Closed(r)
  {
  }

  // ---------------------------------------------------------------------------
  // Rendering (the `print` members)

  /** `NetElement::print`: the element's name. */
  function ShowName(name: string): string {
    name
  }

  /** `Place::print`: `P(id): name<type>[init]`; empty type or init leave the brackets empty. */
  function RenderPlace(p: Place): (s: string)
    ensures s == "P(" + Decimal(p.id) + "): " + p.name + "<" + p.typ + ">[" + p.init + "]"
  {
    "P(" + Decimal(p.id) + "): " + ShowName(p.name)
    + "<" + (if p.typ != "" then p.typ else "") + ">"
    + "[" + (if p.init != "" then p.init else "") + "]"
  }

  /** Reference definition of a guard list: the guards joined by ", ". */
  function JoinGuards(guards: seq<string>): string
    decreases |guards|
  {
    if |guards| == 0 then ""
    else if |guards| == 1 then guards[0]
    else guards[0] + ", " + JoinGuards(guards[1..])
  }

  /**
   * The loop of `Transition::print`: every guard but the last is followed by
   * ", ", then the last guard; nothing for an empty list.  It produces the
   * reference join.
   */
  method RenderGuards(guards: seq<string>) returns (s: string)
    ensures s == JoinGuards(guards)
  {
    s := "";
    if |guards| > 0 {
      var i := 0;
      while |guards| - i > 1
        invariant 0 <= i < |guards|
        invariant s + JoinGuards(guards[i..]) == JoinGuards(guards)
      {
        assert guards[i..][1..] == guards[i + 1..];
        s := s + guards[i] + ", ";
        i := i + 1;
      }
      s := s + guards[i];
    }
  }

  /** `Transition::print`: `T(id): name[g1, g2, ...]`, `[]` without guards. */
  function RenderTransition(t: Transition): (s: string)
    ensures s == "T(" + Decimal(t.id) + "): " + t.name + "[" + JoinGuards(t.guards) + "]"
  {
    "T(" + Decimal(t.id) + "): " + ShowName(t.name) + "[" + JoinGuards(t.guards) + "]"
  }

  /** `Edge::print`, given the renderings of both endpoints. */
  function RenderEdge(src: string, dst: string, arc: string): (s: string)
    ensures arc == "" ==> s == src + " -> " + dst
    ensures arc != "" ==> s == src + " --/ " + arc + " /--> " + dst
  {
    if arc == "" then src + " -> " + dst else src + " --/ " + arc + " /--> " + dst
  }

  /** Reads the id back out of a rendering `P(digits): ...` or `T(digits): ...`. */
  function RenderedId(s: string): nat {
    if |s| < 2 then 0 else ParseDecimal(DigitPrefix(s[2..]))
  }

  /** The longest prefix of `s` made of digits. */
  function DigitPrefix(s: string): (d: string)
    ensures d <= s && AllDigits(d)
    ensures |d| < |s| ==> !IsDigit(s[|d|])
    decreases |s|
  {
    if |s| == 0 || !IsDigit(s[0]) then "" else [s[0]] + DigitPrefix(s[1..])
  }

  lemma {:induction false} DigitPrefixOf(d: string, rest: string)
    requires AllDigits(d)
    requires |rest| > 0 && !IsDigit(rest[0])
    ensures DigitPrefix(d + rest) == d
    decreases |d|
  {
    if |d| > 0 {
      assert (d + rest)[1..] == d[1..] + rest;
      DigitPrefixOf(d[1..], rest);
    }
  }

  /** The id of a place can be read back from its rendering. */
  lemma RenderPlaceId(p: Place)
    ensures RenderedId(RenderPlace(p)) == p.id
  {
    var s := RenderPlace(p);
    assert s[2..] == Decimal(p.id) + ("): " + p.name + "<" + p.typ + ">[" + p.init + "]");
    DigitPrefixOf(Decimal(p.id), "): " + p.name + "<" + p.typ + ">[" + p.init + "]");
    ParseDecimalInverts(p.id);
  }

  /** The id of a transition can be read back from its rendering. */
  lemma RenderTransitionId(t: Transition)
    ensures RenderedId(RenderTransition(t)) == t.id
  {
    var s := RenderTransition(t);
    assert s[2..] == Decimal(t.id) + ("): " + t.name + "[" + JoinGuards(t.guards) + "]");
    DigitPrefixOf(Decimal(t.id), "): " + t.name + "[" + JoinGuards(t.guards) + "]");
    ParseDecimalInverts(t.id);
  }

  /**
   * Distinct elements render distinctly: two places (or two transitions) with
   * different ids never print alike, and a place never prints like a transition.
   */
  lemma RenderingsDistinguishElements(p: Place, q: Place, t: Transition, u: Transition)
    ensures p.id != q.id ==> RenderPlace(p) != RenderPlace(q)
    ensures t.id != u.id ==> RenderTransition(t) != RenderTransition(u)
    ensures RenderPlace(p) != RenderTransition(t)
  {
    RenderPlaceId(p);
    RenderPlaceId(q);
    RenderTransitionId(t);
    RenderTransitionId(u);
    assert RenderPlace(p)[0] == 'P' && RenderTransition(t)[0] == 'T';
  }

  /** With the endpoints fixed, an edge rendering determines the edge's arc expression. */
  lemma RenderEdgeDeterminesArc(src: string, dst: string, a: string, b: string)
    requires RenderEdge(src, dst, a) == RenderEdge(src, dst, b)
    ensures a == b
  {
    var s := RenderEdge(src, dst, a);
    if a != "" && b != "" {
      assert |a| == |b|;
      assert a == s[|src| + 5 .. |src| + 5 + |a|];
    }
  }

  // ---------------------------------------------------------------------------
  // Whole-net rendering (`CommunicationNet::print`)

  /** The first place of the list carrying `id`, if any. */
  function FindPlace(ps: seq<Place>, id: Id): (r: Option<Place>)
    ensures r.Some? ==> r.value in ps && r.value.id == id
    ensures r.None? ==> forall p | p in ps :: p.id != id
  {
    if |ps| == 0 then None else if ps[0].id == id then Some(ps[0]) else FindPlace(ps[1..], id)
  }

  /** The first transition of the list carrying `id`, if any. */
  function FindTransition(ts: seq<Transition>, id: Id): (r: Option<Transition>)
    ensures r.Some? ==> r.value in ts && r.value.id == id
    ensures r.None? ==> forall t | t in ts :: t.id != id
  {
    if |ts| == 0 then None else if ts[0].id == id then Some(ts[0]) else FindTransition(ts[1..], id)
  }

  /** The full rendering of an endpoint (printing is virtual on the element). */
  function RenderRef(n: Net, r: NodeRef): string {
    match r
    case PlaceRef(i) =>
      (match FindPlace(n.places, i) case Some(p) => RenderPlace(p) case None => "")
    case TransitionRef(i) =>
      (match FindTransition(n.transitions, i) case Some(t) => RenderTransition(t) case None => "")
  }

  function RenderEdgeIn(n: Net, e: Edge): string {
    RenderEdge(RenderRef(n, e.src), RenderRef(n, e.dst), e.arc)
  }

  /** Each item on its own indented line. */
  function Lines(items: seq<string>): string
    decreases |items|
  {
    if |items| == 0 then "" else "  " + items[0] + "\n" + Lines(items[1..])
  }

  /** A titled section, left out entirely when it has no items. */
  function Section(title: string, items: seq<string>): string {
    if |items| == 0 then "" else title + "\n" + Lines(items)
  }

  function PlaceLines(ps: seq<Place>): (r: seq<string>)
    ensures |r| == |ps|
  {
    seq(|ps|, i requires 0 <= i < |ps| => RenderPlace(ps[i]))
  }

  function TransitionLines(ts: seq<Transition>): (r: seq<string>)
    ensures |r| == |ts|
  {
    seq(|ts|, i requires 0 <= i < |ts| => RenderTransition(ts[i]))
  }

  function EdgeLines(n: Net, es: seq<Edge>): (r: seq<string>)
    ensures |r| == |es|
  {
    seq(|es|, i requires 0 <= i < |es| => RenderEdgeIn(n, es[i]))
  }

  function NetHeader(n: Net): string {
    "CommunicationNet(" + Decimal(n.id) + "):" + "\n"
  }

  /** `CommunicationNet::print` (the output-edge title is spelled as in the source). */
  function RenderNet(n: Net): string {
    NetHeader(n)
    + Section("Places:", PlaceLines(n.places))
    + Section("Transitions:", TransitionLines(n.transitions))
    + Section("Input edges:", EdgeLines(n, n.inputs))
    + Section("Outuput edges:", EdgeLines(n, n.outputs))
    + Section("CF edges:", EdgeLines(n, n.controlFlow))
  }

  /** Number of newline characters in a text. */
  function CountNewlines(s: string): nat
    decreases |s|
  {
    if |s| == 0 then 0 else (if s[0] == '\n' then 1 else 0) + CountNewlines(s[1..])
  }

  predicate NoNewline(s: string) {
    forall i | 0 <= i < |s| :: s[i] != '\n'
  }

  lemma {:induction false} NoNewlineCount(s: string)
    requires NoNewline(s)
    ensures CountNewlines(s) == 0
    decreases |s|
  {
    if |s| > 0 {
      NoNewlineCount(s[1..]);
    }
  }

  lemma {:induction false} CountNewlinesAppend(a: string, b: string)
    ensures CountNewlines(a + b) == CountNewlines(a) + CountNewlines(b)
    decreases |a|
  {
    if |a| > 0 {
      assert (a + b)[0] == a[0];
      assert (a + b)[1..] == a[1..] + b;
      CountNewlinesAppend(a[1..], b);
    } else {
      assert a + b == b;
    }
  }

  /** A text without line breaks followed by one line break. */
  lemma OneLine(s: string)
    requires CountNewlines(s) == 0
    ensures CountNewlines(s + "\n") == 1
  {
    CountNewlinesAppend(s, "\n");
  }

  lemma {:induction false} LinesCount(items: seq<string>)
    requires forall i | 0 <= i < |items| :: CountNewlines(items[i]) == 0
    ensures CountNewlines(Lines(items)) == |items|
    decreases |items|
  {
    if |items| > 0 {
      CountNewlinesAppend("  ", items[0]);
      OneLine("  " + items[0]);
      CountNewlinesAppend("  " + items[0] + "\n", Lines(items[1..]));
      LinesCount(items[1..]);
    }
  }

  /** Lines contributed by one section: its title and one per item, or none at all. */
  function SectionLineCount(k: nat): nat {
    if k == 0 then 0 else 1 + k
  }

  lemma SectionCount(title: string, items: seq<string>)
    requires NoNewline(title)
    requires forall i | 0 <= i < |items| :: CountNewlines(items[i]) == 0
    ensures CountNewlines(Section(title, items)) == SectionLineCount(|items|)
  {
    if |items| > 0 {
      LinesCount(items);
      NoNewlineCount(title);
      OneLine(title);
      CountNewlinesAppend(title + "\n", Lines(items));
    }
  }

  /** No element or edge of the net renders with a line break. */
  predicate SingleLineTexts(n: Net) {
    && (forall i | 0 <= i < |n.places| :: CountNewlines(RenderPlace(n.places[i])) == 0)
    && (forall i | 0 <= i < |n.transitions| :: CountNewlines(RenderTransition(n.transitions[i])) == 0)
    && (forall e | e in AllEdges(n) :: CountNewlines(RenderEdgeIn(n, e)) == 0)
  }

  lemma HeaderCount(n: Net)
    ensures CountNewlines(NetHeader(n)) == 1
  {
    var d := Decimal(n.id);
    assert NoNewline("CommunicationNet(" + d + "):");
    NoNewlineCount("CommunicationNet(" + d + "):");
    OneLine("CommunicationNet(" + d + "):");
  }

  /** The section titles are single lines. */
  lemma TitlesSingleLine()
    ensures NoNewline("Places:") && NoNewline("Transitions:")
    ensures NoNewline("Input edges:") && NoNewline("Outuput edges:") && NoNewline("CF edges:")
  {
  }

  lemma EdgeSectionCount(n: Net, title: string, es: seq<Edge>)
    requires NoNewline(title)
    requires forall e | e in es :: CountNewlines(RenderEdgeIn(n, e)) == 0
    ensures CountNewlines(Section(title, EdgeLines(n, es))) == SectionLineCount(|es|)
  {
    var ls := EdgeLines(n, es);
    forall i | 0 <= i < |ls| ensures CountNewlines(ls[i]) == 0 {
      assert es[i] in es;
    }
    SectionCount(title, ls);
  }

  /**
   * The net rendering has one header line, and for each non-empty list one
   * title line plus one line per element; empty lists print nothing.
   */
  lemma RenderNetLineCount(n: Net)
    requires SingleLineTexts(n)
    ensures CountNewlines(RenderNet(n)) ==
      1 + SectionLineCount(|n.places|) + SectionLineCount(|n.transitions|)
      + SectionLineCount(|n.inputs|) + SectionLineCount(|n.outputs|) + SectionLineCount(|n.controlFlow|)
  {
    var h := NetHeader(n);
    var s1 := Section("Places:", PlaceLines(n.places));
    var s2 := Section("Transitions:", TransitionLines(n.transitions));
    var s3 := Section("Input edges:", EdgeLines(n, n.inputs));
    var s4 := Section("Outuput edges:", EdgeLines(n, n.outputs));
    var s5 := Section("CF edges:", EdgeLines(n, n.controlFlow));
    assert RenderNet(n) == h + s1 + s2 + s3 + s4 + s5;
    TitlesSingleLine();
    SectionCount("Places:", PlaceLines(n.places));
    SectionCount("Transitions:", TransitionLines(n.transitions));
    assert forall e | e in n.inputs :: e in AllEdges(n);
    assert forall e | e in n.outputs :: e in AllEdges(n);
    assert forall e | e in n.controlFlow :: e in AllEdges(n);
    EdgeSectionCount(n, "Input edges:", n.inputs);
    EdgeSectionCount(n, "Outuput edges:", n.outputs);
    EdgeSectionCount(n, "CF edges:", n.controlFlow);
    HeaderCount(n);
    CountSix(h, s1, s2, s3, s4, s5);
  }

  lemma CountSix(h: string, s1: string, s2: string, s3: string, s4: string, s5: string)
    ensures CountNewlines(h + s1 + s2 + s3 + s4 + s5) ==
      CountNewlines(h) + CountNewlines(s1) + CountNewlines(s2) + CountNewlines(s3) + CountNewlines(s4) + CountNewlines(s5)
  {
    CountNewlinesAppend(h, s1);
    CountNewlinesAppend(h + s1, s2);
    CountNewlinesAppend(h + s1 + s2, s3);
    CountNewlinesAppend(h + s1 + s2 + s3, s4);
    CountNewlinesAppend(h + s1 + s2 + s3 + s4, s5);
  }

  /** A net prints as its bare header exactly when it has no elements at all. */
  lemma RenderNetEmpty(n: Net)
    ensures RenderNet(n) == NetHeader(n) <==> IsEmpty(n)
  {
    var s1 := Section("Places:", PlaceLines(n.places));
    var s2 := Section("Transitions:", TransitionLines(n.transitions));
    var s3 := Section("Input edges:", EdgeLines(n, n.inputs));
    var s4 := Section("Outuput edges:", EdgeLines(n, n.outputs));
    var s5 := Section("CF edges:", EdgeLines(n, n.controlFlow));
    assert |RenderNet(n)| == |NetHeader(n)| + |s1| + |s2| + |s3| + |s4| + |s5|;
    assert |s1| == 0 <==> n.places == [];
    assert |s2| == 0 <==> n.transitions == [];
    assert |s3| == 0 <==> n.inputs == [];
    assert |s4| == 0 <==> n.outputs == [];
    assert |s5| == 0 <==> n.controlFlow == [];
  }
}

=== FILE: connect.dfy ===
/**
 * The `connect` members of the fragments and their injection into the
 * per-process addressable net: just before a fragment is merged, it wires
 * its transitions to the four shared mailbox places (asr, arr, csr, crr), or
 * records which mailbox edge its deferred resolution must add later.
 */
module Mailboxes {
  import opened Wrappers
  import opened CommNet
  import opened PluginNets
  import opened Factory

  /** The arc of the completed send a blocking send waits for (`CN_MPI_Send::connect`). */
  const SendCompletionArc := "[buffered] {data=data, envelope={id=id}}"

  /** The arc of the received message a receive waits for (`CN_MPI_Recv::connect`, the direct resolve). */
  const ReceiveCompletionArc := "{data=data, envelope={id=id}}"

  /** Fragments whose `connect` posts a message into asr. */
  predicate Sends(s: Shape) {
    s.IsendShape? || s.SendShape?
  }

  /** Fragments whose `connect` posts a receive request into arr. */
  predicate Receives(s: Shape) {
    s.IrecvShape? || s.RecvShape?
  }

  /** The wait transition whose registration `connect` completes, if any. */
  function PendingTransition(s: Shape): Option<Id> {
    match s
    case WaitShape(w, registered) => if registered then Some(w) else None
    case WaitallShape(w) => Some(w)
    case _ => None
  }

  /** Binds the pending mailbox edge of every registration of transition `t`. */
  function SetPending(ts: seq<UnresolvedTransition>, t: Id, e: PendingEdge): (r: seq<UnresolvedTransition>)
    ensures |r| == |ts|
    ensures forall i | 0 <= i < |ts| :: r[i].transition == ts[i].transition && r[i].handle == ts[i].handle
    ensures forall i | 0 <= i < |ts| :: ts[i].transition != t ==> r[i] == ts[i]
    ensures forall i | 0 <= i < |ts| :: ts[i].transition == t ==> r[i].pending == Some(e)
  {
    seq(|ts|, i requires 0 <= i < |ts| => if ts[i].transition == t then ts[i].(pending := Some(e)) else ts[i])
  }

  /**
   * `connect(AddressableCN &)` of each fragment.  Isend (and Send, through
   * its Isend) posts the message into asr; a receive posts its request into
   * arr; Send and Recv also take their completion from csr or crr with a
   * shuffle edge into their wait.  A Wait built for a call site and a
   * Waitall only record that their resolution must add a shuffle edge from
   * crr into their transition.  `EmptyCN` connects nothing.
   */
  function Connect(f: Fragment, a: Addressable): (r: Fragment)
    ensures r.shape == f.shape && r.registry.places == f.registry.places
    ensures r.plugin.entry == f.plugin.entry && r.plugin.exit == f.plugin.exit
    ensures r.plugin.net.id == f.plugin.net.id
    ensures r.plugin.net.places == f.plugin.net.places && r.plugin.net.transitions == f.plugin.net.transitions
    ensures r.plugin.net.controlFlow == f.plugin.net.controlFlow
    ensures |r.plugin.net.outputs| == |f.plugin.net.outputs| + (if Sends(f.shape) || Receives(f.shape) then 1 else 0)
    ensures |r.plugin.net.inputs| == |f.plugin.net.inputs| + (if f.shape.SendShape? || f.shape.RecvShape? then 1 else 0)
    ensures r.plugin.net.outputs[..|f.plugin.net.outputs|] == f.plugin.net.outputs
    ensures r.plugin.net.inputs[..|f.plugin.net.inputs|] == f.plugin.net.inputs
    ensures forall e | e in r.plugin.net.outputs[|f.plugin.net.outputs|..] ::
      e.src.TransitionRef? && e.src.id in ShapeTransitions(f.shape) && (e.dst == PlaceRef(a.asr) || e.dst == PlaceRef(a.arr))
    ensures forall e | e in r.plugin.net.inputs[|f.plugin.net.inputs|..] ::
      e.dst.TransitionRef? && e.dst.id in ShapeTransitions(f.shape) && e.kind == Shuffle
      && (e.src == PlaceRef(a.csr) || e.src == PlaceRef(a.crr))
    ensures PendingTransition(f.shape).None? ==> r.registry == f.registry
  {
    var p := f.plugin;
    var n := p.net;
    match f.shape
    case EmptyShape(_) => f
    case IsendShape(send, arc) =>
      f.(plugin := p.(net := AddOutputEdge(n, send, a.asr, arc)))
    case IrecvShape(recv, arc) =>
      f.(plugin := p.(net := AddOutputEdge(n, recv, a.arr, arc)))
    case WaitShape(wait, registered) =>
      if registered then
        f.(registry := f.registry.(transitions := SetPending(f.registry.transitions, wait, PendingEdge(a.crr, wait, Shuffle))))
      else f
    case SendShape(send, arc, wait) =>
      var n1 := AddOutputEdge(n, send, a.asr, arc);
      f.(plugin := p.(net := AddInputEdge(n1, a.csr, wait, Shuffle, SendCompletionArc)))
    case RecvShape(recv, arc, wait) =>
      var n1 := AddOutputEdge(n, recv, a.arr, arc);
      f.(plugin := p.(net := AddInputEdge(n1, a.crr, wait, Shuffle, ReceiveCompletionArc)))
    case WaitallShape(waitall) =>
      f.(registry := f.registry.(transitions := SetPending(f.registry.transitions, waitall, PendingEdge(a.crr, waitall, Shuffle))))
  }

  /** The four mailbox places are four different places. */
  predicate MailboxesDistinct(a: Addressable) {
    && a.asr != a.arr && a.asr != a.csr && a.asr != a.crr
    && a.arr != a.csr && a.arr != a.crr && a.csr != a.crr
  }

  /**
   * Per mailbox, `connect` adds exactly one edge for the fragments that use
   * it and none for the others: asr receives one edge from Isend and Send,
   * arr one from Irecv and Recv, and only Send (from csr) and Recv (from crr)
   * gain a shuffle input.
   */
  lemma ConnectMailboxCounts(f: Fragment, a: Addressable)
    requires MailboxesDistinct(a)
    ensures var n, m := f.plugin.net, Connect(f, a).plugin.net;
      && CountInto(m.outputs, PlaceRef(a.asr)) == CountInto(n.outputs, PlaceRef(a.asr)) + (if Sends(f.shape) then 1 else 0)
      && CountInto(m.outputs, PlaceRef(a.arr)) == CountInto(n.outputs, PlaceRef(a.arr)) + (if Receives(f.shape) then 1 else 0)
      && CountFrom(m.inputs, PlaceRef(a.csr), Shuffle) == CountFrom(n.inputs, PlaceRef(a.csr), Shuffle) + (if f.shape.SendShape? then 1 else 0)
      && CountFrom(m.inputs, PlaceRef(a.crr), Shuffle) == CountFrom(n.inputs, PlaceRef(a.crr), Shuffle) + (if f.shape.RecvShape? then 1 else 0)
  {
    var n, m := f.plugin.net, Connect(f, a).plugin.net;
    var newOut, newIn := m.outputs[|n.outputs|..], m.inputs[|n.inputs|..];
    assert m.outputs == n.outputs + newOut;
    assert m.inputs == n.inputs + newIn;
    CountIntoAppend(n.outputs, newOut, PlaceRef(a.asr));
    CountIntoAppend(n.outputs, newOut, PlaceRef(a.arr));
    CountFromAppend(n.inputs, newIn, PlaceRef(a.csr), Shuffle);
    CountFromAppend(n.inputs, newIn, PlaceRef(a.crr), Shuffle);
    if |newOut| == 1 {
      assert CountInto(newOut, PlaceRef(a.asr)) == (if newOut[0].dst == PlaceRef(a.asr) then 1 else 0) + CountInto(newOut[1..], PlaceRef(a.asr));
    }
    if |newIn| == 1 {
      assert CountFrom(newIn, PlaceRef(a.csr), Shuffle) == (if newIn[0].src == PlaceRef(a.csr) then 1 else 0) + CountFrom(newIn[1..], PlaceRef(a.csr), Shuffle);
    }
  }

  /**
   * `CN_MPI_Isend::connect`: the send transition posts the message (its
   * buffer and its buffered request) into asr; nothing else changes.
   */
  lemma IsendConnect(f: Fragment, h: Helpers, args: seq<Value>, a: Addressable)
    requires |args| > 4 && IsendLayout(f, h, args)
    ensures var n, r := f.plugin.net, Connect(f, a);
      && r.plugin.net.outputs == n.outputs + [Edge(TransitionRef(n.transitions[0].id), PlaceRef(a.asr), Take, SendMessageArc(h, args))]
      && r.plugin.net.inputs == n.inputs && r.plugin.net.controlFlow == n.controlFlow
      && r.registry == f.registry
  {
  }

  /**
   * `CN_MPI_RecvBase::connect` on an Irecv: the recv transition posts the
   * receive request (source, tag, not buffered) into arr; nothing else
   * changes.
   */
  lemma IrecvConnect(f: Fragment, h: Helpers, args: seq<Value>, a: Addressable)
    requires |args| > 4 && RecvLayout(f, h, args)
    ensures var n, r := f.plugin.net, Connect(f, a);
      && r.plugin.net.outputs == n.outputs + [Edge(TransitionRef(n.transitions[0].id), PlaceRef(a.arr), Take, ReceiveRequestText(h, args))]
      && r.plugin.net.inputs == n.inputs && r.plugin.net.controlFlow == n.controlFlow
      && r.registry == f.registry
  {
  }

  /**
   * `CN_MPI_Send::connect`: the inner Isend's send posts the message into
   * asr, and the wait that takes the Isend's request also takes the send's
   * completion from csr with a shuffle edge.
   */
  lemma SendConnect(f: Fragment, h: Helpers, args: seq<Value>, a: Addressable)
    requires |args| > 4 && SendLayout(f, h, args)
    ensures var n, r := f.plugin.net, Connect(f, a);
      && r.plugin.net.outputs == n.outputs + [Edge(TransitionRef(n.transitions[0].id), PlaceRef(a.asr), Take, SendMessageArc(h, args))]
      && r.plugin.net.inputs == n.inputs + [Edge(PlaceRef(a.csr), TransitionRef(n.transitions[1].id), Shuffle, SendCompletionArc)]
      && r.plugin.net.controlFlow == n.controlFlow && r.registry == f.registry
  {
  }

  /**
   * `CN_MPI_Recv::connect`: the recv transition posts the receive request
   * into arr, and the wait that delivers the data takes the received
   * message from crr with a shuffle edge.
   */
  lemma RecvConnect(f: Fragment, h: Helpers, args: seq<Value>, a: Addressable)
    requires |args| > 4 && RecvBlockingLayout(f, h, args)
    ensures var n, r := f.plugin.net, Connect(f, a);
      && r.plugin.net.outputs == n.outputs + [Edge(TransitionRef(n.transitions[0].id), PlaceRef(a.arr), Take, ReceiveRequestText(h, args))]
      && r.plugin.net.inputs == n.inputs + [Edge(PlaceRef(a.crr), TransitionRef(n.transitions[1].id), Shuffle, ReceiveCompletionArc)]
      && r.plugin.net.controlFlow == n.controlFlow && r.registry == f.registry
  {
  }

  /** `EmptyCN::connect` adds nothing. */
  lemma EmptyConnect(f: Fragment, callName: string, a: Addressable)
    requires EmptyLayout(f, callName)
    ensures Connect(f, a) == f
  {
  }

  /**
   * A Wait built inside a blocking call connects nothing; one built for a
   * call site leaves its net alone and records a shuffle edge from crr into
   * its own transition, for the resolution of its request.
   */
  lemma WaitConnect(f: Fragment, h: Helpers, request: Option<Value>, a: Addressable)
    requires WaitLayout(f, h, request)
    ensures request.None? ==> Connect(f, a) == f
    ensures var w := f.plugin.net.transitions[0].id;
      request.Some? ==>
        && Connect(f, a).plugin == f.plugin
        && Connect(f, a).registry == Registry([], [UnresolvedTransition(w, request.value, Some(PendingEdge(a.crr, w, Shuffle)))])
  {
  }

  /** The Waitall counterpart of `WaitConnect`, keyed by the request array (argument 1). */
  lemma WaitallConnect(f: Fragment, h: Helpers, args: seq<Value>, a: Addressable)
    requires |args| > 1 && WaitallLayout(f, h, args)
    ensures var w := f.plugin.net.transitions[0].id;
      && Connect(f, a).plugin == f.plugin
      && Connect(f, a).registry == Registry([], [UnresolvedTransition(w, args[1], Some(PendingEdge(a.crr, w, Shuffle)))])
  {
  }

  /**
   * `AddressableCommNet::inject_pluign_cn` of a fragment: the fragment
   * connects to the mailboxes, then the generic splice moves it in.  The
   * address and the mailboxes stay; the fragment's exit becomes the new
   * entry.
   */
  function Inject(a: Addressable, f: Fragment): (r: Addressable)
    ensures r.address == a.address && r.asr == a.asr && r.arr == a.arr && r.csr == a.csr && r.crr == a.crr
    ensures r.plugin.entry == f.plugin.exit && r.plugin.exit == a.plugin.exit
    ensures r.plugin.net.places == a.plugin.net.places + f.plugin.net.places
    ensures r.plugin.net.transitions == a.plugin.net.transitions + f.plugin.net.transitions
    ensures r.plugin.net.controlFlow ==
      a.plugin.net.controlFlow + f.plugin.net.controlFlow + [Edge(PlaceRef(a.plugin.entry), PlaceRef(f.plugin.entry), Take, "")]
  {
    AddressableInject(a, Connect(f, a).plugin)
  }

  /** A connected fragment's edges stay within itself and the addressable net. */
  lemma ConnectClosedOver(f: Fragment, a: Addressable)
    requires FragmentWellFormed(f) && AddressableWellFormed(a)
    ensures ClosedOver(Connect(f, a).plugin.net, a.plugin.net)
  {
    var n, m := f.plugin.net, Connect(f, a).plugin.net;
    forall e | e in AllEdges(m)
      ensures (RefIn(e.src, m) || RefIn(e.src, a.plugin.net)) && (RefIn(e.dst, m) || RefIn(e.dst, a.plugin.net))
    {
      if e in AllEdges(n) {
      } else if e in m.outputs {
        assert m.outputs == n.outputs + m.outputs[|n.outputs|..];
        assert e in m.outputs[|n.outputs|..];
      } else {
        assert m.inputs == n.inputs + m.inputs[|n.inputs|..];
        assert e in m.inputs[|n.inputs|..];
      }
    }
  }

  /** Injecting a well-formed fragment keeps the addressable net well formed. */
  lemma InjectWellFormed(a: Addressable, f: Fragment)
    requires AddressableWellFormed(a) && FragmentWellFormed(f)
    ensures AddressableWellFormed(Inject(a, f))
  {
    ConnectClosedOver(f, a);
    AddressableInjectWellFormed(a, Connect(f, a).plugin);
  }

  /**
   * Injecting a fragment whose ids were drawn after the addressable net's
   * keeps every id unique, and the new entry differs from the exit.
   */
  lemma InjectFresh(a: Addressable, f: Fragment, lo: int, mid: int, hi: int)
    requires AddressableWellFormed(a) && FragmentWellFormed(f)
    requires lo <= mid <= hi
    requires FreshIds(a.plugin.net, lo, mid) && FreshIds(f.plugin.net, mid, hi)
    ensures FreshIds(Inject(a, f).plugin.net, lo, hi)
    ensures Inject(a, f).plugin.entry != Inject(a, f).plugin.exit
  {
    var c := Connect(f, a);
    assert PlaceIds(c.plugin.net) == PlaceIds(f.plugin.net);
    SpliceFresh(a.plugin, c.plugin, lo, mid, hi);
  }

  /**
   * The mailbox edges of the addressable net after an injection: those it
   * had, those the fragment had, and the one its `connect` adds.
   */
  lemma InjectMailboxCounts(a: Addressable, f: Fragment)
    requires MailboxesDistinct(a)
    ensures var n, m := a.plugin.net, Inject(a, f).plugin.net; var g := f.plugin.net;
      && CountInto(m.outputs, PlaceRef(a.asr)) ==
           CountInto(n.outputs, PlaceRef(a.asr)) + CountInto(g.outputs, PlaceRef(a.asr)) + (if Sends(f.shape) then 1 else 0)
      && CountInto(m.outputs, PlaceRef(a.arr)) ==
           CountInto(n.outputs, PlaceRef(a.arr)) + CountInto(g.outputs, PlaceRef(a.arr)) + (if Receives(f.shape) then 1 else 0)
      && CountFrom(m.inputs, PlaceRef(a.csr), Shuffle) ==
           CountFrom(n.inputs, PlaceRef(a.csr), Shuffle) + CountFrom(g.inputs, PlaceRef(a.csr), Shuffle) + (if f.shape.SendShape? then 1 else 0)
      && CountFrom(m.inputs, PlaceRef(a.crr), Shuffle) ==
           CountFrom(n.inputs, PlaceRef(a.crr), Shuffle) + CountFrom(g.inputs, PlaceRef(a.crr), Shuffle) + (if f.shape.RecvShape? then 1 else 0)
  {
    var c := Connect(f, a).plugin.net;
    ConnectMailboxCounts(f, a);
    CountIntoAppend(a.plugin.net.outputs, c.outputs, PlaceRef(a.asr));
    CountIntoAppend(a.plugin.net.outputs, c.outputs, PlaceRef(a.arr));
    CountFromAppend(a.plugin.net.inputs, c.inputs, PlaceRef(a.csr), Shuffle);
    CountFromAppend(a.plugin.net.inputs, c.inputs, PlaceRef(a.crr), Shuffle);
  }

  /** A well-formed fragment that does not own the mailbox places has no edge touching them. */
  lemma FragmentAvoidsMailbox(f: Fragment, mailbox: Id, kind: EdgeKind)
    requires FragmentWellFormed(f) && mailbox !in PlaceIds(f.plugin.net)
    ensures CountInto(f.plugin.net.outputs, PlaceRef(mailbox)) == 0
    ensures CountFrom(f.plugin.net.inputs, PlaceRef(mailbox), kind) == 0
  {
    var n := f.plugin.net;
    forall e | e in n.outputs ensures e.src != PlaceRef(mailbox) && e.dst != PlaceRef(mailbox) {
      assert e in AllEdges(n);
    }
    forall e | e in n.inputs ensures e.src != PlaceRef(mailbox) && e.dst != PlaceRef(mailbox) {
      assert e in AllEdges(n);
    }
    CountsAbsent(n.outputs, PlaceRef(mailbox), kind);
    CountsAbsent(n.inputs, PlaceRef(mailbox), kind);
  }

  /**
   * Two non-blocking sends injected into a fresh addressable net leave
   * exactly two message edges into asr, and nothing yet into arr.
   */
  lemma TwoIsendsPostTwoMessages(a: Addressable, f1: Fragment, f2: Fragment)
    requires AddressableWellFormed(a) && MailboxesDistinct(a) && AllEdges(a.plugin.net) == []
    requires FragmentWellFormed(f1) && f1.shape.IsendShape? && a.asr !in PlaceIds(f1.plugin.net) && a.arr !in PlaceIds(f1.plugin.net)
    requires FragmentWellFormed(f2) && f2.shape.IsendShape? && a.asr !in PlaceIds(f2.plugin.net) && a.arr !in PlaceIds(f2.plugin.net)
    ensures CountInto(Inject(Inject(a, f1), f2).plugin.net.outputs, PlaceRef(a.asr)) == 2
    ensures CountInto(Inject(Inject(a, f1), f2).plugin.net.outputs, PlaceRef(a.arr)) == 0
  {
    assert a.plugin.net.outputs == [];
    FragmentAvoidsMailbox(f1, a.asr, Take);
    FragmentAvoidsMailbox(f1, a.arr, Take);
    FragmentAvoidsMailbox(f2, a.asr, Take);
    FragmentAvoidsMailbox(f2, a.arr, Take);
    InjectMailboxCounts(a, f1);
    InjectMailboxCounts(Inject(a, f1), f2);
  }

  // ---------------------------------------------------------------------------
  // The registrations that outlive an injection

  /**
   * One process under construction: its addressable net and the
   * registrations still waiting for resolution.  Injecting a fragment moves
   * its elements into the net; its registrations, as its `connect` left
   * them, join the pending ones (the move `takeover` makes of them).
   */
  datatype Process = Process(net: Addressable, pending: Registry)

  /** Every pending registration, and every planned mailbox edge, refers to elements of the net. */
  predicate ProcessWellFormed(p: Process) {
    var n := p.net.plugin.net;
    && AddressableWellFormed(p.net)
    && RegistryIn(p.pending, n)
    && (forall u | u in p.pending.transitions && u.pending.Some? ::
          u.pending.value.crr in PlaceIds(n) && u.pending.value.endpoint in TransitionIds(n))
  }

  /** A fragment that has not been connected yet plans no mailbox edge. */
  predicate Unconnected(f: Fragment) {
    forall u | u in f.registry.transitions :: u.pending.None?
  }

  /** Injects `f` into the process's net and keeps its connected registrations. */
  function InjectInto(p: Process, f: Fragment): (r: Process)
    ensures r.net == Inject(p.net, f)
    ensures r.pending.places == p.pending.places + f.registry.places
    ensures r.pending.transitions == p.pending.transitions + Connect(f, p.net).registry.transitions
  {
    Process(Inject(p.net, f), MergeRegistries(p.pending, Connect(f, p.net).registry))
  }

  /** An injection keeps every element of the net and of the fragment. */
  lemma InjectIds(a: Addressable, f: Fragment)
    ensures PlaceIds(Inject(a, f).plugin.net) == PlaceIds(a.plugin.net) + PlaceIds(f.plugin.net)
    ensures TransitionIds(Inject(a, f).plugin.net) == TransitionIds(a.plugin.net) + TransitionIds(f.plugin.net)
  {
    var m := Inject(a, f).plugin.net;
    AbsorbIds(a.plugin.net, f.plugin.net);
    assert PlaceIds(m) == PlaceIds(Absorb(a.plugin.net, f.plugin.net));
    assert TransitionIds(m) == TransitionIds(Absorb(a.plugin.net, f.plugin.net));
  }

  /**
   * `connect` binds a planned mailbox edge only from the net's crr into the
   * fragment's own waiting transition.
   */
  lemma ConnectPendingIn(f: Fragment, a: Addressable)
    requires FragmentWellFormed(f) && AddressableWellFormed(a) && Unconnected(f)
    ensures forall u | u in Connect(f, a).registry.transitions ::
      u.transition in TransitionIds(f.plugin.net)
      && (u.pending.Some? ==> u.pending.value.crr == a.crr && u.pending.value.endpoint in TransitionIds(f.plugin.net))
  {
    var ts := f.registry.transitions;
    var r := Connect(f, a).registry.transitions;
    match PendingTransition(f.shape)
    case None =>
    case Some(t) =>
      assert t in ShapeTransitions(f.shape);
      assert r == SetPending(ts, t, PendingEdge(a.crr, t, Shuffle));
      forall u | u in r
        ensures u.transition in TransitionIds(f.plugin.net)
        ensures u.pending.Some? ==> u.pending.value.crr == a.crr && u.pending.value.endpoint in TransitionIds(f.plugin.net)
      {
        var i :| 0 <= i < |r| && r[i] == u;
        assert ts[i] in ts;
      }
  }

  /**
   * Injecting a well-formed, not yet connected fragment keeps the process
   * well formed: every registration still names elements of the grown net.
   */
  lemma InjectIntoWellFormed(p: Process, f: Fragment)
    requires ProcessWellFormed(p) && FragmentWellFormed(f) && Unconnected(f)
    ensures ProcessWellFormed(InjectInto(p, f))
  {
    var r := InjectInto(p, f);
    InjectWellFormed(p.net, f);
    InjectIds(p.net, f);
    ConnectPendingIn(f, p.net);
    var n := r.net.plugin.net;
    forall u | u in r.pending.places ensures u.place in PlaceIds(n) && u.resolution.data in PlaceIds(n) {
      if u !in p.pending.places {
        assert u in f.registry.places;
      }
    }
    forall u | u in r.pending.transitions
      ensures u.transition in TransitionIds(n)
      ensures u.pending.Some? ==> u.pending.value.crr in PlaceIds(n) && u.pending.value.endpoint in TransitionIds(n)
    {
      if u !in p.pending.transitions {
        assert u in Connect(f, p.net).registry.transitions;
      }
    }
  }
}

=== FILE: factory.dfy ===
/**
 * The fragment factory (`CommNetFactory.hpp`): one plugin-net fragment per MPI
 * point-to-point call, each with its own `connect` to the addressable net's
 * mailbox places, and the deferred "resolve" step that links a wait to the
 * request it waits on once that link is known.
 */
module Factory {
  import opened Wrappers
  import opened Ids
  import opened CommNet
  import opened PluginNets

  /**
   * A call argument, opaque to the model: an unnamed value, a constant, or an
   * address computed from another pointer (a `GetElementPtrInst`).
   */
  datatype Value = Opaque(id: nat) | Constant(text: string) | ElementPtr(pointer: Value)

  /** A call site: the called function's name and its arguments by position. */
  datatype CallSite = CallSite(callee: string, args: seq<Value>)

  /** Delimiters passed to the envelope helpers: their defaults, or ",", "(", ")". */
  datatype Delimiters = DefaultDelimiters | TupleDelimiters

  /**
   * The text-producing helpers the fragments call (`get_id` and the
   * `compute_*` family), taken as given functions.  An absent envelope
   * component (`nullptr` in the source) is `None`.
   */
  datatype Helpers = Helpers(
    netLabel: Id -> string,
    bufferType: Value -> string,
    bufferValue: (Value, Value) -> string,
    envelopeType: (Option<Value>, Option<Value>, Value, Delimiters) -> string,
    envelopeValue: (Option<Value>, Option<Value>, Value, bool, Delimiters) -> string,
    requestValue: (Option<Value>, Option<Value>, Value, string) -> string)

  // ---------------------------------------------------------------------------
  // Deferred resolution registry

  /** How a receive's data place is bound once the wait on its request is known. */
  datatype Resolution =
    | Direct(data: Id, arc: string)
    | Collective(data: Id, arc: string)

  /** `add_unresolved_place`: a place waiting for the wait that completes its request. */
  datatype UnresolvedPlace = UnresolvedPlace(place: Id, handle: Value, resolution: Resolution)

  /**
   * A mailbox edge planned by `connect` whose arc expression is only known at
   * resolution: from the addressable net's crr place to `endpoint`.
   */
  datatype PendingEdge = PendingEdge(crr: Id, endpoint: Id, kind: EdgeKind)

  /** `add_unresolved_transition`: a wait transition keyed by the request handle it waits on. */
  datatype UnresolvedTransition = UnresolvedTransition(transition: Id, handle: Value, pending: Option<PendingEdge>)

  datatype Registry = Registry(places: seq<UnresolvedPlace>, transitions: seq<UnresolvedTransition>)

  const NoRegistrations := Registry([], [])

  /** `takeover` also moves the absorbed fragment's registrations. */
  function MergeRegistries(a: Registry, b: Registry): Registry {
    Registry(a.places + b.places, a.transitions + b.transitions)
  }

  // ---------------------------------------------------------------------------
  // Fragments

  /** The kind of a fragment, with the elements its `connect` needs. */
  datatype Shape =
    | EmptyShape(callName: string)
    | IsendShape(send: Id, asrArc: string)
    | IrecvShape(recv: Id, arrArc: string)
    | WaitShape(wait: Id, registered: bool)
    | SendShape(send: Id, asrArc: string, wait: Id)
    | RecvShape(recv: Id, arrArc: string, wait: Id)
    | WaitallShape(waitall: Id)

  datatype Fragment = Fragment(plugin: Plugin, shape: Shape, registry: Registry)

  /** The transitions a fragment's `connect` or resolution will use. */
  function ShapeTransitions(s: Shape): set<Id> {
    match s
    case EmptyShape(_) => {}
    case IsendShape(t, _) => {t}
    case IrecvShape(t, _) => {t}
    case WaitShape(t, _) => {t}
    case SendShape(t, _, w) => {t, w}
    case RecvShape(t, _, w) => {t, w}
    case WaitallShape(t) => {t}
  }

  /** Every registration names elements of the net `n`. */
  predicate RegistryIn(reg: Registry, n: Net) {
    && (forall u | u in reg.places :: u.place in PlaceIds(n) && u.resolution.data in PlaceIds(n))
    && (forall u | u in reg.transitions :: u.transition in TransitionIds(n))
  }

  /**
   * A finished fragment: a well-formed plugin net whose shape and
   * registrations refer to its own elements.
   */
  predicate FragmentWellFormed(f: Fragment) {
    && WellFormed(f.plugin)
    && ShapeTransitions(f.shape) <= TransitionIds(f.plugin.net)
    && RegistryIn(f.registry, f.plugin.net)
  }

  /** Number of edges of `es` ending at `dst`. */
  function CountInto(es: seq<Edge>, dst: NodeRef): nat
    decreases |es|
  {
    if |es| == 0 then 0 else (if es[0].dst == dst then 1 else 0) + CountInto(es[1..], dst)
  }

  /** Number of edges of `es` starting at `src` with kind `kind`. */
  function CountFrom(es: seq<Edge>, src: NodeRef, kind: EdgeKind): nat
    decreases |es|
  {
    if |es| == 0 then 0 else (if es[0].src == src && es[0].kind == kind then 1 else 0) + CountFrom(es[1..], src, kind)
  }

  lemma {:induction false} CountIntoAppend(a: seq<Edge>, b: seq<Edge>, dst: NodeRef)
    ensures CountInto(a + b, dst) == CountInto(a, dst) + CountInto(b, dst)
    decreases |a|
  {
    if |a| == 0 {
      assert a + b == b;
    } else {
      assert (a + b)[0] == a[0] && (a + b)[1..] == a[1..] + b;
      CountIntoAppend(a[1..], b, dst);
    }
  }

  lemma {:induction false} CountFromAppend(a: seq<Edge>, b: seq<Edge>, src: NodeRef, kind: EdgeKind)
    ensures CountFrom(a + b, src, kind) == CountFrom(a, src, kind) + CountFrom(b, src, kind)
    decreases |a|
  {
    if |a| == 0 {
      assert a + b == b;
    } else {
      assert (a + b)[0] == a[0] && (a + b)[1..] == a[1..] + b;
      CountFromAppend(a[1..], b, src, kind);
    }
  }

  /** No edge of `es` touches `r`. */
  lemma {:induction false} CountsAbsent(es: seq<Edge>, r: NodeRef, kind: EdgeKind)
    requires forall e | e in es :: e.src != r && e.dst != r
    ensures CountInto(es, r) == 0 && CountFrom(es, r, kind) == 0
    decreases |es|
  {
    if |es| > 0 {
      assert es[0] in es;
      CountsAbsent(es[1..], r, kind);
    }
  }

  lemma PlacesIn(n: Net)
    ensures forall i | 0 <= i < |n.places| :: n.places[i].id in PlaceIds(n)
  {
    forall i | 0 <= i < |n.places| ensures n.places[i].id in PlaceIds(n) {
      assert n.places[i] in n.places;
    }
  }

  lemma TransitionsIn(n: Net)
    ensures forall i | 0 <= i < |n.transitions| :: n.transitions[i].id in TransitionIds(n)
  {
    forall i | 0 <= i < |n.transitions| ensures n.transitions[i].id in TransitionIds(n) {
      assert n.transitions[i] in n.transitions;
    }
  }


  /** `entry_place().name += s`: appends `s` to the name of the place `id`. */
  function AppendToName(n: Net, id: Id, s: string): (r: Net)
    ensures |r.places| == |n.places|
    ensures forall i | 0 <= i < |n.places| ::
      r.places[i] == (if n.places[i].id == id then n.places[i].(name := n.places[i].name + s) else n.places[i])
    ensures r.id == n.id && r.transitions == n.transitions
    ensures r.inputs == n.inputs && r.outputs == n.outputs && r.controlFlow == n.controlFlow
  {
    var ps := seq(|n.places|, i requires 0 <= i < |n.places| =>
      if n.places[i].id == id then n.places[i].(name := n.places[i].name + s) else n.places[i]);
    n.(places := ps)
  }

  // ---------------------------------------------------------------------------
  // EmptyCN

  /**
   * The layout of an `EmptyCN` fragment: only entry and exit, renamed after
   * the callee, joined by one control-flow edge.
   */
  predicate EmptyLayout(f: Fragment, callName: string) {
    var p := f.plugin; var n := p.net;
    && f.shape == EmptyShape(callName) && f.registry == NoRegistrations
    && |n.places| == 2 && n.places[0].id == p.entry && n.places[1].id == p.exit && p.entry != p.exit
    && n.places[0].name == "entry" + Decimal(n.id) + callName
    && n.places[1].name == "exit" + Decimal(n.id) + callName
    && n.transitions == [] && n.inputs == [] && n.outputs == []
    && n.controlFlow == [Edge(PlaceRef(p.entry), PlaceRef(p.exit), Take, "")]
  }

  lemma EmptyLayoutWellFormed(f: Fragment, callName: string)
    requires EmptyLayout(f, callName)
    ensures FragmentWellFormed(f)
  {
    PlacesIn(f.plugin.net);
  }

  /** `EmptyCN`: an unrecognised call keeps only the sequencing. */
  method EmptyFragment(c: Counter, callName: string) returns (r: Built<Fragment>)
    ensures EmptyLayout(r.value, callName)
    ensures c + 3 < IdModulus ==> r.counter == c + 3 && FreshIds(r.value.plugin.net, c, r.counter)
  {
    var base := NewPlugin(c);
    var p := base.value;
    var n1 := AppendToName(p.net, p.entry, callName);
    var n2 := AppendToName(n1, p.exit, callName);
    var n3 := AddControlFlowEdge(n2, PlaceRef(p.entry), PlaceRef(p.exit), "");
    r := Built(Fragment(p.(net := n3), EmptyShape(callName), NoRegistrations), base.counter);
  }

  // ---------------------------------------------------------------------------
  // CN_MPI_Isend (arguments: 1 count, 2 datatype, 3 dest, 4 tag)

  /** The arc carrying a sent message into asr (`CN_MPI_Isend::connect`). */
  function SendMessageArc(h: Helpers, args: seq<Value>): string
    requires |args| > 4
  {
    "{data=" + h.bufferValue(args[2], args[1]) + ", envelope="
    + h.requestValue(None, Some(args[3]), args[4], "buffered") + "}"
  }

  /** The arc from an Isend's params place into its send transition. */
  function SendParamsArc(h: Helpers, args: seq<Value>): string
    requires |args| > 4
  {
    "(" + h.bufferValue(args[2], args[1]) + ","
    + h.envelopeValue(None, Some(args[3]), args[4], false, DefaultDelimiters) + ")"
  }

  /** The arc from an Isend's send transition to its request place. */
  function SendRequestArc(h: Helpers, args: seq<Value>): string
    requires |args| > 4
  {
    "{" + h.requestValue(None, Some(args[3]), args[4], "buffered") + "}"
  }

  /**
   * The layout of an Isend fragment: places entry, exit, params, reqst and a
   * unit send exit; one transition `send` fed by params and producing the
   * request; control flows send -> send exit, entry -> params,
   * send exit -> exit.
   */
  predicate IsendLayout(f: Fragment, h: Helpers, args: seq<Value>)
    requires |args| > 4
  {
    var p := f.plugin; var n := p.net;
    && |n.places| == 5 && |n.transitions| == 1
    && n.places[0].id == p.entry && n.places[1].id == p.exit && p.entry != p.exit
    && f.shape == IsendShape(n.transitions[0].id, SendMessageArc(h, args))
    && f.registry == NoRegistrations
    && n.transitions[0].name == "send" + h.netLabel(n.id)
    && n.places[2].name == "send" + h.netLabel(n.id) + "_params" && n.places[3].name == "send" + h.netLabel(n.id) + "_reqst"
    && n.places[4].name == "send" + h.netLabel(n.id) + "_exit"
    && n.places[2].init == "" && n.places[3].init == "" && n.places[4].init == ""
    && n.places[2].typ == "(" + h.bufferType(args[2]) + "," + h.envelopeType(None, Some(args[3]), args[4], DefaultDelimiters) + ")"
    && n.places[3].typ == "(MPI_Request, MessageRequest)" && n.places[4].typ == "Unit"
    && n.inputs == [Edge(PlaceRef(n.places[2].id), TransitionRef(n.transitions[0].id), Take, SendParamsArc(h, args))]
    && n.outputs == [Edge(TransitionRef(n.transitions[0].id), PlaceRef(n.places[3].id), Take, SendRequestArc(h, args))]
    && n.controlFlow == [
         Edge(TransitionRef(n.transitions[0].id), PlaceRef(n.places[4].id), Take, ""),
         Edge(PlaceRef(p.entry), PlaceRef(n.places[2].id), Take, ""),
         Edge(PlaceRef(n.places[4].id), PlaceRef(p.exit), Take, "")]
  }

  lemma IsendLayoutWellFormed(f: Fragment, h: Helpers, args: seq<Value>)
    requires |args| > 4 && IsendLayout(f, h, args)
    ensures FragmentWellFormed(f)
  {
    PlacesIn(f.plugin.net);
    TransitionsIn(f.plugin.net);
  }

  /** Only the elements' ids changed: freshness carries over to a net with the same elements. */
  lemma SameElementsFresh(a: Net, b: Net, lo: int, hi: int)
    requires a.places == b.places && a.transitions == b.transitions && FreshIds(a, lo, hi)
    ensures FreshIds(b, lo, hi)
  {
  }

  /**
   * The elements `CN_MPI_Isend` adds to its plugin net, in order: params,
   * reqst and the send exit place, then the send transition.
   */
  method IsendElements(c: Counter, h: Helpers, args: seq<Value>) returns (r: Built<Plugin>)
    requires |args| > 4
    ensures var p := r.value; var n := p.net;
      && |n.places| == 5 && |n.transitions| == 1
      && n.places[0].id == p.entry && n.places[1].id == p.exit && p.entry != p.exit
      && n.transitions[0].name == "send" + h.netLabel(n.id)
      && n.places[2].name == "send" + h.netLabel(n.id) + "_params" && n.places[3].name == "send" + h.netLabel(n.id) + "_reqst"
      && n.places[4].name == "send" + h.netLabel(n.id) + "_exit"
      && n.places[2].init == "" && n.places[3].init == "" && n.places[4].init == ""
      && n.places[2].typ == "(" + h.bufferType(args[2]) + "," + h.envelopeType(None, Some(args[3]), args[4], DefaultDelimiters) + ")"
      && n.places[3].typ == "(MPI_Request, MessageRequest)" && n.places[4].typ == "Unit"
      && n.inputs == [] && n.outputs == [] && n.controlFlow == []
    ensures c + 7 < IdModulus ==> r.counter == c + 7 && FreshIds(r.value.net, c, r.counter)
  {
    var base := NewPlugin(c);
    var p := base.value;
    var prefix := "send" + h.netLabel(p.net.id);
    // the source adds params typed "<empty>" and sets this type right after
    var paramsType := "(" + h.bufferType(args[2]) + ","
      + h.envelopeType(None, Some(args[3]), args[4], DefaultDelimiters) + ")";
    var drawn := AddPlaces(p.net, base.counter, [
      PlaceSpec(paramsType, "", prefix + "_params"),
      PlaceSpec("(MPI_Request, MessageRequest)", "", prefix + "_reqst"),
      PlaceSpec("Unit", "", prefix + "_exit")], c + 1);
    var send := AddTransition(drawn.value, drawn.counter, [], prefix);
    if c + 7 < IdModulus {
      AddTransitionInOrder(drawn.value, drawn.counter, [], prefix, c + 1);
      DrawnInOrderFresh(send.net, c + 1, c);
    }
    r := Built(p.(net := send.net), send.counter);
  }

  /** `CN_MPI_Isend`: its elements, then the edges between them. */
  method IsendFragment(c: Counter, h: Helpers, args: seq<Value>) returns (r: Built<Fragment>)
    requires |args| > 4
    ensures IsendLayout(r.value, h, args)
    ensures c + 7 < IdModulus ==> r.counter == c + 7 && FreshIds(r.value.plugin.net, c, r.counter)
  {
    var drawn := IsendElements(c, h, args);
    var p := drawn.value;
    var params, reqst, exit := p.net.places[2].id, p.net.places[3].id, p.net.places[4].id;
    var send := p.net.transitions[0].id;
    var n1 := AddInputEdge(p.net, params, send, Take, SendParamsArc(h, args));
    var n2 := AddOutputEdge(n1, send, reqst, SendRequestArc(h, args));
    var n3 := AddControlFlowEdge(n2, TransitionRef(send), PlaceRef(exit), "");
    var n4 := AddControlFlowEdge(n3, PlaceRef(p.entry), PlaceRef(params), "");
    var n5 := AddControlFlowEdge(n4, PlaceRef(exit), PlaceRef(p.exit), "");
    if c + 7 < IdModulus {
      SameElementsFresh(p.net, n5, c, drawn.counter);
    }
    r := Built(Fragment(p.(net := n5), IsendShape(send, SendMessageArc(h, args)), NoRegistrations), drawn.counter);
  }

  // ---------------------------------------------------------------------------
  // CN_MPI_RecvBase and CN_MPI_Irecv (arguments: 1 count, 2 datatype, 3 source, 4 tag, 6 request)

  /** The message-request text a receive posts (to its reqst place and, on connect, to arr). */
  function ReceiveRequestText(h: Helpers, args: seq<Value>): string
    requires |args| > 4
  {
    h.requestValue(Some(args[3]), None, args[4], "false")
  }

  /** The arc from a receive's params place into its recv transition. */
  function ReceiveParamsArc(h: Helpers, args: seq<Value>): string
    requires |args| > 4
  {
    h.envelopeValue(Some(args[3]), None, args[4], false, TupleDelimiters)
  }

  /**
   * The layout shared by every receive: places entry, exit, params, data,
   * reqst and a unit recv exit; one transition `recv` fed by params and
   * producing the request; control flows recv -> recv exit, entry -> params,
   * recv exit -> exit.  Registrations are left to the caller.
   */
  predicate RecvLayout(f: Fragment, h: Helpers, args: seq<Value>)
    requires |args| > 4
  {
    var p := f.plugin; var n := p.net;
    && |n.places| == 6 && |n.transitions| == 1
    && n.places[0].id == p.entry && n.places[1].id == p.exit && p.entry != p.exit
    && f.shape == IrecvShape(n.transitions[0].id, ReceiveRequestText(h, args))
    && n.transitions[0].name == "recv" + h.netLabel(n.id)
    && n.places[2].name == "recv" + h.netLabel(n.id) + "_params" && n.places[3].name == "recv" + h.netLabel(n.id) + "_data"
    && n.places[4].name == "recv" + h.netLabel(n.id) + "_reqst" && n.places[5].name == "recv" + h.netLabel(n.id) + "_exit"
    && n.places[2].init == "" && n.places[3].init == "" && n.places[4].init == "" && n.places[5].init == ""
    && n.places[2].typ == h.envelopeType(Some(args[3]), None, args[4], TupleDelimiters)
    && n.places[3].typ == h.bufferType(args[2])
    && n.places[4].typ == "(MPI_Request, MessageRequest)" && n.places[5].typ == "Unit"
    && n.inputs == [Edge(PlaceRef(n.places[2].id), TransitionRef(n.transitions[0].id), Take, ReceiveParamsArc(h, args))]
    && n.outputs == [Edge(TransitionRef(n.transitions[0].id), PlaceRef(n.places[4].id), Take,
                          "{" + ReceiveRequestText(h, args) + "}")]
    && n.controlFlow == [
         Edge(TransitionRef(n.transitions[0].id), PlaceRef(n.places[5].id), Take, ""),
         Edge(PlaceRef(p.entry), PlaceRef(n.places[2].id), Take, ""),
         Edge(PlaceRef(n.places[5].id), PlaceRef(p.exit), Take, "")]
  }

  lemma RecvLayoutWellFormed(f: Fragment, h: Helpers, args: seq<Value>)
    requires |args| > 4 && RecvLayout(f, h, args)
    requires RegistryIn(f.registry, f.plugin.net)
    ensures FragmentWellFormed(f)
  {
    PlacesIn(f.plugin.net);
    TransitionsIn(f.plugin.net);
  }

  /**
   * The elements a receive adds to its plugin net, in order: params, data,
   * reqst and the recv exit place, then the recv transition.
   */
  method RecvElements(c: Counter, h: Helpers, args: seq<Value>) returns (r: Built<Plugin>)
    requires |args| > 4
    ensures var p := r.value; var n := p.net;
      && |n.places| == 6 && |n.transitions| == 1
      && n.places[0].id == p.entry && n.places[1].id == p.exit && p.entry != p.exit
      && n.transitions[0].name == "recv" + h.netLabel(n.id)
      && n.places[2].name == "recv" + h.netLabel(n.id) + "_params" && n.places[3].name == "recv" + h.netLabel(n.id) + "_data"
      && n.places[4].name == "recv" + h.netLabel(n.id) + "_reqst" && n.places[5].name == "recv" + h.netLabel(n.id) + "_exit"
      && n.places[2].init == "" && n.places[3].init == "" && n.places[4].init == "" && n.places[5].init == ""
      && n.places[2].typ == h.envelopeType(Some(args[3]), None, args[4], TupleDelimiters)
      && n.places[3].typ == h.bufferType(args[2])
      && n.places[4].typ == "(MPI_Request, MessageRequest)" && n.places[5].typ == "Unit"
      && n.inputs == [] && n.outputs == [] && n.controlFlow == []
    ensures c + 8 < IdModulus ==> r.counter == c + 8 && FreshIds(r.value.net, c, r.counter)
  {
    var base := NewPlugin(c);
    var p := base.value;
    var prefix := "recv" + h.netLabel(p.net.id);
    // params and data are added typed "<empty>" and typed right after
    var paramsType := h.envelopeType(Some(args[3]), None, args[4], TupleDelimiters);
    var drawn := AddPlaces(p.net, base.counter, [
      PlaceSpec(paramsType, "", prefix + "_params"),
      PlaceSpec(h.bufferType(args[2]), "", prefix + "_data"),
      PlaceSpec("(MPI_Request, MessageRequest)", "", prefix + "_reqst"),
      PlaceSpec("Unit", "", prefix + "_exit")], c + 1);
    var recv := AddTransition(drawn.value, drawn.counter, [], prefix);
    if c + 8 < IdModulus {
      AddTransitionInOrder(drawn.value, drawn.counter, [], prefix, c + 1);
      DrawnInOrderFresh(recv.net, c + 1, c);
    }
    r := Built(p.(net := recv.net), recv.counter);
  }

  /** `CN_MPI_RecvBase`: the receive itself, registering nothing. */
  method RecvBaseFragment(c: Counter, h: Helpers, args: seq<Value>) returns (r: Built<Fragment>)
    requires |args| > 4
    ensures RecvLayout(r.value, h, args) && r.value.registry == NoRegistrations
    ensures c + 8 < IdModulus ==> r.counter == c + 8 && FreshIds(r.value.plugin.net, c, r.counter)
  {
    var drawn := RecvElements(c, h, args);
    var p := drawn.value;
    var params, reqst, exit := p.net.places[2].id, p.net.places[4].id, p.net.places[5].id;
    var recv := p.net.transitions[0].id;
    var n1 := AddInputEdge(p.net, params, recv, Take, ReceiveParamsArc(h, args));
    var n2 := AddOutputEdge(n1, recv, reqst, "{" + ReceiveRequestText(h, args) + "}");
    var n3 := AddControlFlowEdge(n2, TransitionRef(recv), PlaceRef(exit), "");
    var n4 := AddControlFlowEdge(n3, PlaceRef(p.entry), PlaceRef(params), "");
    var n5 := AddControlFlowEdge(n4, PlaceRef(exit), PlaceRef(p.exit), "");
    if c + 8 < IdModulus {
      SameElementsFresh(p.net, n5, c, drawn.counter);
    }
    r := Built(Fragment(p.(net := n5), IrecvShape(recv, ReceiveRequestText(h, args)), NoRegistrations), drawn.counter);
  }

  /** The arc by which a collective wait moves received data (`CN_MPI_Irecv`). */
  const CollectiveDataArc := "msg_tokens|{data=data} =>* data"

  /**
   * The one registration of `CN_MPI_Irecv` (places 3 and 4 of the receive
   * layout are the data and request places): collective on the data place
   * under the array's base pointer for an element address, otherwise direct
   * on the request place under the request.
   */
  predicate IrecvRegistration(f: Fragment, h: Helpers, args: seq<Value>)
    requires |args| > 6
  {
    var n := f.plugin.net;
    && |n.places| > 4
    && f.registry.transitions == [] && |f.registry.places| == 1
    && (args[6].ElementPtr? ==>
          f.registry.places[0] == UnresolvedPlace(n.places[3].id, args[6].pointer, Collective(n.places[3].id, CollectiveDataArc)))
    && (!args[6].ElementPtr? ==>
          f.registry.places[0] == UnresolvedPlace(n.places[4].id, args[6], Direct(n.places[3].id, h.bufferValue(args[2], args[1]))))
  }

  /**
   * `CN_MPI_Irecv`: a receive whose request argument (6) is registered for
   * resolution.  A request given as an element address (an element of a
   * request array, completed by a collective wait) registers the data place
   * under the array's base pointer; any other request registers the request
   * place under the request itself, resolved directly.
   */
  method IrecvFragment(c: Counter, h: Helpers, args: seq<Value>) returns (r: Built<Fragment>)
    requires |args| > 6
    ensures RecvLayout(r.value, h, args) && IrecvRegistration(r.value, h, args)
    ensures c + 8 < IdModulus ==> r.counter == c + 8 && FreshIds(r.value.plugin.net, c, r.counter)
  {
    var base := RecvBaseFragment(c, h, args);
    var n := base.value.plugin.net;
    var data := n.places[3].id;
    var up :=
      if args[6].ElementPtr? then UnresolvedPlace(data, args[6].pointer, Collective(data, CollectiveDataArc))
      else UnresolvedPlace(n.places[4].id, args[6], Direct(data, h.bufferValue(args[2], args[1])));
    r := Built(base.value.(registry := Registry([up], [])), base.counter);
  }

  // ---------------------------------------------------------------------------
  // CN_MPI_Wait

  /**
   * The layout of a Wait fragment: entry -> wait -> exit and nothing else.
   * Built for a call site it registers its transition under the request
   * argument; built without one (inside a blocking call) it registers nothing.
   */
  predicate WaitLayout(f: Fragment, h: Helpers, request: Option<Value>) {
    var p := f.plugin; var n := p.net;
    && |n.places| == 2 && |n.transitions| == 1
    && n.places[0].id == p.entry && n.places[1].id == p.exit && p.entry != p.exit
    && f.shape == WaitShape(n.transitions[0].id, request.Some?)
    && n.transitions[0].name == "wait" + h.netLabel(n.id)
    && n.inputs == [] && n.outputs == []
    && n.controlFlow == [
         Edge(PlaceRef(p.entry), TransitionRef(n.transitions[0].id), Take, ""),
         Edge(TransitionRef(n.transitions[0].id), PlaceRef(p.exit), Take, "")]
    && f.registry.places == []
    && f.registry.transitions == WaitRegistrations(n.transitions[0].id, request)
  }

  /** `add_unresolved_transition` for a wait given a request handle. */
  function WaitRegistrations(wait: Id, request: Option<Value>): seq<UnresolvedTransition> {
    match request
    case None => []
    case Some(v) => [UnresolvedTransition(wait, v, None)]
  }

  lemma WaitLayoutWellFormed(f: Fragment, h: Helpers, request: Option<Value>)
    requires WaitLayout(f, h, request)
    ensures FragmentWellFormed(f)
  {
    PlacesIn(f.plugin.net);
    TransitionsIn(f.plugin.net);
  }

  /** Both `CN_MPI_Wait` constructors: `request` is argument 0 of the call site, if there is one. */
  method WaitFragment(c: Counter, h: Helpers, request: Option<Value>) returns (r: Built<Fragment>)
    ensures WaitLayout(r.value, h, request)
    ensures c + 4 < IdModulus ==> r.counter == c + 4 && FreshIds(r.value.plugin.net, c, r.counter)
  {
    var base := NewPlugin(c);
    var p := base.value;
    var wait := AddTransition(p.net, base.counter, [], "wait" + h.netLabel(p.net.id));
    var n1 := AddControlFlowEdge(wait.net, PlaceRef(p.entry), TransitionRef(wait.elem.id), "");
    var n2 := AddControlFlowEdge(n1, TransitionRef(wait.elem.id), PlaceRef(p.exit), "");
    if c + 4 < IdModulus {
      AddTransitionInOrder(p.net, base.counter, [], "wait" + h.netLabel(p.net.id), c + 1);
      DrawnInOrderFresh(n2, c + 1, c);
    }
    var reg := Registry([], WaitRegistrations(wait.elem.id, request));
    r := Built(Fragment(p.(net := n2), WaitShape(wait.elem.id, request.Some?), reg), wait.counter);
  }

  // ---------------------------------------------------------------------------
  // CN_MPI_Send: an Isend followed by a Wait on its request

  /** The arc by which a wait takes the request it completes. */
  const TakeRequestArc := "(reqst, {id=id})"

  /**
   * The layout of a Send fragment: its own entry and exit, the five places
   * of the inner Isend and the two of the inner Wait; transitions send and
   * wait.  Besides the inner edges, the Isend's request feeds the wait, and
   * control flows entry -> Isend -> Wait -> exit.
   */
  predicate SendLayout(f: Fragment, h: Helpers, args: seq<Value>)
    requires |args| > 4
  {
    var p := f.plugin; var n := p.net; var ps := n.places; var ts := n.transitions;
    && |ps| == 9 && |ts| == 2
    && ps[0].id == p.entry && ps[1].id == p.exit && p.entry != p.exit
    && f.shape == SendShape(ts[0].id, SendMessageArc(h, args), ts[1].id)
    && f.registry == NoRegistrations
    && ps[5].typ == "(MPI_Request, MessageRequest)"
    && n.inputs == [
         Edge(PlaceRef(ps[5].id), TransitionRef(ts[1].id), Take, TakeRequestArc),
         Edge(PlaceRef(ps[4].id), TransitionRef(ts[0].id), Take, SendParamsArc(h, args))]
    && n.outputs == [Edge(TransitionRef(ts[0].id), PlaceRef(ps[5].id), Take, SendRequestArc(h, args))]
    && n.controlFlow == [
         Edge(PlaceRef(ps[0].id), PlaceRef(ps[2].id), Take, ""),
         Edge(PlaceRef(ps[8].id), PlaceRef(ps[1].id), Take, ""),
         Edge(PlaceRef(ps[3].id), PlaceRef(ps[7].id), Take, ""),
         Edge(TransitionRef(ts[0].id), PlaceRef(ps[6].id), Take, ""),
         Edge(PlaceRef(ps[2].id), PlaceRef(ps[4].id), Take, ""),
         Edge(PlaceRef(ps[6].id), PlaceRef(ps[3].id), Take, ""),
         Edge(PlaceRef(ps[7].id), TransitionRef(ts[1].id), Take, ""),
         Edge(TransitionRef(ts[1].id), PlaceRef(ps[8].id), Take, "")]
  }

  lemma SendInputsIn(f: Fragment, h: Helpers, args: seq<Value>)
    requires |args| > 4 && SendLayout(f, h, args)
    ensures var n := f.plugin.net;
      forall i | 0 <= i < |n.inputs| :: RefIn(n.inputs[i].src, n) && RefIn(n.inputs[i].dst, n)
  {
    PlacesIn(f.plugin.net);
    TransitionsIn(f.plugin.net);
  }

  lemma SendOutputsIn(f: Fragment, h: Helpers, args: seq<Value>)
    requires |args| > 4 && SendLayout(f, h, args)
    ensures var n := f.plugin.net;
      forall i | 0 <= i < |n.outputs| :: RefIn(n.outputs[i].src, n) && RefIn(n.outputs[i].dst, n)
  {
    PlacesIn(f.plugin.net);
    TransitionsIn(f.plugin.net);
  }

  lemma SendControlFlowIn(f: Fragment, h: Helpers, args: seq<Value>)
    requires |args| > 4 && SendLayout(f, h, args)
    ensures var n := f.plugin.net;
      forall i | 0 <= i < |n.controlFlow| :: RefIn(n.controlFlow[i].src, n) && RefIn(n.controlFlow[i].dst, n)
  {
    PlacesIn(f.plugin.net);
    TransitionsIn(f.plugin.net);
  }

  lemma SendLayoutWellFormed(f: Fragment, h: Helpers, args: seq<Value>)
    requires |args| > 4 && SendLayout(f, h, args)
    ensures FragmentWellFormed(f)
  {
    var n := f.plugin.net;
    PlacesIn(n);
    TransitionsIn(n);
    SendInputsIn(f, h, args);
    SendOutputsIn(f, h, args);
    SendControlFlowIn(f, h, args);
    ClosedByIndex(n);
    assert WellFormed(f.plugin);
    assert f.shape.send == n.transitions[0].id && f.shape.wait == n.transitions[1].id;
    assert ShapeTransitions(f.shape) <= TransitionIds(n);
    assert RegistryIn(f.registry, n);
  }

  /** A fresh plugin net as `NewPlugin` leaves it: entry and exit only. */
  predicate BarePlugin(o: Plugin) {
    && |o.net.places| == 2 && o.net.places[0].id == o.entry && o.net.places[1].id == o.exit
    && o.entry != o.exit
    && o.net.transitions == [] && o.net.inputs == [] && o.net.outputs == [] && o.net.controlFlow == []
  }

  /** The body of the `CN_MPI_Send` constructor, given its outer plugin and its two parts. */
  function ComposeSend(o: Plugin, isend: Fragment, wait: Fragment, h: Helpers, args: seq<Value>): (r: Fragment)
    requires |args| > 4 && BarePlugin(o) && IsendLayout(isend, h, args) && WaitLayout(wait, h, None)
    ensures SendLayout(r, h, args)
    ensures r.plugin.net.places == o.net.places + isend.plugin.net.places + wait.plugin.net.places
    ensures r.plugin.net.transitions == isend.plugin.net.transitions + wait.plugin.net.transitions
  {
    var i, w := isend.plugin, wait.plugin;
    var tWait := wait.shape.wait;
    var n1 := AddInputEdge(o.net, i.net.places[3].id, tWait, Take, TakeRequestArc);
    var n2 := AddControlFlowEdge(n1, PlaceRef(o.entry), PlaceRef(i.entry), "");
    var n3 := AddControlFlowEdge(n2, PlaceRef(w.exit), PlaceRef(o.exit), "");
    var n4 := AddControlFlowEdge(n3, PlaceRef(i.exit), PlaceRef(w.entry), "");
    // takeover of the Isend, then of the Wait
    var n5 := Absorb(Absorb(n4, i.net), w.net);
    Fragment(o.(net := n5), SendShape(isend.shape.send, isend.shape.asrArc, tWait), MergeRegistries(isend.registry, wait.registry))
  }

  /** `CN_MPI_Send`: the outer plugin draws first, then the Isend, then the Wait. */
  method SendFragment(c: Counter, h: Helpers, args: seq<Value>) returns (r: Built<Fragment>)
    requires |args| > 4
    ensures SendLayout(r.value, h, args)
    ensures c + 14 < IdModulus ==> r.counter == c + 14 && FreshIds(r.value.plugin.net, c, r.counter)
  {
    var outer := NewPlugin(c);
    var isend := IsendFragment(outer.counter, h, args);
    var wait := WaitFragment(isend.counter, h, None);
    var f := ComposeSend(outer.value, isend.value, wait.value, h, args);
    if c + 14 < IdModulus {
      ThreeFresh(outer.value.net, isend.value.plugin.net, wait.value.plugin.net, f.plugin.net, c, c + 3, c + 10, c + 14);
    }
    r := Built(f, wait.counter);
  }

  /** Elements drawn from two consecutive windows, in order, are fresh in the whole window. */
  lemma TwoFresh(a: Net, b: Net, r: Net, lo: int, mid: int, hi: int)
    requires lo <= mid <= hi
    requires FreshIds(a, lo, mid) && FreshIds(b, mid, hi)
    requires r.places == a.places + b.places && r.transitions == a.transitions + b.transitions
    ensures FreshIds(r, lo, hi)
  {
    AbsorbFresh(a, b, lo, mid, hi);
    assert Absorb(a, b).places == r.places && Absorb(a, b).transitions == r.transitions;
  }

  /** Elements drawn from three consecutive windows, in order, are fresh in the whole window. */
  lemma ThreeFresh(a: Net, b: Net, d: Net, r: Net, lo: int, m1: int, m2: int, hi: int)
    requires lo <= m1 <= m2 <= hi
    requires FreshIds(a, lo, m1) && FreshIds(b, m1, m2) && FreshIds(d, m2, hi)
    requires r.places == a.places + b.places + d.places
    requires r.transitions == a.transitions + b.transitions + d.transitions
    ensures FreshIds(r, lo, hi)
  {
    var ab := Absorb(a, b);
    AbsorbFresh(a, b, lo, m1, m2);
    AbsorbFresh(ab, d, lo, m2, hi);
    assert Absorb(ab, d).places == r.places && Absorb(ab, d).transitions == r.transitions;
  }

  // ---------------------------------------------------------------------------
  // CN_MPI_Recv: a receive followed by a Wait on its request

  /**
   * The layout of a Recv fragment: the six receive places then the Wait's
   * two; transitions recv and wait.  Besides the receive's edges, the
   * request feeds the wait, the wait delivers the data, and the receive's
   * old exit flows into the Wait, whose exit becomes the fragment's exit.
   */
  predicate RecvBlockingLayout(f: Fragment, h: Helpers, args: seq<Value>)
    requires |args| > 4
  {
    var p := f.plugin; var n := p.net; var ps := n.places; var ts := n.transitions;
    && |ps| == 8 && |ts| == 2
    && ps[0].id == p.entry && ps[7].id == p.exit
    && f.shape == RecvShape(ts[0].id, ReceiveRequestText(h, args), ts[1].id)
    && f.registry == NoRegistrations
    && ps[3].typ == h.bufferType(args[2]) && ps[4].typ == "(MPI_Request, MessageRequest)"
    && n.inputs == [
         Edge(PlaceRef(ps[2].id), TransitionRef(ts[0].id), Take, ReceiveParamsArc(h, args)),
         Edge(PlaceRef(ps[4].id), TransitionRef(ts[1].id), Take, TakeRequestArc)]
    && n.outputs == [
         Edge(TransitionRef(ts[0].id), PlaceRef(ps[4].id), Take, "{" + ReceiveRequestText(h, args) + "}"),
         Edge(TransitionRef(ts[1].id), PlaceRef(ps[3].id), Take, h.bufferValue(args[2], args[1]))]
    && n.controlFlow == [
         Edge(TransitionRef(ts[0].id), PlaceRef(ps[5].id), Take, ""),
         Edge(PlaceRef(ps[0].id), PlaceRef(ps[2].id), Take, ""),
         Edge(PlaceRef(ps[5].id), PlaceRef(ps[1].id), Take, ""),
         Edge(PlaceRef(ps[1].id), PlaceRef(ps[6].id), Take, ""),
         Edge(PlaceRef(ps[6].id), TransitionRef(ts[1].id), Take, ""),
         Edge(TransitionRef(ts[1].id), PlaceRef(ps[7].id), Take, "")]
  }

  lemma RecvBlockingInputsIn(f: Fragment, h: Helpers, args: seq<Value>)
    requires |args| > 4 && RecvBlockingLayout(f, h, args)
    ensures var n := f.plugin.net;
      forall i | 0 <= i < |n.inputs| :: RefIn(n.inputs[i].src, n) && RefIn(n.inputs[i].dst, n)
  {
    PlacesIn(f.plugin.net);
    TransitionsIn(f.plugin.net);
  }

  lemma RecvBlockingOutputsIn(f: Fragment, h: Helpers, args: seq<Value>)
    requires |args| > 4 && RecvBlockingLayout(f, h, args)
    ensures var n := f.plugin.net;
      forall i | 0 <= i < |n.outputs| :: RefIn(n.outputs[i].src, n) && RefIn(n.outputs[i].dst, n)
  {
    PlacesIn(f.plugin.net);
    TransitionsIn(f.plugin.net);
  }

  lemma RecvBlockingControlFlowIn(f: Fragment, h: Helpers, args: seq<Value>)
    requires |args| > 4 && RecvBlockingLayout(f, h, args)
    ensures var n := f.plugin.net;
      forall i | 0 <= i < |n.controlFlow| :: RefIn(n.controlFlow[i].src, n) && RefIn(n.controlFlow[i].dst, n)
  {
    PlacesIn(f.plugin.net);
    TransitionsIn(f.plugin.net);
  }

  lemma RecvBlockingLayoutWellFormed(f: Fragment, h: Helpers, args: seq<Value>)
    requires |args| > 4 && RecvBlockingLayout(f, h, args)
    ensures FragmentWellFormed(f)
  {
    var n := f.plugin.net;
    PlacesIn(n);
    TransitionsIn(n);
    RecvBlockingInputsIn(f, h, args);
    RecvBlockingOutputsIn(f, h, args);
    RecvBlockingControlFlowIn(f, h, args);
    ClosedByIndex(n);
    assert WellFormed(f.plugin);
    assert f.shape.recv == n.transitions[0].id && f.shape.wait == n.transitions[1].id;
    assert ShapeTransitions(f.shape) <= TransitionIds(n);
    assert RegistryIn(f.registry, n);
  }

  /** The body of the `CN_MPI_Recv` constructor, given its receive and its Wait. */
  function ComposeRecv(base: Fragment, wait: Fragment, h: Helpers, args: seq<Value>): (r: Fragment)
    requires |args| > 4 && RecvLayout(base, h, args) && base.registry == NoRegistrations
    requires WaitLayout(wait, h, None)
    ensures RecvBlockingLayout(r, h, args)
    ensures r.plugin.net.places == base.plugin.net.places + wait.plugin.net.places
    ensures r.plugin.net.transitions == base.plugin.net.transitions + wait.plugin.net.transitions
  {
    var b, w := base.plugin, wait.plugin;
    var tWait := wait.shape.wait;
    var n1 := AddInputEdge(b.net, b.net.places[4].id, tWait, Take, TakeRequestArc);
    var n2 := AddOutputEdge(n1, tWait, b.net.places[3].id, h.bufferValue(args[2], args[1]));
    var n3 := AddControlFlowEdge(n2, PlaceRef(b.exit), PlaceRef(w.entry), "");
    var exited := WithExit(b.(net := n3), w.exit);
    // takeover of the Wait
    var n4 := Absorb(n3, w.net);
    Fragment(exited.(net := n4), RecvShape(base.shape.recv, base.shape.arrArc, tWait), MergeRegistries(base.registry, wait.registry))
  }

  /** `CN_MPI_Recv`: the receive draws first, then the Wait. */
  method RecvFragment(c: Counter, h: Helpers, args: seq<Value>) returns (r: Built<Fragment>)
    requires |args| > 4
    ensures RecvBlockingLayout(r.value, h, args)
    ensures c + 12 < IdModulus ==> r.counter == c + 12 && FreshIds(r.value.plugin.net, c, r.counter)
  {
    var base := RecvBaseFragment(c, h, args);
    var wait := WaitFragment(base.counter, h, None);
    var f := ComposeRecv(base.value, wait.value, h, args);
    if c + 12 < IdModulus {
      TwoFresh(base.value.plugin.net, wait.value.plugin.net, f.plugin.net, c, c + 8, c + 12);
    }
    r := Built(f, wait.counter);
  }

  // ---------------------------------------------------------------------------
  // CN_MPI_Waitall (argument 1: the request array)

  /**
   * The layout of a Waitall fragment: places entry, exit, an `Int` count and
   * the requests; one transition taking the count and that many requests;
   * entry -> waitall -> exit; the transition is registered under the array.
   */
  predicate WaitallLayout(f: Fragment, h: Helpers, args: seq<Value>)
    requires |args| > 1
  {
    var p := f.plugin; var n := p.net; var ps := n.places; var ts := n.transitions;
    && |ps| == 4 && |ts| == 1
    && ps[0].id == p.entry && ps[1].id == p.exit && p.entry != p.exit
    && f.shape == WaitallShape(ts[0].id)
    && ts[0].name == "waitall" + h.netLabel(n.id)
    && ps[2].typ == "Int" && ps[3].typ == "(MPI_Request, MessageRequest)"
    && n.controlFlow == [
         Edge(PlaceRef(p.entry), TransitionRef(ts[0].id), Take, ""),
         Edge(TransitionRef(ts[0].id), PlaceRef(p.exit), Take, "")]
    && n.inputs == [
         Edge(PlaceRef(ps[2].id), TransitionRef(ts[0].id), Take, "size"),
         Edge(PlaceRef(ps[3].id), TransitionRef(ts[0].id), Take, "take(_, size, requests)")]
    && n.outputs == []
    && f.registry == Registry([], [UnresolvedTransition(ts[0].id, args[1], None)])
  }

  lemma WaitallLayoutWellFormed(f: Fragment, h: Helpers, args: seq<Value>)
    requires |args| > 1 && WaitallLayout(f, h, args)
    ensures FragmentWellFormed(f)
  {
    PlacesIn(f.plugin.net);
    TransitionsIn(f.plugin.net);
  }

  /** `CN_MPI_Waitall`. */
  method WaitallFragment(c: Counter, h: Helpers, args: seq<Value>) returns (r: Built<Fragment>)
    requires |args| > 1
    ensures WaitallLayout(r.value, h, args)
    ensures c + 6 < IdModulus ==> r.counter == c + 6 && FreshIds(r.value.plugin.net, c, r.counter)
  {
    var base := NewPlugin(c);
    var p := base.value;
    var prefix := "waitall" + h.netLabel(p.net.id);
    var count := AddPlace(p.net, base.counter, "Int", "", prefix + "_count");
    var rqsts := AddPlace(count.net, count.counter, "(MPI_Request, MessageRequest)", "", prefix + "_reqsts");
    var waitall := AddTransition(rqsts.net, rqsts.counter, [], prefix);
    var n1 := AddControlFlowEdge(waitall.net, PlaceRef(p.entry), TransitionRef(waitall.elem.id), "");
    var n2 := AddControlFlowEdge(n1, TransitionRef(waitall.elem.id), PlaceRef(p.exit), "");
    var n3 := AddInputEdge(n2, count.elem.id, waitall.elem.id, Take, "size");
    var n4 := AddInputEdge(n3, rqsts.elem.id, waitall.elem.id, Take, "take(_, size, requests)");
    if c + 6 < IdModulus {
      AddPlaceInOrder(p.net, base.counter, "Int", "", prefix + "_count", c + 1);
      AddPlaceInOrder(count.net, count.counter, "(MPI_Request, MessageRequest)", "", prefix + "_reqsts", c + 1);
      AddTransitionInOrder(rqsts.net, rqsts.counter, [], prefix, c + 1);
      DrawnInOrderFresh(n4, c + 1, c);
    }
    var reg := Registry([], [UnresolvedTransition(waitall.elem.id, args[1], None)]);
    r := Built(Fragment(p.(net := n4), WaitallShape(waitall.elem.id), reg), waitall.counter);
  }

  // ---------------------------------------------------------------------------
  // createCommSubnet

  /** Which constructor `createCommSubnet` picks for a callee name. */
  datatype CallKind = IsendCall | SendCall | IrecvCall | RecvCall | WaitCall | WaitallCall | OtherCall

  /** The dispatch on the callee's name, in the order the source tests the names. */
  function KindOf(callee: string): (k: CallKind)
    ensures k == IsendCall <==> callee == "MPI_Isend"
    ensures k == SendCall <==> callee == "MPI_Send"
    ensures k == IrecvCall <==> callee == "MPI_Irecv"
    ensures k == RecvCall <==> callee == "MPI_Recv"
    ensures k == WaitCall <==> callee == "MPI_Wait"
    ensures k == WaitallCall <==> callee == "MPI_Waitall"
  {
    CallNamesDistinct();
    if callee == "MPI_Isend" then IsendCall
    else if callee == "MPI_Send" then SendCall
    else if callee == "MPI_Irecv" then IrecvCall
    else if callee == "MPI_Recv" then RecvCall
    else if callee == "MPI_Wait" then WaitCall
    else if callee == "MPI_Waitall" then WaitallCall
    else OtherCall
  }

  /** The six names differ pairwise (by length, or at the first letter after "MPI_" or after "MPI_I"). */
  lemma CallNamesDistinct()
    ensures "MPI_Isend" != "MPI_Irecv"
    ensures "MPI_Send" != "MPI_Recv" && "MPI_Send" != "MPI_Wait" && "MPI_Recv" != "MPI_Wait"
    ensures |"MPI_Isend"| == 9 && |"MPI_Irecv"| == 9
    ensures |"MPI_Send"| == 8 && |"MPI_Recv"| == 8 && |"MPI_Wait"| == 8 && |"MPI_Waitall"| == 11
  {
    assert "MPI_Isend"[5] != "MPI_Irecv"[5];
    assert "MPI_Send"[4] != "MPI_Recv"[4];
    assert "MPI_Send"[4] != "MPI_Wait"[4];
    assert "MPI_Recv"[4] != "MPI_Wait"[4];
  }

  /** The shape a fragment of each kind has. */
  predicate ShapeOfKind(s: Shape, k: CallKind) {
    match k
    case IsendCall => s.IsendShape?
    case SendCall => s.SendShape?
    case IrecvCall => s.IrecvShape?
    case RecvCall => s.RecvShape?
    case WaitCall => s.WaitShape? && s.registered
    case WaitallCall => s.WaitallShape?
    case OtherCall => s.EmptyShape?
  }

  /** The arguments each recognised call's fragment reads are present (as in every such MPI call). */
  predicate ArgumentsPresent(cs: CallSite) {
    match KindOf(cs.callee)
    case IsendCall | SendCall | RecvCall => |cs.args| > 4
    case IrecvCall => |cs.args| > 6
    case WaitCall => |cs.args| > 0
    case WaitallCall => |cs.args| > 1
    case OtherCall => true
  }

  /**
   * `createCommSubnet`: the fragment for a call to a named function; any
   * call other than the six recognised ones gets an `EmptyCN` named after
   * the callee.
   */
  method CreateCommSubnet(c: Counter, h: Helpers, cs: CallSite) returns (r: Built<Fragment>)
    requires |cs.callee| > 0 && ArgumentsPresent(cs)
    ensures ShapeOfKind(r.value.shape, KindOf(cs.callee))
    ensures r.value.shape.EmptyShape? ==> r.value.shape.callName == cs.callee
    ensures KindOf(cs.callee) == IsendCall ==> IsendLayout(r.value, h, cs.args)
    ensures KindOf(cs.callee) == SendCall ==> SendLayout(r.value, h, cs.args)
    ensures KindOf(cs.callee) == IrecvCall ==> RecvLayout(r.value, h, cs.args) && IrecvRegistration(r.value, h, cs.args)
    ensures KindOf(cs.callee) == RecvCall ==> RecvBlockingLayout(r.value, h, cs.args)
    ensures KindOf(cs.callee) == WaitCall ==> WaitLayout(r.value, h, Some(cs.args[0]))
    ensures KindOf(cs.callee) == WaitallCall ==> WaitallLayout(r.value, h, cs.args)
    ensures KindOf(cs.callee) == OtherCall ==> EmptyLayout(r.value, cs.callee)
    ensures FragmentWellFormed(r.value)
    ensures c + 14 < IdModulus ==> c < r.counter <= c + 14 && FreshIds(r.value.plugin.net, c, r.counter)
  {
    var args := cs.args;
    match KindOf(cs.callee)
    case IsendCall => r := CheckedIsend(c, h, args);
    case SendCall => r := CheckedSend(c, h, args);
    case IrecvCall => r := CheckedIrecv(c, h, args);
    case RecvCall => r := CheckedRecv(c, h, args);
    case WaitCall => r := CheckedWait(c, h, args[0]);
    case WaitallCall => r := CheckedWaitall(c, h, args);
    case OtherCall => r := CheckedEmpty(c, cs.callee);
  }

  // Each constructor together with its well-formedness, as the dispatch needs it.

  method CheckedIsend(c: Counter, h: Helpers, args: seq<Value>) returns (r: Built<Fragment>)
    requires |args| > 4
    ensures IsendLayout(r.value, h, args) && r.value.shape.IsendShape? && FragmentWellFormed(r.value)
    ensures c + 14 < IdModulus ==> c < r.counter <= c + 14 && FreshIds(r.value.plugin.net, c, r.counter)
  {
    r := IsendFragment(c, h, args);
    IsendLayoutWellFormed(r.value, h, args);
  }

  method CheckedSend(c: Counter, h: Helpers, args: seq<Value>) returns (r: Built<Fragment>)
    requires |args| > 4
    ensures SendLayout(r.value, h, args) && r.value.shape.SendShape? && FragmentWellFormed(r.value)
    ensures c + 14 < IdModulus ==> c < r.counter <= c + 14 && FreshIds(r.value.plugin.net, c, r.counter)
  {
    r := SendFragment(c, h, args);
    SendLayoutWellFormed(r.value, h, args);
  }

  method CheckedIrecv(c: Counter, h: Helpers, args: seq<Value>) returns (r: Built<Fragment>)
    requires |args| > 6
    ensures RecvLayout(r.value, h, args) && IrecvRegistration(r.value, h, args)
    ensures r.value.shape.IrecvShape? && FragmentWellFormed(r.value)
    ensures c + 14 < IdModulus ==> c < r.counter <= c + 14 && FreshIds(r.value.plugin.net, c, r.counter)
  {
    r := IrecvFragment(c, h, args);
    RecvLayoutWellFormed(r.value, h, args);
  }

  method CheckedRecv(c: Counter, h: Helpers, args: seq<Value>) returns (r: Built<Fragment>)
    requires |args| > 4
    ensures RecvBlockingLayout(r.value, h, args) && r.value.shape.RecvShape? && FragmentWellFormed(r.value)
    ensures c + 14 < IdModulus ==> c < r.counter <= c + 14 && FreshIds(r.value.plugin.net, c, r.counter)
  {
    r := RecvFragment(c, h, args);
    RecvBlockingLayoutWellFormed(r.value, h, args);
  }

  method CheckedWait(c: Counter, h: Helpers, request: Value) returns (r: Built<Fragment>)
    ensures WaitLayout(r.value, h, Some(request))
    ensures r.value.shape.WaitShape? && r.value.shape.registered && FragmentWellFormed(r.value)
    ensures c + 14 < IdModulus ==> c < r.counter <= c + 14 && FreshIds(r.value.plugin.net, c, r.counter)
  {
    r := WaitFragment(c, h, Some(request));
    WaitLayoutWellFormed(r.value, h, Some(request));
  }

  method CheckedWaitall(c: Counter, h: Helpers, args: seq<Value>) returns (r: Built<Fragment>)
    requires |args| > 1
    ensures WaitallLayout(r.value, h, args) && r.value.shape.WaitallShape? && FragmentWellFormed(r.value)
    ensures c + 14 < IdModulus ==> c < r.counter <= c + 14 && FreshIds(r.value.plugin.net, c, r.counter)
  {
    r := WaitallFragment(c, h, args);
    WaitallLayoutWellFormed(r.value, h, args);
  }

  method CheckedEmpty(c: Counter, callName: string) returns (r: Built<Fragment>)
    ensures EmptyLayout(r.value, callName) && FragmentWellFormed(r.value)
    ensures c + 14 < IdModulus ==> c < r.counter <= c + 14 && FreshIds(r.value.plugin.net, c, r.counter)
  {
    r := EmptyFragment(c, callName);
    EmptyLayoutWellFormed(r.value, callName);
  }
}

=== FILE: ids.dfy ===
/**
 * Element identities.  Every place, transition and net draws its id from one
 * process-wide `unsigned int` counter that is pre-incremented on each draw and
 * rendered in decimal.  The counter is threaded explicitly here, and its 32-bit
 * wrap-around is written out.
 */
module Ids {

  /** 2^32: the counter is an `unsigned int`. */
  const IdModulus: nat := 0x1_0000_0000

  /** A value of the 32-bit unsigned counter. */
  type Counter = c: nat | c < IdModulus

  /**
   * One draw of the id generator: the counter is incremented (wrapping to 0
   * after 2^32 - 1) and its new value is the id handed out.
   */
  function NextId(c: Counter): (r: Counter)
    ensures c + 1 < IdModulus ==> r == c + 1
    ensures c + 1 == IdModulus ==> r == 0
    ensures r != c
  {
    if c + 1 == IdModulus then 0 else c + 1
  }

  /** The ids handed out by `k` successive draws starting from counter `c`. */
  function Draws(c: Counter, k: nat): (ids: seq<Counter>)
    ensures |ids| == k
    decreases k
  {
    if k == 0 then [] else [NextId(c)] + Draws(NextId(c), k - 1)
  }

  /** The counter after `k` successive draws starting from `c`. */
  function Advance(c: Counter, k: nat): Counter
    decreases k
  {
    if k == 0 then c else Advance(NextId(c), k - 1)
  }

  /**
   * As long as the counter does not wrap, successive draws hand out
   * c + 1, c + 2, ..., c + k: strictly increasing, hence pairwise distinct ids.
   */
  lemma {:induction false} DrawsIncrease(c: Counter, k: nat)
    requires c + k < IdModulus
    ensures forall i :: 0 <= i < k ==> Draws(c, k)[i] == c + i + 1
    ensures Advance(c, k) == c + k
    decreases k
  {
    if k > 0 {
      DrawsIncrease(NextId(c), k - 1);
    }
  }

  /** Corollary: no two of `k` non-wrapping draws give the same id. */
  lemma DrawsDistinct(c: Counter, k: nat)
    requires c + k < IdModulus
    ensures forall i, j :: 0 <= i < j < k ==> Draws(c, k)[i] < Draws(c, k)[j]
  {
    DrawsIncrease(c, k);
  }

  /** Once the counter reaches 2^32 - 1 the next draw repeats the id 0. */
  lemma DrawAfterMaximumWraps()
    ensures NextId(IdModulus - 1) == 0
    ensures Draws(IdModulus - 2, 2) == [IdModulus - 1, 0]
  {
  }

  // ---------------------------------------------------------------------------
  // Decimal rendering (`std::to_string` of an unsigned value)

  predicate IsDigit(ch: char) {
    '0' <= ch <= '9'
  }

  predicate AllDigits(s: string) {
    forall i :: 0 <= i < |s| ==> IsDigit(s[i])
  }

  function DigitChar(d: nat): (ch: char)
    requires d < 10
    ensures IsDigit(ch)
  {
    (48 + d) as char
  }

  function DigitValue(ch: char): nat {
    if IsDigit(ch) then ch as int - 48 else 0
  }

  /** The decimal text of `n`, without leading zeros. */
  function Decimal(n: nat): (s: string)
    ensures |s| > 0 && AllDigits(s)
    ensures |s| > 1 ==> s[0] != '0'
    decreases n
  {
    if n < 10 then [DigitChar(n)] else Decimal(n / 10) + [DigitChar(n % 10)]
  }

  /** Reads a digit string back as a number. */
  function ParseDecimal(s: string): nat
    decreases |s|
  {
    if |s| == 0 then 0 else 10 * ParseDecimal(s[..|s| - 1]) + DigitValue(s[|s| - 1])
  }

  /** Reading back the decimal text of a number gives the number. */
  lemma {:induction false} ParseDecimalInverts(n: nat)
    ensures ParseDecimal(Decimal(n)) == n
    decreases n
  {
    if n >= 10 {
      var s := Decimal(n);
      assert s[..|s| - 1] == Decimal(n / 10);
      ParseDecimalInverts(n / 10);
    }
  }

  /** Distinct ids render as distinct texts. */
  lemma DecimalInjective(a: nat, b: nat)
    ensures Decimal(a) == Decimal(b) ==> a == b
  {
    ParseDecimalInverts(a);
    ParseDecimalInverts(b);
  }
}

=== FILE: labelling.dfy ===
/**
 * The MPI labelling analysis (`LabellingResult`): a memoised depth-first
 * walk over the call graph that labels each function by how it involves
 * MPI and records every call site of an MPI function.  A function body is
 * its sequence of basic blocks; a block is the sequence of its call
 * instructions.
 */
module Labelling {
  import opened Wrappers

  /** `ExplorationState`. */
  datatype Label = MpiCall | Sequential | Processing | MpiInvolved | MpiInvolvedMediately

  /**
   * The order the analysis compares labels by.  Its declaration is not part
   * of this model, so it is a parameter: any injective ranking in which
   * `Sequential` is the least label.  Where `Processing` sits relative to
   * `MpiCall` is left open.
   */
  predicate ValidOrder(rank: Label -> nat) {
    && (forall l, m | l != m :: rank(l) != rank(m))
    && (forall l | l != Sequential :: rank(Sequential) < rank(l))
  }

  /** A call instruction: its identity and, for a direct call, the called function's name. */
  datatype CallInst = CallInst(site: nat, callee: Option<string>)

  type Block = seq<CallInst>

  /**
   * The module: the bodies of the defined functions by name.  A name with no
   * entry is a declaration (such as the MPI routines): a function without
   * basic blocks.
   */
  type Program = map<string, seq<Block>>

  /**
   * The analysis state: `fn_labels`, `mpi_calls` (call sites by MPI
   * function name), and the per-function `direct_mpi_calls` and
   * `mediate_mpi_calls`.
   */
  datatype State = State(
    labels: map<string, Label>,
    mpiCalls: map<string, seq<nat>>,
    direct: map<string, seq<nat>>,
    mediate: map<string, seq<nat>>)

  const Initial := State(map[], map[], map[], map[])

  /** `m[k].push_back(x)` on a map whose `operator[]` creates an empty list. */
  function Push(m: map<string, seq<nat>>, k: string, x: nat): (r: map<string, seq<nat>>)
    ensures r.Keys == m.Keys + {k}
    ensures r[k] == (if k in m then m[k] else []) + [x]
    ensures forall j | j in m && j != k :: r[j] == m[j]
  {
    m[k := (if k in m then m[k] else []) + [x]]
  }

  /** `m[k]` on a map whose `operator[]` inserts an empty list for a missing key. */
  function Touch(m: map<string, seq<nat>>, k: string): (r: map<string, seq<nat>>)
    ensures r.Keys == m.Keys + {k}
    ensures r[k] == (if k in m then m[k] else [])
    ensures forall j | j in m :: r[j] == m[j]
  {
    if k in m then m else m[k := []]
  }

  /** `f->getName().startswith("MPI_")` (an unnamed function has the empty name). */
  predicate IsMpiName(f: string) {
    |f| >= 4 && f[..4] == "MPI_"
  }

  /** The labels `explore_bb` can return. */
  predicate BlockLabel(l: Label) {
    l == Sequential || l == MpiInvolved || l == MpiInvolvedMediately
  }

  /** The result of exploring one function. */
  datatype Explored = Explored(outcome: Label, state: State)

  /** The result of exploring a run of blocks: the label of each block, and the state after them. */
  datatype BlockRun = BlockRun(labels: seq<Label>, state: State)

  /**
   * The state only grows: labels are never removed, and every recorded list
   * of call sites keeps what it had as a prefix.
   */
  predicate Grows(s: State, t: State) {
    && s.labels.Keys <= t.labels.Keys
    && Extends(s.mpiCalls, t.mpiCalls) && Extends(s.direct, t.direct) && Extends(s.mediate, t.mediate)
  }

  /** Every list of `m` is still in `m'`, possibly longer. */
  predicate Extends(m: map<string, seq<nat>>, m': map<string, seq<nat>>) {
    forall k | k in m :: k in m' && m[k] <= m'[k]
  }

  lemma PushExtends(m: map<string, seq<nat>>, k: string, x: nat)
    ensures Extends(m, Push(m, k, x))
  {
  }

  lemma TouchExtends(m: map<string, seq<nat>>, k: string)
    ensures Extends(m, Touch(m, k))
  {
  }

  /** `mpi_calls` only ever gains an entry by a push, so no entry is empty. */
  predicate Recorded(s: State) {
    forall k | k in s.mpiCalls :: |s.mpiCalls[k]| > 0
  }

  lemma GrowsTransitive(s: State, t: State, u: State)
    requires Grows(s, t) && Grows(t, u)
    ensures Grows(s, u)
  {
  }

  /** The functions of the program still waiting for a label. */
  function Unlabelled(prog: Program, s: State): set<string> {
    prog.Keys - s.labels.Keys
  }

  /** `if (res_es < es) res_es = es` over a sequence of labels. */
  function FoldMax(rank: Label -> nat, acc: Label, ls: seq<Label>): Label
    decreases |ls|
  {
    if |ls| == 0 then acc else FoldMax(rank, if rank(acc) < rank(ls[0]) then ls[0] else acc, ls[1..])
  }

  /**
   * `explore_function`.  A labelled function returns its stored label.  An
   * unlabelled function named "MPI_..." is labelled `MpiCall` without
   * looking inside.  Any other function is first marked `Processing` (so a
   * recursive call returns at once), its blocks are explored in order, and
   * its label becomes the largest of `Sequential` and its block labels.
   */
  function ExploreFunction(prog: Program, rank: Label -> nat, f: string, s: State): (r: Explored)
    ensures f in r.state.labels && Grows(s, r.state)
    ensures Recorded(s) ==> Recorded(r.state)
    ensures f in s.labels ==> r == Explored(s.labels[f], s)
    ensures f !in s.labels && IsMpiName(f) ==> r == Explored(MpiCall, s.(labels := s.labels[f := MpiCall]))
    ensures f !in s.labels ==> r.state.labels[f] == r.outcome
    ensures r.outcome == Processing ==> f in s.labels && s.labels[f] == Processing
    ensures f !in s.labels && !IsMpiName(f) && f in prog && |prog[f]| > 0 ==> f in r.state.direct && f in r.state.mediate
    decreases Unlabelled(prog, s), 0, 0
  {
    if f in s.labels then Explored(s.labels[f], s)
    else if IsMpiName(f) then Explored(MpiCall, s.(labels := s.labels[f := MpiCall]))
    else if f !in prog then
      // a declaration: the loop over its (no) blocks leaves `Sequential`
      Explored(Sequential, s.(labels := s.labels[f := Sequential]))
    else
      var marked := s.(labels := s.labels[f := Processing]);
      assert f in Unlabelled(prog, s) && f !in Unlabelled(prog, marked);
      var run := ExploreBlocks(prog, rank, f, prog[f], marked);
      var final := FoldMax(rank, Sequential, run.labels);
      FoldMaxIsOneOf(rank, Sequential, run.labels);
      Explored(final, run.state.(labels := run.state.labels[f := final]))
  }

  /** The loop of `explore_function` over the blocks of `f`. */
  function ExploreBlocks(prog: Program, rank: Label -> nat, f: string, blocks: seq<Block>, s: State): (r: BlockRun)
    ensures |r.labels| == |blocks| && Grows(s, r.state)
    ensures Recorded(s) ==> Recorded(r.state)
    ensures forall i | 0 <= i < |r.labels| :: BlockLabel(r.labels[i])
    ensures |blocks| > 0 ==> f in r.state.direct && f in r.state.mediate
    decreases Unlabelled(prog, s), 2, |blocks|
  {
    if |blocks| == 0 then BlockRun([], s)
    else
      var first := BlockStep(prog, rank, f, blocks[0], s);
      var rest := ExploreBlocks(prog, rank, f, blocks[1..], first.state);
      GrowsTransitive(s, first.state, rest.state);
      ConsBlockLabels(first.outcome, rest.labels);
      BlockRun([first.outcome] + rest.labels, rest.state)
  }

  lemma ConsBlockLabels(l: Label, ls: seq<Label>)
    requires BlockLabel(l) && forall i | 0 <= i < |ls| :: BlockLabel(ls[i])
    ensures forall i | 0 <= i < |[l] + ls| :: BlockLabel(([l] + ls)[i])
  {
  }

  /**
   * One iteration of the loop of `explore_function`: `direct_mpi_calls[f]`
   * and `mediate_mpi_calls[f]` are looked up (creating empty entries), then
   * the block is explored from `Sequential`.
   */
  function BlockStep(prog: Program, rank: Label -> nat, f: string, block: Block, s: State): (r: Explored)
    ensures Grows(s, r.state) && BlockLabel(r.outcome)
    ensures Recorded(s) ==> Recorded(r.state)
    ensures f in r.state.direct && f in r.state.mediate
    decreases Unlabelled(prog, s), 1, |block| + 1
  {
    var touched := s.(direct := Touch(s.direct, f), mediate := Touch(s.mediate, f));
    TouchExtends(s.direct, f);
    TouchExtends(s.mediate, f);
    var r := ExploreBlock(prog, rank, f, block, Sequential, touched);
    GrowsTransitive(s, touched, r.state);
    r
  }

  /**
   * `explore_bb`: each direct call explores its callee.  A call to an
   * `MpiCall` function sets the block label to `MpiInvolved` and is recorded
   * under the callee's name and in `f`'s direct calls; a call to a function
   * labelled above `MpiCall` sets `MpiInvolvedMediately` and is recorded in
   * `f`'s mediate calls.  Each setting replaces the previous one.  An
   * indirect call changes nothing.
   */
  function ExploreBlock(prog: Program, rank: Label -> nat, f: string, calls: Block, acc: Label, s: State): (r: Explored)
    requires BlockLabel(acc)
    ensures Grows(s, r.state)
    ensures Recorded(s) ==> Recorded(r.state)
    ensures BlockLabel(r.outcome)
    decreases Unlabelled(prog, s), 1, |calls|
  {
    if |calls| == 0 then Explored(acc, s)
    else
      var step := CallStep(prog, rank, f, calls[0], acc, s);
      var rest := ExploreBlock(prog, rank, f, calls[1..], step.outcome, step.state);
      GrowsTransitive(s, step.state, rest.state);
      rest
  }

  /** One iteration of the loop of `explore_bb`. */
  function CallStep(prog: Program, rank: Label -> nat, f: string, c: CallInst, acc: Label, s: State): (r: Explored)
    requires BlockLabel(acc)
    ensures Grows(s, r.state)
    ensures Recorded(s) ==> Recorded(r.state)
    ensures BlockLabel(r.outcome)
    decreases Unlabelled(prog, s), 1, 0
  {
    match c.callee
    case None => Explored(acc, s)
    case Some(g) =>
      var e := ExploreFunction(prog, rank, g, s);
      var t := e.state;
      if e.outcome == MpiCall then
        PushExtends(t.mpiCalls, g, c.site);
        PushExtends(t.direct, f, c.site);
        var u := t.(mpiCalls := Push(t.mpiCalls, g, c.site), direct := Push(t.direct, f, c.site));
        GrowsTransitive(s, t, u);
        Explored(MpiInvolved, u)
      else if rank(e.outcome) > rank(MpiCall) then
        PushExtends(t.mediate, f, c.site);
        var u := t.(mediate := Push(t.mediate, f, c.site));
        GrowsTransitive(s, t, u);
        Explored(MpiInvolvedMediately, u)
      else Explored(acc, t)
  }

  /**
   * The direct and mediate call lists of `k` are in `t` exactly as in `s`:
   * the same presence and, when present, the same contents.
   */
  predicate ListsKept(s: State, t: State, k: string) {
    && (k in t.direct <==> k in s.direct) && (k in s.direct ==> t.direct[k] == s.direct[k])
    && (k in t.mediate <==> k in s.mediate) && (k in s.mediate ==> t.mediate[k] == s.mediate[k])
  }

  /** Every function labelled in `s`, except those in `skip`, keeps its call lists in `t`. */
  predicate KeptExcept(s: State, t: State, skip: set<string>) {
    forall k | k in s.labels && k !in skip :: ListsKept(s, t, k)
  }

  /** A step that changes no labels and no call lists but `f`'s keeps every other function's lists. */
  lemma OwnListsOnly(t: State, u: State, f: string)
    requires u.labels == t.labels
    requires u.direct == t.direct || exists x :: u.direct == Push(t.direct, f, x)
    requires u.mediate == t.mediate || exists x :: u.mediate == Push(t.mediate, f, x)
    ensures KeptExcept(t, u, {f})
  {
  }

  lemma TouchKeeps(s: State, f: string)
    ensures KeptExcept(s, s.(direct := Touch(s.direct, f), mediate := Touch(s.mediate, f)), {f})
  {
  }

  /**
   * What the walk of a function `f` that was unlabelled in `s` keeps, from
   * the state where `f` is marked `PROCESSING`, is kept from `s` for every
   * function.
   */
  lemma MarkedKeeps(s: State, f: string, t: State, l: Label)
    requires f !in s.labels
    requires KeptExcept(s.(labels := s.labels[f := Processing]), t, {f})
    ensures KeptExcept(s, t.(labels := t.labels[f := l]), {})
  {
    forall k | k in s.labels
      ensures ListsKept(s, t.(labels := t.labels[f := l]), k)
    {
      assert k in s.labels[f := Processing] && k != f;
    }
  }

  lemma KeptExceptTransitive(s: State, t: State, u: State, skip: set<string>)
    requires s.labels.Keys <= t.labels.Keys && KeptExcept(s, t, skip) && KeptExcept(t, u, skip)
    ensures KeptExcept(s, u, skip)
  {
  }

  /**
   * Exploring a function never touches the call lists of a function that
   * was already labelled when the exploration started: `explore_function`
   * only pushes to the lists of the function whose blocks it is walking,
   * and that function is unlabelled until it is marked `PROCESSING`.
   */
  lemma {:induction false} ExploreFunctionKeeps(prog: Program, rank: Label -> nat, f: string, s: State)
    ensures KeptExcept(s, ExploreFunction(prog, rank, f, s).state, {})
    decreases Unlabelled(prog, s), 0, 0
  {
    if f !in s.labels && !IsMpiName(f) && f in prog {
      var marked := s.(labels := s.labels[f := Processing]);
      assert f in Unlabelled(prog, s) && f !in Unlabelled(prog, marked);
      ExploreBlocksKeep(prog, rank, f, prog[f], marked);
      var run := ExploreBlocks(prog, rank, f, prog[f], marked);
      var final := FoldMax(rank, Sequential, run.labels);
      assert ExploreFunction(prog, rank, f, s).state == run.state.(labels := run.state.labels[f := final]);
      MarkedKeeps(s, f, run.state, final);
    }
  }

  /** The loop over the blocks of `f` touches no labelled function's lists but `f`'s. */
  lemma {:induction false} ExploreBlocksKeep(prog: Program, rank: Label -> nat, f: string, blocks: seq<Block>, s: State)
    ensures KeptExcept(s, ExploreBlocks(prog, rank, f, blocks, s).state, {f})
    decreases Unlabelled(prog, s), 2, |blocks|
  {
    if |blocks| > 0 {
      var first := BlockStep(prog, rank, f, blocks[0], s);
      BlockStepKeeps(prog, rank, f, blocks[0], s);
      ExploreBlocksKeep(prog, rank, f, blocks[1..], first.state);
      KeptExceptTransitive(s, first.state, ExploreBlocks(prog, rank, f, blocks[1..], first.state).state, {f});
    }
  }

  lemma {:induction false} BlockStepKeeps(prog: Program, rank: Label -> nat, f: string, block: Block, s: State)
    ensures KeptExcept(s, BlockStep(prog, rank, f, block, s).state, {f})
    decreases Unlabelled(prog, s), 1, |block| + 1
  {
    var touched := s.(direct := Touch(s.direct, f), mediate := Touch(s.mediate, f));
    var r := ExploreBlock(prog, rank, f, block, Sequential, touched);
    ExploreBlockKeeps(prog, rank, f, block, Sequential, touched);
    TouchKeeps(s, f);
    KeptExceptTransitive(s, touched, r.state, {f});
  }

  lemma {:induction false} ExploreBlockKeeps(prog: Program, rank: Label -> nat, f: string, calls: Block, acc: Label, s: State)
    requires BlockLabel(acc)
    ensures KeptExcept(s, ExploreBlock(prog, rank, f, calls, acc, s).state, {f})
    decreases Unlabelled(prog, s), 1, |calls|
  {
    if |calls| > 0 {
      var step := CallStep(prog, rank, f, calls[0], acc, s);
      CallStepKeeps(prog, rank, f, calls[0], acc, s);
      ExploreBlockKeeps(prog, rank, f, calls[1..], step.outcome, step.state);
      KeptExceptTransitive(s, step.state, ExploreBlock(prog, rank, f, calls[1..], step.outcome, step.state).state, {f});
    }
  }

  lemma {:induction false} CallStepKeeps(prog: Program, rank: Label -> nat, f: string, c: CallInst, acc: Label, s: State)
    requires BlockLabel(acc)
    ensures KeptExcept(s, CallStep(prog, rank, f, c, acc, s).state, {f})
    decreases Unlabelled(prog, s), 1, 0
  {
    if c.callee.Some? {
      var g := c.callee.value;
      var e := ExploreFunction(prog, rank, g, s);
      var t := e.state;
      ExploreFunctionKeeps(prog, rank, g, s);
      var u := CallStep(prog, rank, f, c, acc, s).state;
      if e.outcome == MpiCall {
        assert u == t.(mpiCalls := Push(t.mpiCalls, g, c.site), direct := Push(t.direct, f, c.site));
      } else if rank(e.outcome) > rank(MpiCall) {
        assert u == t.(mediate := Push(t.mediate, f, c.site));
      } else {
        assert u == t;
      }
      OwnListsOnly(t, u, f);
      KeptExceptTransitive(s, t, u, {f});
    }
  }

  /** The folded label is the starting label or one of the folded ones. */
  lemma {:induction false} FoldMaxIsOneOf(rank: Label -> nat, acc: Label, ls: seq<Label>)
    ensures FoldMax(rank, acc, ls) == acc || FoldMax(rank, acc, ls) in ls
    decreases |ls|
  {
    if |ls| > 0 {
      var next := if rank(acc) < rank(ls[0]) then ls[0] else acc;
      FoldMaxIsOneOf(rank, next, ls[1..]);
      assert forall l | l in ls[1..] :: l in ls;
    }
  }

  /** The folded label ranks at least as high as the start and every folded label. */
  lemma {:induction false} FoldMaxIsMax(rank: Label -> nat, acc: Label, ls: seq<Label>)
    ensures rank(FoldMax(rank, acc, ls)) >= rank(acc)
    ensures forall i | 0 <= i < |ls| :: rank(FoldMax(rank, acc, ls)) >= rank(ls[i])
    decreases |ls|
  {
    if |ls| > 0 {
      var next := if rank(acc) < rank(ls[0]) then ls[0] else acc;
      FoldMaxIsMax(rank, next, ls[1..]);
      forall i | 1 <= i < |ls| ensures rank(FoldMax(rank, acc, ls)) >= rank(ls[i]) {
        assert ls[i] == ls[1..][i - 1];
      }
    }
  }

  /**
   * A function's label is the largest of `Sequential` and its block labels:
   * it ranks at least as high as each, and is one of them.
   */
  lemma FunctionLabelIsMax(prog: Program, rank: Label -> nat, f: string, s: State)
    requires f !in s.labels && !IsMpiName(f) && f in prog
    ensures var marked := s.(labels := s.labels[f := Processing]);
      var run := ExploreBlocks(prog, rank, f, prog[f], marked);
      var r := ExploreFunction(prog, rank, f, s);
      && rank(r.outcome) >= rank(Sequential)
      && (forall i | 0 <= i < |run.labels| :: rank(r.outcome) >= rank(run.labels[i]))
      && (r.outcome == Sequential || r.outcome in run.labels)
  {
    var marked := s.(labels := s.labels[f := Processing]);
    var run := ExploreBlocks(prog, rank, f, prog[f], marked);
    FoldMaxIsMax(rank, Sequential, run.labels);
    FoldMaxIsOneOf(rank, Sequential, run.labels);
  }

  /** A labelled function is not explored again: its stored label comes back and nothing changes. */
  lemma Memoised(prog: Program, rank: Label -> nat, f: string, s: State)
    requires f in s.labels
    ensures ExploreFunction(prog, rank, f, s) == Explored(s.labels[f], s)
  {
  }

  /**
   * A function whose only calls are to itself: the recursive call returns
   * `Processing`, which counts as mediate MPI involvement exactly when the
   * order puts `Processing` above `MpiCall`; otherwise the function ends
   * `Sequential`.
   */
  lemma SelfRecursion(rank: Label -> nat, f: string, site: nat)
    requires ValidOrder(rank) && !IsMpiName(f)
    ensures var prog := map[f := [[CallInst(site, Some(f))]]];
      var r := ExploreFunction(prog, rank, f, Initial);
      && (rank(Processing) > rank(MpiCall) ==> r.outcome == MpiInvolvedMediately && r.state.mediate == map[f := [site]])
      && (rank(Processing) <= rank(MpiCall) ==> r.outcome == Sequential && r.state.mediate == map[f := []])
      && r.state.labels == map[f := r.outcome] && r.state.mpiCalls == map[] && r.state.direct == map[f := []]
  {
    var c := CallInst(site, Some(f));
    var prog := map[f := [[c]]];
    var marked := Initial.(labels := map[f := Processing]);
    var step := BlockStep(prog, rank, f, [c], marked);
    SelfRecursionBlock(rank, f, site);
    assert [[c]][1..] == [];
    var run := ExploreBlocks(prog, rank, f, [[c]], marked);
    assert ExploreBlocks(prog, rank, f, [], step.state) == BlockRun([], step.state);
    assert run == BlockRun([step.outcome] + [], step.state);
    assert [step.outcome] + [] == [step.outcome];
    assert FoldMax(rank, Sequential, [step.outcome]) == step.outcome;
    assert step.state.labels[f := step.outcome] == map[f := step.outcome];
  }

  /** The one block of the self-recursive function, explored while the function is marked `Processing`. */
  lemma SelfRecursionBlock(rank: Label -> nat, f: string, site: nat)
    ensures var c := CallInst(site, Some(f));
      var prog := map[f := [[c]]];
      var marked := Initial.(labels := map[f := Processing]);
      var touched := marked.(direct := map[f := []], mediate := map[f := []]);
      BlockStep(prog, rank, f, [c], marked) ==
        if rank(Processing) > rank(MpiCall) then Explored(MpiInvolvedMediately, touched.(mediate := map[f := [site]]))
        else Explored(Sequential, touched)
  {
    var c := CallInst(site, Some(f));
    var prog := map[f := [[c]]];
    var marked := Initial.(labels := map[f := Processing]);
    var touched := marked.(direct := map[f := []], mediate := map[f := []]);
    assert touched == marked.(direct := Touch(marked.direct, f), mediate := Touch(marked.mediate, f));
    assert ExploreFunction(prog, rank, f, touched) == Explored(Processing, touched);
    var step := CallStep(prog, rank, f, c, Sequential, touched);
    if rank(Processing) > rank(MpiCall) {
      var pushed := Push(touched.mediate, f, site);
      assert pushed.Keys == {f} && pushed[f] == [site];
      assert pushed == map[f := [site]];
      assert step == Explored(MpiInvolvedMediately, touched.(mediate := map[f := [site]]));
    } else {
      assert step == Explored(Sequential, touched);
    }
    assert [c][1..] == [];
    assert ExploreBlock(prog, rank, f, [c], Sequential, touched) == ExploreBlock(prog, rank, f, [], step.outcome, step.state);
  }

  /**
   * A call to an MPI routine, the first one (which labels it `MpiCall`) or
   * any later one (which finds it labelled so), is recorded under the
   * routine's name and in the caller's direct calls, and makes the block
   * `MpiInvolved`.  Nothing else changes.
   */
  lemma MpiCallRecorded(prog: Program, rank: Label -> nat, f: string, site: nat, g: string, acc: Label, s: State)
    requires BlockLabel(acc)
    requires g in s.labels ==> s.labels[g] == MpiCall
    requires g !in s.labels ==> IsMpiName(g)
    ensures var r := CallStep(prog, rank, f, CallInst(site, Some(g)), acc, s);
      && r.outcome == MpiInvolved
      && r.state.mpiCalls == s.mpiCalls[g := (if g in s.mpiCalls then s.mpiCalls[g] else []) + [site]]
      && r.state.direct == s.direct[f := (if f in s.direct then s.direct[f] else []) + [site]]
      && r.state.mediate == s.mediate
      && r.state.labels == (if g in s.labels then s.labels else s.labels[g := MpiCall])
  {
    var e := ExploreFunction(prog, rank, g, s);
    assert e.outcome == MpiCall;
    assert e.state == s.(labels := e.state.labels);
  }

  /**
   * A call to a function whose label (stored, or found by exploring it on
   * this first call) ranks above `MpiCall` makes the block
   * `MpiInvolvedMediately`, leaves the callee labelled so, and ends the
   * caller's mediate calls with the site.  When the caller is the function
   * being walked (labelled `PROCESSING`) or the callee was already
   * labelled, the caller's lists are exactly the old ones with the site
   * appended to the mediate calls; an already labelled callee changes
   * nothing else at all.
   */
  lemma MediateCallRecorded(prog: Program, rank: Label -> nat, f: string, site: nat, g: string, acc: Label, s: State)
    requires BlockLabel(acc)
    requires var l := ExploreFunction(prog, rank, g, s).outcome; l != MpiCall && rank(l) > rank(MpiCall)
    ensures var r := CallStep(prog, rank, f, CallInst(site, Some(g)), acc, s);
      && r.outcome == MpiInvolvedMediately
      && g in r.state.labels && r.state.labels[g] != MpiCall && rank(r.state.labels[g]) > rank(MpiCall)
      && f in r.state.mediate && |r.state.mediate[f]| > 0 && r.state.mediate[f][|r.state.mediate[f]| - 1] == site
    ensures var r := CallStep(prog, rank, f, CallInst(site, Some(g)), acc, s);
      f in s.labels || g in s.labels ==>
        && r.state.mediate[f] == (if f in s.mediate then s.mediate[f] else []) + [site]
        && (f in r.state.direct <==> f in s.direct) && (f in s.direct ==> r.state.direct[f] == s.direct[f])
    ensures var r := CallStep(prog, rank, f, CallInst(site, Some(g)), acc, s);
      g in s.labels ==> r.state.mpiCalls == s.mpiCalls && r.state.direct == s.direct && r.state.labels == s.labels
  {
    var e := ExploreFunction(prog, rank, g, s);
    if f in s.labels {
      ExploreFunctionKeeps(prog, rank, g, s);
      assert ListsKept(s, e.state, f);
    }
  }

  /**
   * A call to a function whose label (stored, or found by exploring it on
   * this first call) is neither `MpiCall` nor above it leaves the block
   * label as it was and the state as exploring the callee left it; an
   * already labelled callee changes nothing at all.
   */
  lemma QuietCallKeepsLabel(prog: Program, rank: Label -> nat, f: string, site: nat, g: string, acc: Label, s: State)
    requires BlockLabel(acc)
    requires var l := ExploreFunction(prog, rank, g, s).outcome; l != MpiCall && rank(l) <= rank(MpiCall)
    ensures var r, e := CallStep(prog, rank, f, CallInst(site, Some(g)), acc, s), ExploreFunction(prog, rank, g, s);
      && r.outcome == acc && r.state == e.state
      && g in r.state.labels && r.state.labels[g] != MpiCall && rank(r.state.labels[g]) <= rank(MpiCall)
    ensures g in s.labels ==> CallStep(prog, rank, f, CallInst(site, Some(g)), acc, s) == Explored(acc, s)
  {
  }

  /** An indirect call (no called function) changes neither the label nor the state. */
  lemma IndirectCallIgnored(prog: Program, rank: Label -> nat, f: string, site: nat, acc: Label, s: State)
    requires BlockLabel(acc)
    ensures CallStep(prog, rank, f, CallInst(site, None), acc, s) == Explored(acc, s)
  {
  }

  /** `MPILabellingAnalysis::run`: explores `f` from an empty result. */
  function Run(prog: Program, rank: Label -> nat, f: string): (r: Explored)
    ensures f in r.state.labels && r.state.labels[f] == r.outcome
    ensures r.outcome != Processing
    ensures Recorded(r.state)
  {
    ExploreFunction(prog, rank, f, Initial)
  }

  /** `get_call`: no call site when none was recorded under `name`, else the first one recorded. */
  function GetCall(s: State, name: string): (r: Option<nat>)
    requires Recorded(s)
    ensures r.None? <==> name !in s.mpiCalls
    ensures r.Some? ==> r.value == s.mpiCalls[name][0] && r.value in s.mpiCalls[name]
  {
    if name !in s.mpiCalls then None else Some(s.mpiCalls[name][0])
  }

  /** Exploring more of the program never changes the call site `get_call` returns once there is one. */
  lemma GetCallStable(prog: Program, rank: Label -> nat, f: string, s: State, name: string)
    requires Recorded(s) && GetCall(s, name).Some?
    ensures GetCall(ExploreFunction(prog, rank, f, s).state, name) == GetCall(s, name)
  {
    var t := ExploreFunction(prog, rank, f, s).state;
    assert s.mpiCalls[name] <= t.mpiCalls[name];
  }
}

=== FILE: pluginnets.dfy ===
/**
 * Composable nets (`PluginCommNet`): a Communication Net with a distinguished
 * entry and exit place that can absorb another plugin net and splice it in,
 * and the per-process addressable net (`AddressableCommNet`) with its four
 * shared mailbox places.
 */
module PluginNets {
  import opened Ids
  import opened CommNet

  /** A plugin net: the net plus the ids of its current entry and exit places. */
  datatype Plugin = Plugin(net: Net, entry: Id, exit: Id)

  /** A built value together with the id counter after building it. */
  datatype Built<T> = Built(value: T, counter: Counter)

  /** The type, initial marking and name of a place still to be added. */
  datatype PlaceSpec = PlaceSpec(typ: string, init: string, name: string)

  /**
   * `add_place` once per spec, in order.  When the counter does not wrap and
   * `n` holds places drawn consecutively after `lo`, the new places continue
   * that run.
   */
  method AddPlaces(n: Net, c: Counter, specs: seq<PlaceSpec>, lo: int) returns (r: Built<Net>)
    requires lo + |n.places| + |specs| < IdModulus ==> c == lo + |n.places| && n.transitions == [] && DrawnInOrder(n, lo)
    ensures |r.value.places| == |n.places| + |specs| && r.value.places[..|n.places|] == n.places
    ensures forall i | |n.places| <= i < |r.value.places| ::
      var spec := specs[i - |n.places|]; r.value.places[i] == Place(r.value.places[i].id, spec.name, spec.typ, spec.init)
    ensures r.value.id == n.id && r.value.transitions == n.transitions
    ensures r.value.inputs == n.inputs && r.value.outputs == n.outputs && r.value.controlFlow == n.controlFlow
    ensures lo + |n.places| + |specs| < IdModulus ==> r.counter == c + |specs| && DrawnInOrder(r.value, lo)
  {
    var net, k, i := n, c, 0;
    while i < |specs|
      invariant 0 <= i <= |specs|
      invariant |net.places| == |n.places| + i && net.places[..|n.places|] == n.places
      invariant forall j | |n.places| <= j < |net.places| ::
        var spec := specs[j - |n.places|]; net.places[j] == Place(net.places[j].id, spec.name, spec.typ, spec.init)
      invariant net.id == n.id && net.transitions == n.transitions
      invariant net.inputs == n.inputs && net.outputs == n.outputs && net.controlFlow == n.controlFlow
      invariant lo + |n.places| + |specs| < IdModulus ==> k == c + i && DrawnInOrder(net, lo)
    {
      var added := AddPlace(net, k, specs[i].typ, specs[i].init, specs[i].name);
      if lo + |n.places| + |specs| < IdModulus {
        AddPlaceInOrder(net, k, specs[i].typ, specs[i].init, specs[i].name, lo);
      }
      assert added.net.places[..|net.places|] == net.places;
      net, k, i := added.net, added.counter, i + 1;
    }
    r := Built(net, k);
  }

  /** Entry and exit are places of the net, and every edge stays inside the net. */
  predicate WellFormed(p: Plugin) {
    Closed(p.net) && p.entry in PlaceIds(p.net) && p.exit in PlaceIds(p.net)
  }

  /**
   * The `PluginCommNet` constructor: the net draws its id, then two `Unit`
   * places named "entry<id>" and "exit<id>" become entry and exit.
   */
  method NewPlugin(c: Counter) returns (r: Built<Plugin>)
    ensures |r.value.net.places| == 2
    ensures r.value.net.places[0].id == r.value.entry && r.value.net.places[1].id == r.value.exit
    ensures r.value.entry != r.value.exit
    ensures forall p | p in r.value.net.places :: p.typ == "Unit" && p.init == ""
    ensures r.value.net.places[0].name == "entry" + Decimal(r.value.net.id)
    ensures r.value.net.places[1].name == "exit" + Decimal(r.value.net.id)
    ensures r.value.net.transitions == [] && r.value.net.inputs == []
    ensures r.value.net.outputs == [] && r.value.net.controlFlow == []
    ensures WellFormed(r.value)
    ensures c + 3 < IdModulus ==> r.value.net.id == c + 1 && r.value.entry == c + 2 && r.value.exit == c + 3
    ensures c + 3 < IdModulus ==> r.counter == c + 3 && DrawnInOrder(r.value.net, c + 1)
    ensures c + 3 < IdModulus ==> FreshIds(r.value.net, c, r.counter)
  {
    var n := NewNet(c);
    var en := AddPlace(n.net, n.counter, "Unit", "", "entry" + Decimal(n.net.id));
    var ex := AddPlace(en.net, en.counter, "Unit", "", "exit" + Decimal(n.net.id));
    r := Built(Plugin(ex.net, en.elem.id, ex.elem.id), ex.counter);
    if c + 3 < IdModulus {
      DrawnInOrderFresh(r.value.net, c + 1, c);
    }
  }

  /** `set_exit_place`: rebinds the exit. */
  function WithExit(p: Plugin, exit: Id): (r: Plugin)
    ensures r.net == p.net && r.entry == p.entry && r.exit == exit
  {
    p.(exit := exit)
  }

  /**
   * `PluginCommNet::inject_pluign_cn`: moves every element of `other` across,
   * joins the receiver's entry to `other`'s entry by a control-flow edge, and
   * makes `other`'s exit the receiver's new entry.  The exit is unchanged.
   */
  function Splice(a: Plugin, b: Plugin): (r: Plugin)
    ensures r.net.id == a.net.id
    ensures r.net.places == a.net.places + b.net.places
    ensures r.net.transitions == a.net.transitions + b.net.transitions
    ensures r.net.inputs == a.net.inputs + b.net.inputs
    ensures r.net.outputs == a.net.outputs + b.net.outputs
    ensures r.net.controlFlow == a.net.controlFlow + b.net.controlFlow + [Edge(PlaceRef(a.entry), PlaceRef(b.entry), Take, "")]
    ensures r.entry == b.exit && r.exit == a.exit
  {
    var moved := Absorb(a.net, b.net);
    var joined := AddControlFlowEdge(moved, PlaceRef(a.entry), PlaceRef(b.entry), "");
    Plugin(joined, b.exit, a.exit)
  }

  /**
   * Splicing keeps a plugin net well formed, whether the absorbed net is
   * closed itself or already wired to the receiver.
   */
  lemma SpliceWellFormed(a: Plugin, b: Plugin)
    requires WellFormed(a) && b.entry in PlaceIds(b.net) && b.exit in PlaceIds(b.net)
    requires ClosedOver(b.net, a.net)
    ensures WellFormed(Splice(a, b))
    ensures PlaceIds(a.net) <= PlaceIds(Splice(a, b).net)
    ensures TransitionIds(a.net) <= TransitionIds(Splice(a, b).net)
  {
    var moved := Absorb(a.net, b.net);
    AbsorbClosed(a.net, b.net);
    AbsorbIds(a.net, b.net);
    var r := Splice(a, b);
    assert r.net == AddControlFlowEdge(moved, PlaceRef(a.entry), PlaceRef(b.entry), "");
    AddEdgesKeepClosed(moved, r.net);
  }

  /**
   * Splicing a net whose elements were all drawn after the receiver's keeps
   * element ids unique, and the new entry differs from the exit.
   */
  lemma SpliceFresh(a: Plugin, b: Plugin, lo: int, mid: int, hi: int)
    requires lo <= mid <= hi
    requires FreshIds(a.net, lo, mid) && FreshIds(b.net, mid, hi)
    requires a.exit in PlaceIds(a.net) && b.exit in PlaceIds(b.net)
    ensures FreshIds(Splice(a, b).net, lo, hi)
    ensures Splice(a, b).entry != Splice(a, b).exit
  {
    AbsorbFresh(a.net, b.net, lo, mid, hi);
    var r := Splice(a, b);
    assert r.net.places == Absorb(a.net, b.net).places;
    assert r.net.transitions == Absorb(a.net, b.net).transitions;
    var pa :| pa in a.net.places && pa.id == a.exit;
    var pb :| pb in b.net.places && pb.id == b.exit;
    assert pa.id <= mid < pb.id;
  }

  // ---------------------------------------------------------------------------
  // Message requests (`generate_message_request`, at the level of its parts)

  const IdPart := "id=unique(id)"

  /** `prepare_part`: "name=val", or nothing for an empty value. */
  function Part(name: string, val: string): string {
    if val == "" then "" else name + "=" + val
  }

  /** `store_if_not(parts, x, "")`: keeps `x` unless it is empty. */
  function StoreNonEmpty(parts: seq<string>, x: string): seq<string> {
    if x == "" then parts else parts + [x]
  }

  /** 1 when a field is present (non-empty), 0 otherwise. */
  function Present(val: string): nat {
    if val == "" then 0 else 1
  }

  /** The parts of a message request, before they are joined into `{...}`. */
  function MessageRequestParts(src: string, dest: string, tag: string, buffered: string): (parts: seq<string>)
    ensures |parts| == 1 + Present(src) + Present(dest) + Present(tag) + Present(buffered)
    ensures parts[0] == IdPart
    ensures forall i | 1 <= i < |parts| :: KeyRank(parts[i]) < 4
    ensures forall i, j | 1 <= i < j < |parts| :: KeyRank(parts[i]) < KeyRank(parts[j])
  {
    var p0 := [IdPart];
    var p1 := StoreNonEmpty(p0, Part("src", src));
    var p2 := StoreNonEmpty(p1, Part("dest", dest));
    var p3 := StoreNonEmpty(p2, Part("tag", tag));
    var p4 := StoreNonEmpty(p3, Part("buffered", buffered));
    KeyRanks(src, dest, tag, buffered);
    StoreRanked(p0, "src", src, 0);
    StoreRanked(p1, "dest", dest, 1);
    StoreRanked(p2, "tag", tag, 2);
    StoreRanked(p3, "buffered", buffered, 3);
    p4
  }

  /** The id part first, then parts in strictly increasing key order, each ranked below `bound`. */
  predicate RankedBelow(parts: seq<string>, bound: nat) {
    && |parts| >= 1 && parts[0] == IdPart
    && (forall i | 1 <= i < |parts| :: KeyRank(parts[i]) < bound)
    && (forall i, j | 1 <= i < j < |parts| :: KeyRank(parts[i]) < KeyRank(parts[j]))
  }

  /** Storing the part of the field ranked `bound` keeps the parts ordered. */
  lemma StoreRanked(parts: seq<string>, key: string, val: string, bound: nat)
    requires RankedBelow(parts, bound) && |key| > 0
    requires val != "" ==> KeyRank(Part(key, val)) == bound
    ensures RankedBelow(StoreNonEmpty(parts, Part(key, val)), bound + 1)
    ensures |StoreNonEmpty(parts, Part(key, val))| == |parts| + Present(val)
  {
    if val != "" {
      assert |Part(key, val)| > 0;
    }
  }

  /** A part "key=v" names `key` and no other field key. */
  lemma KeyRanks(src: string, dest: string, tag: string, buffered: string)
    ensures src != "" ==> KeyRank(Part("src", src)) == 0
    ensures dest != "" ==> KeyRank(Part("dest", dest)) == 1
    ensures tag != "" ==> KeyRank(Part("tag", tag)) == 2
    ensures buffered != "" ==> KeyRank(Part("buffered", buffered)) == 3
  {
    FirstCharDecides("src", "dest", dest);
    FirstCharDecides("src", "tag", tag);
    FirstCharDecides("dest", "tag", tag);
    FirstCharDecides("src", "buffered", buffered);
    FirstCharDecides("dest", "buffered", buffered);
    FirstCharDecides("tag", "buffered", buffered);
  }

  /** A part written for key `k` never starts with another key whose first letter differs. */
  lemma FirstCharDecides(key: string, k: string, val: string)
    requires |key| > 0 && |k| > 0 && key[0] != k[0]
    ensures !HasKey(k + "=" + val, key)
  {
    assert (key + "=")[0] == key[0];
    assert (k + "=" + val)[0] == k[0];
  }

  /** Position in the emission order src, dest, tag, buffered of a part's key; 4 when none. */
  function KeyRank(part: string): nat {
    if HasKey(part, "src") then 0
    else if HasKey(part, "dest") then 1
    else if HasKey(part, "tag") then 2
    else if HasKey(part, "buffered") then 3
    else 4
  }

  predicate HasKey(part: string, key: string) {
    key + "=" <= part
  }

  /** The value stored under `key` in the first part naming it; empty when none does. */
  function FieldValue(parts: seq<string>, key: string): string
    decreases |parts|
  {
    if |parts| == 0 then ""
    else if HasKey(parts[0], key) then parts[0][|key| + 1..]
    else FieldValue(parts[1..], key)
  }

  lemma {:induction false} FieldValueSkip(a: seq<string>, b: seq<string>, key: string)
    requires forall i | 0 <= i < |a| :: !HasKey(a[i], key)
    ensures FieldValue(a + b, key) == FieldValue(b, key)
    decreases |a|
  {
    if |a| > 0 {
      assert (a + b)[0] == a[0];
      assert (a + b)[1..] == a[1..] + b;
      FieldValueSkip(a[1..], b, key);
    } else {
      assert a + b == b;
    }
  }

  /** The parts for one field: nothing when its value is empty. */
  function FieldPart(key: string, val: string): seq<string> {
    StoreNonEmpty([], Part(key, val))
  }

  lemma FieldPartValue(key: string, val: string, rest: seq<string>)
    requires forall i | 0 <= i < |rest| :: !HasKey(rest[i], key)
    ensures FieldValue(FieldPart(key, val) + rest, key) == val
  {
    if val == "" {
      assert FieldPart(key, val) + rest == rest;
      FieldValueSkip(rest, [], key);
      assert rest + [] == rest;
    } else {
      var x := key + "=" + val;
      assert (FieldPart(key, val) + rest)[0] == x;
      assert x[|key| + 1..] == val;
    }
  }

  /** The parts are the id part followed by each present field, in order. */
  lemma PartsShape(src: string, dest: string, tag: string, buffered: string)
    ensures MessageRequestParts(src, dest, tag, buffered) ==
      [IdPart] + FieldPart("src", src) + FieldPart("dest", dest) + FieldPart("tag", tag) + FieldPart("buffered", buffered)
  {
  }

  /** None of the given parts names `key`. */
  predicate NoKey(parts: seq<string>, key: string) {
    forall i | 0 <= i < |parts| :: !HasKey(parts[i], key)
  }

  lemma KeysApart(src: string, dest: string, tag: string, buffered: string)
    ensures NoKey([IdPart], "src") && NoKey([IdPart], "dest") && NoKey([IdPart], "tag") && NoKey([IdPart], "buffered")
    ensures NoKey(FieldPart("src", src), "dest") && NoKey(FieldPart("src", src), "tag") && NoKey(FieldPart("src", src), "buffered")
    ensures NoKey(FieldPart("dest", dest), "src") && NoKey(FieldPart("dest", dest), "tag") && NoKey(FieldPart("dest", dest), "buffered")
    ensures NoKey(FieldPart("tag", tag), "src") && NoKey(FieldPart("tag", tag), "dest") && NoKey(FieldPart("tag", tag), "buffered")
    ensures NoKey(FieldPart("buffered", buffered), "src") && NoKey(FieldPart("buffered", buffered), "dest")
    ensures NoKey(FieldPart("buffered", buffered), "tag")
  {
    IdPartNamesNoField();
    OtherKeyAbsent("dest", "src", src);
    OtherKeyAbsent("tag", "src", src);
    OtherKeyAbsent("buffered", "src", src);
    OtherKeyAbsent("src", "dest", dest);
    OtherKeyAbsent("tag", "dest", dest);
    OtherKeyAbsent("buffered", "dest", dest);
    OtherKeyAbsent("src", "tag", tag);
    OtherKeyAbsent("dest", "tag", tag);
    OtherKeyAbsent("buffered", "tag", tag);
    OtherKeyAbsent("src", "buffered", buffered);
    OtherKeyAbsent("dest", "buffered", buffered);
    OtherKeyAbsent("tag", "buffered", buffered);
  }

  lemma IdPartNamesNoField()
    ensures NoKey([IdPart], "src") && NoKey([IdPart], "dest") && NoKey([IdPart], "tag") && NoKey([IdPart], "buffered")
  {
    assert IdPart == "id" + "=" + "unique(id)";
    FirstCharDecides("src", "id", "unique(id)");
    FirstCharDecides("dest", "id", "unique(id)");
    FirstCharDecides("tag", "id", "unique(id)");
    FirstCharDecides("buffered", "id", "unique(id)");
  }

  /** The part stored for field `k` does not name a key with a different first letter. */
  lemma OtherKeyAbsent(key: string, k: string, val: string)
    requires |key| > 0 && |k| > 0 && key[0] != k[0]
    ensures NoKey(FieldPart(k, val), key)
  {
    if val != "" {
      FirstCharDecides(key, k, val);
    }
  }

  lemma NoKeyAppend(a: seq<string>, b: seq<string>, key: string)
    requires NoKey(a, key) && NoKey(b, key)
    ensures NoKey(a + b, key)
  {
  }

  /**
   * Reading the parts back: every field is recovered, an omitted field reads
   * as empty, so the parts lose nothing.
   */
  lemma MessageRequestRoundTrip(src: string, dest: string, tag: string, buffered: string)
    ensures FieldValue(MessageRequestParts(src, dest, tag, buffered), "src") == src
    ensures FieldValue(MessageRequestParts(src, dest, tag, buffered), "dest") == dest
    ensures FieldValue(MessageRequestParts(src, dest, tag, buffered), "tag") == tag
    ensures FieldValue(MessageRequestParts(src, dest, tag, buffered), "buffered") == buffered
  {
    var i := [IdPart];
    var s := FieldPart("src", src);
    var d := FieldPart("dest", dest);
    var t := FieldPart("tag", tag);
    var b := FieldPart("buffered", buffered);
    PartsShape(src, dest, tag, buffered);
    KeysApart(src, dest, tag, buffered);
    RecoverField(i, s, d + t + b, "src", src);
    NoKeyAppend(i, s, "dest");
    NoKeyAppend(t, b, "dest");
    RecoverField(i + s, d, t + b, "dest", dest);
    NoKeyAppend(i, s, "tag");
    NoKeyAppend(i + s, d, "tag");
    RecoverField(i + s + d, t, b, "tag", tag);
    NoKeyAppend(i, s, "buffered");
    NoKeyAppend(i + s, d, "buffered");
    NoKeyAppend(i + s + d, t, "buffered");
    RecoverField(i + s + d + t, b, [], "buffered", buffered);
    Regroup(i, s, d, t, b);
  }

  lemma Regroup<T>(i: seq<T>, s: seq<T>, d: seq<T>, t: seq<T>, b: seq<T>)
    ensures i + s + d + t + b + [] == i + s + d + t + b
    ensures i + s + d + (t + b) == i + s + d + t + b
    ensures i + s + (d + (t + b)) == i + s + d + t + b
    ensures i + s + (d + t + b) == i + s + d + t + b
  {
  }

  /** A field's value is recovered when no part before or after it names its key. */
  lemma RecoverField(before: seq<string>, field: seq<string>, after: seq<string>, key: string, val: string)
    requires NoKey(before, key) && NoKey(after, key)
    requires field == FieldPart(key, val)
    ensures FieldValue(before + field + after, key) == val
  {
    assert before + field + after == before + (field + after);
    FieldValueSkip(before, field + after, key);
    FieldPartValue(key, val, after);
  }

  // ---------------------------------------------------------------------------
  // Addressable nets

  type Address = Counter

  /** A plugin net with the four shared mailbox places of one process address. */
  datatype Addressable = Addressable(address: Address, plugin: Plugin, asr: Id, arr: Id, csr: Id, crr: Id)

  /** The plugin net is well formed and holds all four mailbox places. */
  predicate AddressableWellFormed(a: Addressable) {
    && WellFormed(a.plugin)
    && a.asr in PlaceIds(a.plugin.net) && a.arr in PlaceIds(a.plugin.net)
    && a.csr in PlaceIds(a.plugin.net) && a.crr in PlaceIds(a.plugin.net)
  }

  /**
   * The `AddressableCommNet` constructor: a plugin net plus the places
   * "Active Send Request" (asr), "Active Receive Request" (arr),
   * "Completed Send Request" (csr) and "Completed Receive Request" (crr);
   * asr and crr hold message tokens, arr and csr message requests.
   */
  method NewAddressable(c: Counter, address: Address) returns (r: Built<Addressable>)
    ensures r.value.address == address
    ensures |r.value.plugin.net.places| == 6
    ensures r.value.plugin.net.places[2] == Place(r.value.asr, "Active Send Request", "MessageToken", "")
    ensures r.value.plugin.net.places[3] == Place(r.value.arr, "Active Receive Request", "MessageRequest", "")
    ensures r.value.plugin.net.places[4] == Place(r.value.csr, "Completed Send Request", "MessageRequest", "")
    ensures r.value.plugin.net.places[5] == Place(r.value.crr, "Completed Receive Request", "MessageToken", "")
    ensures r.value.plugin.net.transitions == [] && AllEdges(r.value.plugin.net) == []
    ensures AddressableWellFormed(r.value)
    ensures c + 7 < IdModulus ==> r.counter == c + 7 && FreshIds(r.value.plugin.net, c, r.counter)
    ensures c + 7 < IdModulus ==>
      && r.value.plugin.entry == c + 2 && r.value.plugin.exit == c + 3
      && r.value.asr == c + 4 && r.value.arr == c + 5 && r.value.csr == c + 6 && r.value.crr == c + 7
  {
    var mail := MailboxPlugin(c);
    var p := mail.value;
    var ps := p.net.places;
    assert forall i | 0 <= i < 6 :: ps[i].id in PlaceIds(p.net);
    r := Built(Addressable(address, p, ps[2].id, ps[3].id, ps[4].id, ps[5].id), mail.counter);
  }

  /** The plugin net of an addressable net: entry and exit, then the four mailbox places in order. */
  method MailboxPlugin(c: Counter) returns (r: Built<Plugin>)
    ensures var n := r.value.net;
      && |n.places| == 6 && n.places[0].id == r.value.entry && n.places[1].id == r.value.exit
      && n.places[2] == Place(n.places[2].id, "Active Send Request", "MessageToken", "")
      && n.places[3] == Place(n.places[3].id, "Active Receive Request", "MessageRequest", "")
      && n.places[4] == Place(n.places[4].id, "Completed Send Request", "MessageRequest", "")
      && n.places[5] == Place(n.places[5].id, "Completed Receive Request", "MessageToken", "")
      && n.transitions == [] && n.inputs == [] && n.outputs == [] && n.controlFlow == []
    ensures c + 7 < IdModulus ==>
      r.counter == c + 7 && DrawnInOrder(r.value.net, c + 1) && FreshIds(r.value.net, c, r.counter)
  {
    var base := NewPlugin(c);
    var mail := AddPlaces(base.value.net, base.counter, [
      PlaceSpec("MessageToken", "", "Active Send Request"),
      PlaceSpec("MessageRequest", "", "Active Receive Request"),
      PlaceSpec("MessageRequest", "", "Completed Send Request"),
      PlaceSpec("MessageToken", "", "Completed Receive Request")], c + 1);
    r := Built(base.value.(net := mail.value), mail.counter);
    if c + 7 < IdModulus {
      DrawnInOrderFresh(mail.value, c + 1, c);
    }
  }

  /**
   * `AddressableCommNet::inject_pluign_cn` once the absorbed net has run its
   * mailbox hooks (`connected`): the generic splice, with the address and the
   * mailbox places kept.
   */
  function AddressableInject(a: Addressable, connected: Plugin): (r: Addressable)
    ensures r.plugin == Splice(a.plugin, connected)
    ensures r.address == a.address && r.asr == a.asr && r.arr == a.arr && r.csr == a.csr && r.crr == a.crr
  {
    a.(plugin := Splice(a.plugin, connected))
  }

  /**
   * Injecting a net whose edges stay within itself and the addressable net
   * (its own, and those its hooks added to the mailboxes) keeps the
   * addressable net well formed.
   */
  lemma AddressableInjectWellFormed(a: Addressable, connected: Plugin)
    requires AddressableWellFormed(a)
    requires connected.entry in PlaceIds(connected.net) && connected.exit in PlaceIds(connected.net)
    requires ClosedOver(connected.net, a.plugin.net)
    ensures AddressableWellFormed(AddressableInject(a, connected))
  {
    SpliceWellFormed(a.plugin, connected);
  }

  /** `AddressableCommNet::print`: the address line, then the net between two rules. */
  function RenderAddressable(a: Addressable): string {
    "Adress: " + Decimal(a.address) + AddressableBody(a)
  }

  function AddressableBody(a: Addressable): string {
    "\n" + RuledNet(a.plugin.net)
  }

  function RuledNet(n: Net): string {
    Rule + "\n" + RenderNet(n) + Rule + "\n\n"
  }

  const Rule := "------------------------------------------------------------"

  lemma DropLabel(p: string, d: string, rest: string)
    ensures (p + d + rest)[|p|..] == d + rest
  {
  }

  /** The address can be read back from the rendering. */
  lemma RenderAddressableAddress(a: Addressable)
    ensures ParseDecimal(DigitPrefix(RenderAddressable(a)[8..])) == a.address
  {
    var d := Decimal(a.address);
    var rest := AddressableBody(a);
    DropLabel("Adress: ", d, rest);
    assert rest == "\n" + RuledNet(a.plugin.net);
    assert rest[0] == '\n';
    DigitPrefixOf(d, rest);
    ParseDecimalInverts(a.address);
  }
}

=== FILE: resolve.dfy ===
/**
 * The deferred resolutions registered by `CN_MPI_Irecv`: once the wait that
 * completes a receive's request is known, the resolve step wires the
 * receive's places to that wait's transition and, when the wait was
 * connected to an addressable net, adds the pending edge from crr.
 */
module DeferredResolution {
  import opened Wrappers
  import opened CommNet
  import opened PluginNets
  import opened Factory
  import opened Mailboxes

  /** The arc of the crr edge a collective wait takes all matching messages by. */
  const CollectiveCompletionArc :=
    "take(requests|(_, {id=id}) =>* {envelope={id=id}},\\l     size,\\l     msg_tokens)\\l"

  /** The edge from crr a connected wait still needs, carrying `arc`. */
  function CompletionEdge(pe: PendingEdge, arc: string): Edge {
    Edge(PlaceRef(pe.crr), TransitionRef(pe.endpoint), pe.kind, arc)
  }

  /**
   * The resolve function stored with an unresolved place, applied to the net
   * `n`, the registered place and the wait transition found for it.
   *  - Direct (`create_resolve_fn_`): the wait takes the initiated request
   *    from the registered place, delivers the data into the data place, and
   *    a pending edge brings the message from crr.
   *  - Collective (`create_collective_resolve_fn_`): only the data delivery
   *    and, when pending, the crr edge taking every matching message.
   */
  function Resolve(n: Net, up: UnresolvedPlace, ut: UnresolvedTransition): (r: Net)
    ensures r.id == n.id && r.places == n.places && r.transitions == n.transitions
    ensures r.controlFlow == n.controlFlow
    ensures r.outputs == n.outputs + [Edge(TransitionRef(ut.transition), PlaceRef(up.resolution.data), Take, up.resolution.arc)]
    ensures |r.inputs| == |n.inputs| + (if up.resolution.Direct? then 1 else 0) + (if ut.pending.Some? then 1 else 0)
    ensures r.inputs[..|n.inputs|] == n.inputs
    ensures up.resolution.Direct? ==>
      r.inputs[|n.inputs|] == Edge(PlaceRef(up.place), TransitionRef(ut.transition), Take, TakeRequestArc)
    ensures ut.pending.Some? ==>
      r.inputs[|r.inputs| - 1] ==
        CompletionEdge(ut.pending.value, if up.resolution.Direct? then ReceiveCompletionArc else CollectiveCompletionArc)
  {
    var t := ut.transition;
    match up.resolution
    case Direct(data, arc) =>
      var n1 := AddInputEdge(n, up.place, t, Take, TakeRequestArc);
      var n2 := AddOutputEdge(n1, t, data, arc);
      if ut.pending.Some? then
        var pe := ut.pending.value;
        AddInputEdge(n2, pe.crr, pe.endpoint, pe.kind, ReceiveCompletionArc)
      else n2
    case Collective(data, arc) =>
      var n1 := AddOutputEdge(n, t, data, arc);
      if ut.pending.Some? then
        var pe := ut.pending.value;
        AddInputEdge(n1, pe.crr, pe.endpoint, pe.kind, CollectiveCompletionArc)
      else n1
  }

  /** Everything a resolution wires lies in the net: the registered places, the wait and the pending edge. */
  predicate ResolvableIn(n: Net, up: UnresolvedPlace, ut: UnresolvedTransition) {
    && up.place in PlaceIds(n) && up.resolution.data in PlaceIds(n)
    && ut.transition in TransitionIds(n)
    && (ut.pending.Some? ==> ut.pending.value.crr in PlaceIds(n) && ut.pending.value.endpoint in TransitionIds(n))
  }

  /** Resolving inside a closed net keeps it closed. */
  lemma ResolveClosed(n: Net, up: UnresolvedPlace, ut: UnresolvedTransition)
    requires Closed(n) && ResolvableIn(n, up, ut)
    ensures Closed(Resolve(n, up, ut))
  {
    var r := Resolve(n, up, ut);
    forall e | e in AllEdges(r) && e !in AllEdges(n) ensures RefIn(e.src, n) && RefIn(e.dst, n) {
      if e in r.outputs {
        assert r.outputs == n.outputs + [r.outputs[|n.outputs|]];
      } else if e in r.inputs {
        assert r.inputs == n.inputs + r.inputs[|n.inputs|..];
        var k :| |n.inputs| <= k < |r.inputs| && r.inputs[k] == e;
        if up.resolution.Direct? && k == |n.inputs| {
        } else {
          assert ut.pending.Some? && k == |r.inputs| - 1;
        }
      }
    }
    AddEdgesKeepClosed(n, r);
  }

  /**
   * A resolution delivers exactly one more edge into the data place, and
   * only the direct one takes the request from the registered place.
   */
  lemma ResolveCounts(n: Net, up: UnresolvedPlace, ut: UnresolvedTransition)
    requires ut.pending.Some? ==> ut.pending.value.crr != up.place
    ensures CountInto(Resolve(n, up, ut).outputs, PlaceRef(up.resolution.data)) == CountInto(n.outputs, PlaceRef(up.resolution.data)) + 1
    ensures CountFrom(Resolve(n, up, ut).inputs, PlaceRef(up.place), Take) ==
      CountFrom(n.inputs, PlaceRef(up.place), Take) + (if up.resolution.Direct? then 1 else 0)
  {
    var r := Resolve(n, up, ut);
    var added := r.inputs[|n.inputs|..];
    assert r.inputs == n.inputs + added;
    CountIntoAppend(n.outputs, [r.outputs[|n.outputs|]], PlaceRef(up.resolution.data));
    CountFromAppend(n.inputs, added, PlaceRef(up.place), Take);
    var src := PlaceRef(up.place);
    assert CountInto([r.outputs[|n.outputs|]], PlaceRef(up.resolution.data)) == 1 + CountInto([], PlaceRef(up.resolution.data));
    if |added| == 0 {
    } else if |added| == 1 {
      assert added[1..] == [];
      assert CountFrom(added, src, Take) == (if added[0].src == src && added[0].kind == Take then 1 else 0) + CountFrom(added[1..], src, Take);
    } else {
      assert added[1..][1..] == [];
      assert added[1].src != src;
      assert CountFrom(added, src, Take) == 1 + CountFrom(added[1..], src, Take);
      assert CountFrom(added[1..], src, Take) == 0 + CountFrom(added[1..][1..], src, Take);
    }
  }

  /**
   * A direct receive completed by a connected `MPI_Wait` on the same
   * request: the wait takes the request, fills the receive's data place, and
   * shuffles the message in from crr.
   */
  lemma IrecvWaitDirect(irecv: Fragment, wait: Fragment, h: Helpers, args: seq<Value>, a: Addressable, n: Net)
    requires |args| > 6 && !args[6].ElementPtr?
    requires RecvLayout(irecv, h, args)
    requires irecv.registry.places == [UnresolvedPlace(irecv.plugin.net.places[4].id, args[6],
      Direct(irecv.plugin.net.places[3].id, h.bufferValue(args[2], args[1])))]
    requires WaitLayout(wait, h, Some(args[6]))
    ensures var up := irecv.registry.places[0];
      var ut := Connect(wait, a).registry.transitions[0];
      var w := wait.plugin.net.transitions[0].id;
      var reqst, data := irecv.plugin.net.places[4].id, irecv.plugin.net.places[3].id;
      && up.handle == ut.handle
      && Resolve(n, up, ut).inputs == n.inputs + [
           Edge(PlaceRef(reqst), TransitionRef(w), Take, TakeRequestArc),
           Edge(PlaceRef(a.crr), TransitionRef(w), Shuffle, ReceiveCompletionArc)]
      && Resolve(n, up, ut).outputs == n.outputs + [Edge(TransitionRef(w), PlaceRef(data), Take, h.bufferValue(args[2], args[1]))]
  {
    WaitConnect(wait, h, Some(args[6]), a);
  }

  /**
   * A receive into an element of a request array, completed by a connected
   * `MPI_Waitall` on that array: the wait fills the data place and takes
   * every matching message from crr; the request place is not touched.
   */
  lemma IrecvWaitallCollective(irecv: Fragment, waitall: Fragment, h: Helpers, args: seq<Value>,
                               wargs: seq<Value>, a: Addressable, n: Net)
    requires |args| > 6 && args[6].ElementPtr? && |wargs| > 1 && wargs[1] == args[6].pointer
    requires RecvLayout(irecv, h, args)
    requires irecv.registry.places == [UnresolvedPlace(irecv.plugin.net.places[3].id, args[6].pointer,
      Collective(irecv.plugin.net.places[3].id, CollectiveDataArc))]
    requires WaitallLayout(waitall, h, wargs)
    ensures var up := irecv.registry.places[0];
      var ut := Connect(waitall, a).registry.transitions[0];
      var w := waitall.plugin.net.transitions[0].id;
      var data := irecv.plugin.net.places[3].id;
      && up.handle == ut.handle
      && Resolve(n, up, ut).inputs == n.inputs + [Edge(PlaceRef(a.crr), TransitionRef(w), Shuffle, CollectiveCompletionArc)]
      && Resolve(n, up, ut).outputs == n.outputs + [Edge(TransitionRef(w), PlaceRef(data), Take, CollectiveDataArc)]
  {
    WaitallConnect(waitall, h, wargs, a);
  }

  /** Any pending registration pair of a well-formed process resolves inside its net and keeps it closed. */
  lemma ResolvePending(p: Process, i: nat, j: nat)
    requires ProcessWellFormed(p) && i < |p.pending.places| && j < |p.pending.transitions|
    ensures ResolvableIn(p.net.plugin.net, p.pending.places[i], p.pending.transitions[j])
    ensures Closed(Resolve(p.net.plugin.net, p.pending.places[i], p.pending.transitions[j]))
  {
    var n := p.net.plugin.net;
    assert p.pending.places[i] in p.pending.places;
    assert p.pending.transitions[j] in p.pending.transitions;
    ResolveClosed(n, p.pending.places[i], p.pending.transitions[j]);
  }

  /**
   * An `MPI_Irecv` and then the `MPI_Wait` on its request, both injected
   * into a process: the two registrations they leave behind carry the same
   * handle, and resolving them in the grown net adds the request take, the
   * crr shuffle and the data delivery, keeping the net closed.
   */
  lemma IrecvThenWaitResolves(p: Process, irecv: Fragment, wait: Fragment, h: Helpers, args: seq<Value>)
    requires ProcessWellFormed(p)
    requires |args| > 6 && !args[6].ElementPtr?
    requires RecvLayout(irecv, h, args) && IrecvRegistration(irecv, h, args) && FragmentWellFormed(irecv)
    requires WaitLayout(wait, h, Some(args[6]))
    ensures var q := InjectInto(InjectInto(p, irecv), wait);
      var n := q.net.plugin.net;
      var up := q.pending.places[|p.pending.places|];
      var ut := q.pending.transitions[|p.pending.transitions|];
      var w := wait.plugin.net.transitions[0].id;
      var reqst, data := irecv.plugin.net.places[4].id, irecv.plugin.net.places[3].id;
      && ProcessWellFormed(q)
      && up.handle == ut.handle
      && Resolve(n, up, ut).inputs == n.inputs + [
           Edge(PlaceRef(reqst), TransitionRef(w), Take, TakeRequestArc),
           Edge(PlaceRef(p.net.crr), TransitionRef(w), Shuffle, ReceiveCompletionArc)]
      && Resolve(n, up, ut).outputs == n.outputs + [Edge(TransitionRef(w), PlaceRef(data), Take, h.bufferValue(args[2], args[1]))]
      && Closed(Resolve(n, up, ut))
  {
    var p1 := InjectInto(p, irecv);
    var q := InjectInto(p1, wait);
    assert irecv.registry.places == [irecv.registry.places[0]];
    WaitLayoutWellFormed(wait, h, Some(args[6]));
    InjectIntoWellFormed(p, irecv);
    InjectIntoWellFormed(p1, wait);
    IrecvWaitDirect(irecv, wait, h, args, p1.net, q.net.plugin.net);
    WaitConnect(wait, h, Some(args[6]), p1.net);
    assert q.pending.places[|p.pending.places|] == irecv.registry.places[0];
    assert q.pending.transitions[|p.pending.transitions|] == Connect(wait, p1.net).registry.transitions[0];
    ResolvePending(q, |p.pending.places|, |p.pending.transitions|);
  }
}

=== FILE: wrappers.dfy ===
/** Optional values, standing for the nullable pointers of the analysed code. */
module Wrappers {

  datatype Option<+T> = None | Some(value: T)
}
